=== FILE: README.md ===
# RMTT flight-control core, modelled in Dafny

This project models the control core of the RoboMaster TT / Tello drone
controllers. The model covers:

- the controller lifecycle (`BaseController`) and the mode state machine of
  the `ControllerManager`, with its registry and per-controller error counters;
- the per-tick control laws over real numbers:
  - the generic PID;
  - the position, attitude, velocity and trajectory controllers;
  - the three landing-experiment controllers (cascaded PID, UDE and the
    AMESO/ADRC sliding-mode controller), each in both of its copies: the hx
    copy under `hx_exp_1_landing/` and the controller package under
    `controllers/landing_experiment/`;
- the small pure helpers around them:
  - trajectory tables and the look-ahead lookup;
  - the RMTT sensor adapter;
  - experiment parameter validation and time estimates;
  - the Tello state-string parser and CSV row shape;
  - the movement safety validator;
  - the thrust-to-throttle conversions.

Every operation is a pure function from (state, inputs) to (state', output).
The model is built as follows:

- Python exceptions become a `Result` failure carrying the exception kind,
  in module `Outcomes`.
- Hook results and "may raise" getters are parameters.
- Python `int()` is truncation toward zero (`Numerics.Trunc`), and `np.clip`
  is `Numerics.Clip`.
- `sin`, `cos`, `tan`, `atan`, `atan2`, `asin`, `pow` and `sqrt` are fields of
  a `Transcendentals` record passed in as a parameter. Nothing is assumed
  about their values.
- Time, `dt` and timestamps are parameters.

The two copies of `sat` are kept apart:

- the hx copy writes it as nested conditionals (`Numerics.Sat`);
- the controller package writes it as `max(-L, min(L, x))` (`Numerics.SatLanding`).

They agree for every non-negative limit and differ for a negative one. Every
landing controller uses the spelling of its own copy (`SatSpelling`).

Modules follow the source files:

| module | file |
|---|---|
| `Numerics` | numerics.dfy |
| `Outcomes` | outcomes.dfy |
| `LandingTypes` | landing_types.dfy |
| `ForceShaping` | force_shaping.dfy |
| `LandingPid` | landing_pid.dfy |
| `LandingUde` | landing_ude.dfy |
| `Adrc` | adrc.dfy |
| `RmttAdapter` | rmtt_adapter.dfy |
| `BaseController` | base_controller.dfy |
| `ControllerManager` | controller_manager.dfy |
| `Pid` | pid.dfy |
| `PositionController` | position_controller.dfy |
| `AttitudeController` | attitude_controller.dfy |
| `VelocityController` | velocity_controller.dfy |
| `TrajectoryController` | trajectory_controller.dfy |
| `ExperimentConfig` | experiment_config.dfy |
| `FlightDataRecorder` | flight_data_recorder.dfy |
| `FlightSafety` | flight_safety.dfy |
| `ThrustConversion` | thrust_conversion.dfy |

Where the code and its documentation disagree, the model follows the code.
The main cases are:

- The AMESO weights are updated on every tick. `omega_star` only chooses
  whether the observer estimate is added (`p_t`); it does not freeze
  adaptation (`Adrc.Adapt`).
- The UDE controller keeps no disturbance estimate between calls. Its integral
  term is rebuilt from zero on each call (`LandingUde.Update`).
- A mode switch deactivates the old controller but does not reset it.
  EMERGENCY is not absorbing: any later switch leaves it.
- The hx ADRC saturates its XY errors but feeds the unsaturated ones into the
  desired acceleration; the controller package saturates them in place
  (`Adrc.Horizontal`).
- The default `omega_star` is 1.0 in the hx ADRC and 0.02 in the controller
  package (`Adrc.DefaultThresholdsDiffer`).
- The thrust conversion under test maps thrust 0.5 to throttle 5. Its script
  prints 0 as the expected value (`ThrustConversion.HoverGivesFive`).
- In the movement validator, the altitude rule for `up` can never fire: `up`
  is caught first by the speed rule (`FlightSafety.AltitudeRuleIsUnreachable`).
- The battery rules inside the position, attitude and velocity safety limits
  can never fire during a tick. The base controller's battery check (below 20)
  already stops the controller first (`PositionController.EmergencyDescentUnreachable`,
  `AttitudeController.BatteryClampUnreachable`, `VelocityController.EmergencyDescentUnreachable`).
- The manager indexes its error counters by the controller's own name. A
  controller registered under a different key makes the cycle raise a
  KeyError, which the loop counts as a loop error (`ControllerManager.UnknownNameEscapes`).
- The state-string parser matches `field:` anywhere, including inside a
  longer key such as `vgx:` (`FlightDataRecorder.FieldInsideLongerKey`).

## Model

| member | source | states |
|---|---|---|
| Numerics.Clip | controllers/position_control/trajectory_controller.py:486-488 | the result lies in [lo, hi] when lo ≤ hi, equals x inside the window and the violated bound outside it |
| Numerics.Saturate | hx_exp_1_landing/data_structures.py:101-103 | either spelling of `sat` lies in [-L, L] for L ≥ 0 and then equals the hx `sat`; each spelling is the one its copy uses |
| Numerics.SignProperties | hx_exp_1_landing/data_structures.py:96-98 | `sign(x)` is -1, 0 or 1, has the sign of x, and sign(x)·\|x\| = x |
| Numerics.SatProperties | hx_exp_1_landing/data_structures.py:101-103 | for L ≥ 0, `sat(x, L)` lies in [-L, L], leaves x unchanged when \|x\| ≤ L, is idempotent and equals clipping to [-L, L] |
| Numerics.SatSpellingsAgree | controllers/landing_experiment/landing_state.py:106-108 | the package's `max(-L, min(L, x))` equals the hx `sat` for every L ≥ 0 |
| Numerics.SatSpellingsDifferOnNegativeLimit | controllers/landing_experiment/landing_state.py:106-108 | with L = -1 and x = 5 the hx `sat` gives -1 and the package's gives 1, so the copies agree only for non-negative limits |
| Numerics.WrapHalfTurn | controllers/position_control/trajectory_controller.py:491-496 | one ±360 shift at most; a value already in [-180, 180] is kept; a value in [-540, 540] lands in [-180, 180] |
| Numerics.Trunc | controllers/landing_experiment/landing_state.py:63-66 | Python `int()`: the result has the sign of x and is the integer nearest zero within 1 of x |
| LandingTypes.HxDefaultState | hx_exp_1_landing/data_structures.py:45-49 | a default desired or current state has zero position, velocity and acceleration |
| LandingTypes.RcValue | hx_exp_1_landing/data_structures.py:86-91 | `int(clip(v, -100, 100))` lies in [-100, 100], is the truncation inside the window and the bound outside it |
| LandingTypes.ThrottleOf | hx_exp_1_landing/data_structures.py:91 | throttle is trunc((thrust − 0.5)·200) for thrust in [0, 1], 100 above 1 and -100 below 0 |
| LandingTypes.AsRcCommand | hx_exp_1_landing/data_structures.py:83-91 | all four RC values lie in [-100, 100]; throttle follows the thrust; roll, pitch and yaw within ±40° each become trunc(2.5·degrees) |
| LandingTypes.ToTelloRc | controllers/landing_experiment/landing_state.py:60-66 | all four RC values lie in [-100, 100]; throttle follows the thrust; roll, pitch and yaw within ±50° each become trunc(2·degrees) |
| LandingTypes.ThrottleTable | hx_exp_1_landing/quick_check.py:60-77 | over real arithmetic the expected table holds exactly: 0.5→0, 0.6→20, 0.4→-20, 1.0→100, 0.0→-100 |
| LandingTypes.CopiesScaleAnglesDifferently | controllers/landing_experiment/landing_state.py:63-66 | ten degrees of roll become 25 in the hx copy and 20 in the package, while the throttles agree |
| LandingTypes.RotationMatrix | controllers/landing_experiment/landing_state.py:71-81 | the identity for a missing quaternion or one whose length is not 4; otherwise the third column is the body z axis of (w, x, y, z) |
| LandingTypes.UnitQuaternionIsIdentity | controllers/landing_experiment/landing_state.py:76-81 | a quaternion with no vector part, (1, 0, 0, 0) among them, gives the identity |
| LandingTypes.RawThrust | controllers/landing_experiment/pid_controller.py:162-168 | without a usable quaternion the raw thrust is the vertical force component |
| LandingTypes.ThrustAlong | hx_exp_1_landing/pid_controller.py:165-167 | along the vertical body axis, or with no quaternion, the thrust is the force's z component |
| ForceShaping.CapError | hx_exp_1_landing/pid_controller.py:102-104 | each error component is capped to [-3, 3] and kept when already inside |
| ForceShaping.IntegralStep | hx_exp_1_landing/pid_controller.py:107-119 | outside the gate the integral resets to 0; inside it accumulates e·dt and is held within ±limit, hitting the violated bound |
| ForceShaping.Integrals | controllers/landing_experiment/pid_controller.py:102-114 | the XY integral is gated at 0.2, Z at 0.5, each reset outside its gate and within its limit |
| ForceShaping.Fallback | hx_exp_1_landing/pid_controller.py:131-135 | a vertical force below 0.01 in magnitude becomes (0, 0, 0.5·m·g); any other force is kept |
| ForceShaping.Window | hx_exp_1_landing/pid_controller.py:138-141 | for m > 0 the vertical force ends in [0.5·m·g, 2·m·g]; a force already inside is kept |
| ForceShaping.TiltAxis | hx_exp_1_landing/pid_controller.py:144-149 | a horizontal component beyond F_z·T is scaled onto the bound ±F_z·T; one inside it is kept |
| ForceShaping.Tilt | hx_exp_1_landing/pid_controller.py:144-149 | tilt limiting keeps F_z, brings \|F_x\| and \|F_y\| within F_z·T, and does nothing while \|F_z\| ≤ 0.01 |
| ForceShaping.TiltKeepsInner | hx_exp_1_landing/pid_controller.py:144-149 | a force already inside the tilt cone passes unchanged |
| ForceShaping.TiltKeepsVertical | controllers/landing_experiment/pid_controller.py:141-144 | a purely vertical force passes unchanged, whatever the limit |
| ForceShaping.Bounded | controllers/landing_experiment/pid_controller.py:126-136 | fallback then window: F_z ends in [0.5·m·g, 2·m·g], a near-zero F_z gives the half-weight force |
| ForceShaping.ShapeForce | hx_exp_1_landing/pid_controller.py:131-149 | the whole shaping: F_z within the window and the horizontal force within the tilt cone |
| ForceShaping.ShapeForceKeepsInnerForces | hx_exp_1_landing/pid_controller.py:131-149 | a force already within window and cone passes the shaping unchanged |
| ForceShaping.ShapeForceKeepsVerticalForces | hx_exp_1_landing/pid_controller.py:131-149 | a purely vertical force inside the window passes unchanged |
| ForceShaping.Limited | controllers/landing_experiment/pid_controller.py:141-144 | the package's tilt limiting: same cone guarantee, F_z kept |
| ForceShaping.ThrustCommand | hx_exp_1_landing/pid_controller.py:171-179 | the thrust command lies in [min_thrust, max_thrust] and is raw thrust over full thrust inside the window, with hov ≤ 0.01 read as 0.5 |
| ForceShaping.HoverFallback | hx_exp_1_landing/pid_controller.py:171-173 | any hover fraction ≤ 0.01 behaves exactly like 0.5 |
| ForceShaping.WeightIsKept | hx_exp_1_landing/pid_controller.py:131-149 | zero desired acceleration gives the desired force (0, 0, m·g) |
| ForceShaping.HoverThrust | hx_exp_1_landing/pid_controller.py:171-179 | a raw thrust equal to the weight gives the hover fraction when it lies in the thrust window |
| LandingPid.Init | hx_exp_1_landing/pid_controller.py:49-81 | x and y gains are shared and z is its own key, for kp (Kp_xy, Kp_z), kd (Kv_xy, Kv_z) and ki (Kvi_xy, Kvi_z); mass, hover fraction, tilt and both integral limits are read under the prefix with their defaults; thrust window [0.1, 1.0] |
| LandingPid.PrefixesAreNotInterchangeable | controllers/landing_experiment/pid_controller.py:46-77 | a dictionary with hx-prefixed keys is invisible to the package copy, which keeps its defaults |
| LandingPid.PackageDefaultsAgree | controllers/landing_experiment/pid_controller.py:18-38 | apart from the gains, `init` with no parameters reproduces the package constructor's values |
| LandingPid.Law | controllers/landing_experiment/pid_controller.py:97-123 | the integral stays within ±int_max per axis and resets outside the 0.2/0.5 gates; the shaped force is built from the PID acceleration with the integral already updated |
| LandingPid.Update | hx_exp_1_landing/pid_controller.py:94-181 | a missing state raises before anything changes; otherwise the new integral and the thrust are those of `Law` (the integral reset at the 0.2 x/y and 0.5 z gates, the thrust the clipped fraction of the shaped force along the thrust axis), yaw follows the desired yaw, thrust lies in the window and the integral in its bounds |
| LandingPid.HoverAtSetpoint | hx_exp_1_landing/pid_controller.py:94-181 | exactly at the set-point, level and with an empty integral, the thrust is the hover fraction and the integral stays empty |
| LandingPid.LawAtSetpoint | controllers/landing_experiment/pid_controller.py:97-136 | at the set-point the law asks for exactly the weight |
| LandingPid.IntegralAtSetpoint | hx_exp_1_landing/pid_controller.py:107-119 | zero error keeps an empty integral empty |
| LandingPid.NoAccelerationAtSetpoint | hx_exp_1_landing/pid_controller.py:102-125 | zero error and zero desired acceleration ask for zero acceleration |
| LandingUde.Init | hx_exp_1_landing/ude_controller.py:44-73 | x and y gains are shared and z is its own key (Kp_xy/Kp_z, Kd_xy/Kd_z); T_ude, mass, hover fraction, tilt and both integral limits are read under the prefix with their defaults; thrust window [0.1, 1.0] |
| LandingUde.PackageDefaultsAgree | controllers/landing_experiment/ude_controller.py:18-36 | apart from the gains, `init` with no parameters reproduces the package constructor's values |
| LandingUde.GatedProduct | hx_exp_1_landing/ude_controller.py:102-105 | each integral component is e·dt inside the 0.5 gate and 0 outside, rebuilt on every call |
| LandingUde.Compensation | hx_exp_1_landing/ude_controller.py:108-114 | a zero T_ude raises ZeroDivisionError; otherwise u_d is saturated per axis to int_max_xy and int_max_z |
| LandingUde.Limit | controllers/landing_experiment/ude_controller.py:105-111 | x and y are saturated to the xy limit and z to the z limit; zero stays zero |
| LandingUde.NoCompensationWithoutError | hx_exp_1_landing/ude_controller.py:102-114 | with no position or velocity error the compensation u_d is zero |
| LandingUde.RawWithoutError | hx_exp_1_landing/ude_controller.py:102-111 | the unsaturated compensation is zero when both errors are zero |
| LandingUde.Update | hx_exp_1_landing/ude_controller.py:86-173 | succeeds exactly when both states exist and T_ude ≠ 0; then yaw follows the desired yaw and thrust lies in [0.1, 1.0] |
| LandingUde.Command | controllers/landing_experiment/ude_controller.py:114-172 | the shaped output keeps the desired yaw and a thrust inside the window |
| LandingUde.CompensationActsAsAccelerationOffset | hx_exp_1_landing/ude_controller.py:99-120 | the command for u_total = u_l − u_d equals the uncompensated command for a desired acceleration lowered by u_d |
| LandingUde.UpdateIsCommandOfCompensation | controllers/landing_experiment/ude_controller.py:96-117 | with T_ude ≠ 0 a successful update is exactly the command for u_l minus the compensation computed from this call's capped errors |
| LandingUde.HxUninitialisedRaises | hx_exp_1_landing/ude_controller.py:17-36 | before `init` the hx copy's zero T_ude makes every update raise |
| LandingUde.HoverAtSetpoint | hx_exp_1_landing/ude_controller.py:86-173 | at the set-point with a level body the thrust is the hover fraction |
| LandingUde.HoverCommand | controllers/landing_experiment/ude_controller.py:114-172 | with no compensation at the set-point the command is the hover fraction |
| LandingUde.NominalAtSetpoint | hx_exp_1_landing/ude_controller.py:97-99 | the nominal law u_l is zero at the set-point with zero desired acceleration |
| Adrc.Init | hx_exp_1_landing/adrc_controller.py:88-133 | each of the 21 parameters is the value under the copy's prefix or its default; omega_star's default is the copy's own; no parameters give the constructor's values |
| Adrc.DefaultThresholdsDiffer | controllers/landing_experiment/adrc_controller.py:96-139 | the default omega_star is 1.0 in the hx copy and 0.02 in the package; every other default agrees |
| Adrc.Begin | hx_exp_1_landing/adrc_controller.py:150-159 | the first update initialises the nominal, initial and differentiator states from the current error; later updates leave the state as it is |
| Adrc.VariableExponent | hx_exp_1_landing/adrc_controller.py:400-412 | 1 near zero error; otherwise within [0.1, beta_max + 1], and on the correct side of 1 for errors above or below 1 |
| Adrc.Exponentiated | hx_exp_1_landing/adrc_controller.py:167-175 | a tiny error is kept linear; otherwise the signed power keeps the error's sign |
| Adrc.Exponents | hx_exp_1_landing/adrc_controller.py:164-176 | only the two exponentiated errors change, each kept linear when tiny |
| Adrc.FirstSurfaceIsZero | hx_exp_1_landing/adrc_controller.py:179-181 | on the first update the integral sliding surface s is exactly 0 |
| Adrc.NominalLawAtRest | hx_exp_1_landing/adrc_controller.py:187-192 | with s = 0 and zero nominal errors the nominal law is the weight plus m·acc_z |
| Adrc.Feedback | hx_exp_1_landing/adrc_controller.py:195-197 | the feedback u_f vanishes when the nominal system tracks the error and the differentiator |
| Adrc.BasisFunctions | hx_exp_1_landing/adrc_controller.py:319-331 | nine basis values, the first constant 1 |
| Adrc.ZeroWeightsGiveZero | hx_exp_1_landing/adrc_controller.py:342-344 | with all weights zero the adaptive model f_a is zero |
| Adrc.AdaptStep | hx_exp_1_landing/adrc_controller.py:349-352 | each weight takes one Euler step `w_i + (λ·e·φ_i − σ·λ·\|e\|·w_i)·dt`; the length is kept and a zero error leaves every weight unchanged |
| Adrc.WeightRate | controllers/landing_experiment/adrc_controller.py:362-367 | a weight's rate of change is zero when the adaptation error is zero |
| Adrc.MaxChange | hx_exp_1_landing/adrc_controller.py:204-206 | the maximum absolute weight change bounds every change and is attained by one of them (or is 0) |
| Adrc.NoChangeMeansZero | hx_exp_1_landing/adrc_controller.py:204-206 | unchanged weights have maximum change 0 |
| Adrc.Adapt | hx_exp_1_landing/adrc_controller.py:200-214 | f_a is the model output with the weights before this step's update, the new weights are one step of the weight law, p_t is 0 exactly when some weight moved by more than omega_star and 1 otherwise; weights stay put when the differentiator matches the nominal system |
| Adrc.Observer | hx_exp_1_landing/adrc_controller.py:380-398 | only the three observer states change; with no innovation the disturbance estimate stays and the position estimate integrates its velocity |
| Adrc.Differentiator | hx_exp_1_landing/adrc_controller.py:356-368 | only the two differentiator states change; the first integrates the second by Euler |
| Adrc.DifferentiatorFixedPoint | controllers/landing_experiment/adrc_controller.py:376-382 | a differentiator at rest on the current error stays there |
| Adrc.NominalSystem | hx_exp_1_landing/adrc_controller.py:370-378 | only the two nominal states change; the first integrates the second by Euler |
| Adrc.NominalSystemAtRest | hx_exp_1_landing/adrc_controller.py:370-378 | driving the nominal system with weight plus m·acc_z leaves its velocity unchanged |
| Adrc.ZDemand | hx_exp_1_landing/adrc_controller.py:195-218 | u_z = u_n + u_f − m·f_z_hat, where f_z_hat is the adaptive model alone when p_t = 0 |
| Adrc.Estimate | hx_exp_1_landing/adrc_controller.py:214 | f_z_hat is the adaptive model alone with the observer switched out (p_t = 0) and adds the observer's disturbance estimate with it switched in (p_t = 1) |
| Adrc.Filters | hx_exp_1_landing/adrc_controller.py:224-227 | only the differentiator and nominal states change |
| Adrc.VerticalChannel | hx_exp_1_landing/adrc_controller.py:162-227 | the vertical channel raises ZeroDivisionError exactly when c2, the mass or t1·t2 is zero; it touches only its own states |
| Adrc.Estimators | hx_exp_1_landing/adrc_controller.py:221-227 | observer, differentiator and nominal updates keep the weights and return u_z unless the mass or t1·t2 is zero |
| Adrc.Horizontal | hx_exp_1_landing/adrc_controller.py:231-265 | the x and y integrals reset outside the 0.2 gate and z's outside the 0.5 gate, all stay within their limits; u_x and u_y are `(acc + kp·e + kd·ė + ki·I)·m` over the errors of the copy (raw in hx, capped at ±3 in the package) |
| Adrc.HorizontalErrors | controllers/landing_experiment/adrc_controller.py:241-248 | the package caps the position and velocity errors at ±3 in place; the hx copy (hx_exp_1_landing/adrc_controller.py:231-240) computes capped copies but goes on with the raw errors |
| Adrc.CopiesAgreeWithinCap | controllers/landing_experiment/adrc_controller.py:241-272 | with every error inside ±3 the two copies' integrals and x, y demands coincide |
| Adrc.CopiesDifferBeyondCap | hx_exp_1_landing/adrc_controller.py:258-265 | with \|e_x\| > 3 and the velocity error inside the cap the hx u_x minus the package's is m·kp·(e_x − sat(e_x, 3)), so they differ whenever m and kp are non-zero |
| Adrc.ThrustFallback | hx_exp_1_landing/adrc_controller.py:268-272 | \|u_z\| < 0.01 gives (0, 0, 0.5·m·g); otherwise the demand is kept; the vertical demand is then non-zero |
| Adrc.HxAttitude | hx_exp_1_landing/adrc_controller.py:276-280 | the hx attitude raises a math domain error exactly when the asin argument leaves [-1, 1]; otherwise thrust is the demand's norm |
| Adrc.PackageAttitude | controllers/landing_experiment/adrc_controller.py:289-294 | the asin argument is saturated to ±0.99 and a near-zero thrust is replaced by m·g, so the package never raises here |
| Adrc.HxRollArgumentLeavesDomain | hx_exp_1_landing/adrc_controller.py:279 | with m = 2.5, yaw 0 and demand (0, 3, 4) the hx copy raises while the package returns asin(-0.99) |
| Adrc.RollArgumentBound | controllers/landing_experiment/adrc_controller.py:289-294 | the roll argument's size never exceeds the mass when the thrust is the demand's norm |
| Adrc.Throttle | hx_exp_1_landing/adrc_controller.py:283-309 | the throttle is thrust over full thrust clamped to [0.3, 0.7]; a zero hover fraction raises |
| Adrc.HoverThrottle | hx_exp_1_landing/adrc_controller.py:283-309 | a thrust equal to the weight gives the hover fraction when it lies in [0.3, 0.7] |
| Adrc.Finish | controllers/landing_experiment/adrc_controller.py:275-324 | a successful output has throttle in [0.3, 0.7] and the desired yaw, and becomes the stored output |
| Adrc.Update | hx_exp_1_landing/adrc_controller.py:143-311 | a missing state raises and changes nothing; otherwise the controller initialises; c2 = 0 raises; a success has throttle in [0.3, 0.7] and the desired yaw |
| Adrc.FreshModelIsSilent | hx_exp_1_landing/adrc_controller.py:62-63 | a fresh controller's nine zero weights give an adaptive model of 0 |
| RmttAdapter.New | controllers/landing_experiment/rmtt_adapter.py:29-44 | a new adapter is uninitialised and has no controller |
| RmttAdapter.InitController | controllers/landing_experiment/rmtt_adapter.py:46-112 | the adapter builds the controller of its kind from its own parameter dictionary and changes nothing else |
| RmttAdapter.AdapterOverridesUdeMass | controllers/landing_experiment/rmtt_adapter.py:67-82 | the adapter passes mass 1.0 to the UDE, while the UDE's own default is 0.087 |
| RmttAdapter.PidForwardingIsTransparent | controllers/landing_experiment/rmtt_adapter.py:49-65 | building the PID through the adapter's dictionary equals initialising it directly |
| RmttAdapter.ForwardedPidGains | controllers/landing_experiment/rmtt_adapter.py:49-65 | the forwarded gains are the caller's value or the adapter's default for each key |
| RmttAdapter.ForwardedPidLimits | controllers/landing_experiment/rmtt_adapter.py:49-65 | the forwarded mass, hover fraction and limits are the caller's or the adapter's defaults |
| RmttAdapter.SensorHeight | controllers/landing_experiment/rmtt_adapter.py:131-136 | TOF when 0 < tof < 300, else height if positive, else barometer, each in metres |
| RmttAdapter.ToCurrentState | controllers/landing_experiment/rmtt_adapter.py:114-174 | x = y = 0; the first call's z is 0; later z is height minus the takeoff origin; each velocity component is its cm/s reading ÷ 100; the yaw is yaw_deg·π/180 and the quaternion is the pure yaw rotation (cos(yaw/2), 0, 0, sin(yaw/2)); acceleration is zero |
| RmttAdapter.HeightIsRelativeToTakeoff | controllers/landing_experiment/rmtt_adapter.py:139-148 | after a first call, the second call's z is its height minus the first call's height |
| RmttAdapter.CreateDesiredState | controllers/landing_experiment/rmtt_adapter.py:176-190 | a missing velocity or acceleration becomes the zero vector; position and yaw are kept |
| RmttAdapter.UpdateControl | controllers/landing_experiment/rmtt_adapter.py:192-205 | without a controller it raises; otherwise it forwards to the controller, keeping the desired yaw and the controller's thrust window |
| ThrustConversion.Unguarded | hx_exp_1_landing/test_thrust_conversion.py:11-16 | before the guard, thrust ≥ 0.5 maps into [0, 100] and thrust < 0.5 into [-100, 0] |
| ThrustConversion.Convert | hx_exp_1_landing/test_thrust_conversion.py:9-22 | thrust > 0.1 always gives at least 5; thrust ≤ 0.1 gives a value in [-100, 0] |
| ThrustConversion.Old | hx_exp_1_landing/test_thrust_conversion.py:24-26 | the old conversion lies in [-100, 100] |
| ThrustConversion.OldIsControlOutputThrottle | hx_exp_1_landing/test_thrust_conversion.py:24-26 | the old conversion is exactly the control output's throttle |
| ThrustConversion.HoverGivesFive | hx_exp_1_landing/test_thrust_conversion.py:19-20 | thrust 0.5 maps to 5, not the 0 the script prints as expected; the old conversion gives 0 |
| ThrustConversion.AgreesWithOldOutsideGuard | hx_exp_1_landing/test_thrust_conversion.py:9-26 | the two conversions agree wherever the guard does not fire |
| ExperimentConfig.Broken | experiments/experiment_config.py:55-71 | a message appears exactly for each violated rule of the list, and no more |
| ExperimentConfig.Validate | experiments/experiment_config.py:51-73 | the result lists exactly the violated rules; it is empty iff no rule is violated |
| ExperimentConfig.BrokenInRuleOrder | experiments/experiment_config.py:55-71 | messages come out in the order of the rules |
| ExperimentConfig.ShippedIsValid | experiments/experiment_config.py:16-26 | the shipped constants violate no rule |
| ExperimentConfig.GetSummary | experiments/experiment_config.py:76-95 | heights in metres are cm ÷ 100; the cycle time solves descent distance = speed·time; total = cycle·n + rest·(n − 1) |
| ExperimentConfig.ShippedTimes | experiments/experiment_config.py:76-95 | with the shipped constants the cycle takes 9 s and the experiment 29 s |
| FlightSafety.Check | utils/safety.py:78-107 | disabled checks pass; a too-fast move or a turn beyond 360 raises; a low battery raises after the command checks; other errors yield False |
| FlightSafety.AltitudeRuleIsUnreachable | utils/safety.py:85-95 | the altitude limit never changes the outcome for `up` |
| FlightSafety.FalsyValuesPass | utils/safety.py:83-91 | a missing or zero value passes the command checks |
| BaseController.MakeCommand | controllers/base_controller.py:34-39 | each of roll, pitch, throttle and yaw is kept inside [-100, 100] and clamped to the violated bound outside |
| BaseController.SafetyCheck | controllers/base_controller.py:324-331 | passes exactly when the battery is at 20 % or more (the threshold itself passes) |
| BaseController.NewCore | controllers/base_controller.py:80-93 | a new controller is INACTIVE with no iterations |
| BaseController.Activate | controllers/base_controller.py:136-159 | succeeds exactly from INACTIVE with a succeeding hook, moving to ACTIVE; a raising hook moves to ERROR; otherwise nothing changes |
| BaseController.Deactivate | controllers/base_controller.py:161-184 | succeeds exactly from ACTIVE with a succeeding hook, moving to INACTIVE; a raising hook moves to ERROR; otherwise nothing changes |
| BaseController.Update | controllers/base_controller.py:186-227 | unless ACTIVE with a target it returns None and changes nothing; a computed command counts one iteration; a raising compute moves to ERROR |
| BaseController.EmergencyStopCall | controllers/base_controller.py:229-245 | the state becomes EMERGENCY_STOP and the command is all zero |
| BaseController.Reset | controllers/base_controller.py:279-305 | sensor data, target, last command and counters are cleared; the state is INACTIVE unless the hook raises |
| BaseController.OnlyResetLeavesFaultStates | controllers/base_controller.py:144-184 | from ERROR or EMERGENCY_STOP neither activate nor deactivate succeeds; reset leads back to INACTIVE, from which activate succeeds |
| BaseController.ActivateDeactivateRoundTrip | controllers/base_controller.py:136-184 | activating then deactivating an INACTIVE controller with succeeding hooks returns it unchanged |
| BaseController.UpdatesCountIterations | controllers/base_controller.py:210-223 | n successful updates add exactly n iterations and leave the last command as the latest one |
| ControllerManager.NewManager | controllers/controller_manager.py:52-87 | a new manager is in MANUAL with an empty registry and no active controller |
| ControllerManager.Register | controllers/controller_manager.py:91-112 | the name maps to the controller with error count 0; every other entry, the mode and the active controller are kept |
| ControllerManager.ReRegisterReplaces | controllers/controller_manager.py:102-107 | registering a name twice is the same as registering only the second controller |
| ControllerManager.DropActive | controllers/controller_manager.py:158-162 | the active controller is deactivated and cleared; the registry keys, counters and every other controller are kept |
| ControllerManager.Switch | controllers/controller_manager.py:147-202 | the mode is always recorded; MANUAL and EMERGENCY succeed with no controller; otherwise a controller becomes active only when the lookup and its activation succeed |
| ControllerManager.SwitchSelectsByMode | controllers/controller_manager.py:174-198 | without an explicit name the mode selects the controller of the same name |
| ControllerManager.Unregister | controllers/controller_manager.py:114-145 | an absent name changes nothing and fails; a present one is removed, and removing the active one switches to MANUAL |
| ControllerManager.RegisterUnregisterRoundTrip | controllers/controller_manager.py:91-145 | registering a new inactive name and unregistering it restores the manager |
| ControllerManager.Fallback | controllers/controller_manager.py:404-419 | falls back to the configured controller's mode when it is registered, otherwise to MANUAL with no controller |
| ControllerManager.SafetyChecks | controllers/controller_manager.py:377-402 | with sensor data, a timeout, battery below 10 or an attitude beyond 60° switches to EMERGENCY; otherwise nothing changes |
| ControllerManager.ExecuteCycle | controllers/controller_manager.py:314-375 | no sensor data: nothing happens; a safety trip enters EMERGENCY; MANUAL and EMERGENCY emit the zero command; the latest command only changes to a real one |
| ControllerManager.LoopStep | controllers/controller_manager.py:286-302 | a cycle that escapes with an exception counts one loop error and leaves the manager as it was |
| ControllerManager.SuccessfulUpdateClearsErrors | controllers/controller_manager.py:342-347 | a successful update of the active controller zeroes its error count and stores its command |
| ControllerManager.RepeatedFailuresFallBack | controllers/controller_manager.py:348-357 | a failure that lifts the count above the maximum triggers the fallback with auto-fallback on |
| ControllerManager.UnknownNameEscapes | controllers/controller_manager.py:348-357 | when the active controller's name is not a registry key, the failure escapes and counts as a loop error |
| ControllerManager.ManualModeTimesOut | controllers/controller_manager.py:384-388 | with no active controller and stale data, a cycle enters EMERGENCY without a new command |
| ControllerManager.SwitchKeepsValid | controllers/controller_manager.py:147-202 | switching keeps the active name a registry key with a counter |
| ControllerManager.RegisterKeepsValid | controllers/controller_manager.py:91-112 | registering keeps the manager well formed |
| ControllerManager.UnregisterKeepsValid | controllers/controller_manager.py:114-145 | unregistering keeps the manager well formed |
| ControllerManager.LoopStepKeepsValid | controllers/controller_manager.py:286-375 | a loop step keeps the manager well formed |
| Pid.MakeGains | controllers/position_control/position_controller.py:15-25 | the gains are kept and the integral and derivative limits default to 100 and 50 |
| Pid.Compute | controllers/position_control/position_controller.py:40-82 | dt ≤ 0 returns 0 and changes nothing; otherwise the integral stays within ±max_integral, the output within ±max_output, and first_run is cleared |
| Pid.Reset | controllers/position_control/position_controller.py:84-89 | integral and last error return to 0 and first_run to True |
| Pid.DerivativeBounds | controllers/position_control/position_controller.py:67-72 | the first call's derivative term is 0; every derivative term lies within ±max_derivative |
| Pid.ResetThenCompute | controllers/position_control/position_controller.py:84-89 | after a reset the next computation has no derivative contribution |
| Pid.IntegralStaysBounded | controllers/position_control/position_controller.py:62-63 | over any run of samples the integral stays within ±max_integral |
| Pid.NonPositiveStepsChangeNothing | controllers/position_control/position_controller.py:52-53 | a run of samples with dt ≤ 0 leaves the state as it was |
| PositionController.SetTarget | controllers/position_control/position_controller.py:142-170 | accepts exactly a height within [min, max] altitude; missing x, y and yaw are filled from the current estimates |
| PositionController.ValidTarget | controllers/position_control/position_controller.py:298-309 | a target without height_cm is invalid; with it, valid exactly when the height lies in [min_altitude_cm, max_altitude_cm] |
| PositionController.SetTargetIdempotent | controllers/position_control/position_controller.py:142-170 | setting an accepted target again changes nothing |
| PositionController.UpdateEstimate | controllers/position_control/position_controller.py:236-254 | x and y integrate the sensor velocity for dt > 0; yaw is copied; nothing else changes |
| PositionController.ApplySafetyLimits | controllers/position_control/position_controller.py:256-296 | battery below 15 forces the emergency descent rate; above max altitude throttle ≤ -10, below min ≥ 10; excessive tilt halves it |
| PositionController.ComputeControl | controllers/position_control/position_controller.py:172-234 | a failed battery check stops the controller; a target missing a key raises; otherwise a command is computed |
| PositionController.EmergencyDescentUnreachable | controllers/position_control/position_controller.py:291-294 | with battery below 15 the tick stops at the base check, so the emergency descent is never produced |
| PositionController.OnReset | controllers/position_control/position_controller.py:347-358 | the position state returns to its initial value |
| AttitudeController.NewState | controllers/attitude_control/attitude_controller.py:76-78 | the hold altitude exists only when altitude hold is enabled |
| AttitudeController.NewStateCorrected | controllers/attitude_control/attitude_controller.py:373-388 | the hold altitude is always created, as `_on_reset` does |
| AttitudeController.Merge | controllers/attitude_control/attitude_controller.py:108-114 | given keys override the defaults, and every other default is kept |
| AttitudeController.SetTarget | controllers/attitude_control/attitude_controller.py:90-135 | an invalid target changes nothing; a valid one gets roll and pitch 0 and the current yaw by default; without hold it raises AttributeError |
| AttitudeController.ValidTarget | controllers/attitude_control/attitude_controller.py:355-371 | valid exactly when each roll and pitch target present is within its maximum; absent keys pass |
| AttitudeController.YawIsUnchecked | controllers/attitude_control/attitude_controller.py:369-371 | adding or changing the yaw target never changes validity |
| AttitudeController.SetTargetRaisesWithoutHold | controllers/attitude_control/attitude_controller.py:129-135 | with altitude hold off, any valid target makes a fresh controller raise |
| AttitudeController.SetTargetNeverRaisesCorrected | controllers/attitude_control/attitude_controller.py:90-135 | with the attribute always created, set_target answers exactly whether the target is valid |
| AttitudeController.YawError | controllers/attitude_control/attitude_controller.py:225-244 | the error differs from target − current by 0 or ±360 and lies in [-180, 180] for inputs in that range |
| AttitudeController.RateLimit | controllers/attitude_control/attitude_controller.py:246-281 | dt ≤ 0 or a change within max_rate·dt is kept; a larger change moves by exactly max_rate·dt toward the new command |
| AttitudeController.RateLimitBoundsChange | controllers/attitude_control/attitude_controller.py:259-281 | the limited change never exceeds max_rate·dt, and limiting twice equals limiting once |
| AttitudeController.ApplySafetyLimits | controllers/attitude_control/attitude_controller.py:283-336 | battery below 20 keeps angles in [-30, 30]; hold pushes throttle ≥ 20 below 15 cm and ≤ -20 above 350 cm; an excessive angle error zeroes that channel |
| AttitudeController.ComputeControl | controllers/attitude_control/attitude_controller.py:137-223 | a failed battery check stops the controller; a timed-out command gives the zero command; otherwise a limited command is computed |
| AttitudeController.TimedOut | controllers/attitude_control/attitude_controller.py:338-343 | never before a command has been stored; afterwards exactly when more than attitude_timeout_s has elapsed since it |
| AttitudeController.BatteryClampUnreachable | controllers/attitude_control/attitude_controller.py:327-331 | with battery below 20 the tick stops at the base check, so the battery clamp never acts |
| AttitudeController.OnReset | controllers/attitude_control/attitude_controller.py:373-388 | hold altitude and command time are cleared and the last commands zeroed |
| VelocityController.SetTarget | controllers/position_control/velocity_controller.py:78-106 | rejects exactly a component beyond its limit; accepted targets default missing keys to 0 and respect every limit |
| VelocityController.ValidTarget | controllers/position_control/velocity_controller.py:253-277 | valid exactly when each of vz, vx, vy and vyaw present is within its limit (vertical, horizontal, horizontal, yaw rate); absent keys pass |
| VelocityController.FilterBetween | controllers/position_control/velocity_controller.py:180-183 | with alpha in [0, 1] the filtered value lies between the previous value and the sample |
| VelocityController.UpdateEstimates | controllers/position_control/velocity_controller.py:172-205 | each velocity is low-pass filtered; the yaw rate uses the wrapped yaw difference over elapsed time, or is kept when there is no usable previous sample |
| VelocityController.YawDifference | controllers/position_control/velocity_controller.py:192-197 | the difference is shifted by at most ±360 and lies in [-180, 180] for inputs in that range |
| VelocityController.ApplySafetyLimits | controllers/position_control/velocity_controller.py:207-251 | battery below 15 gives throttle -30 and zero angles; above max altitude throttle ≤ 0, below min ≥ 0 |
| VelocityController.ComputeControl | controllers/position_control/velocity_controller.py:108-170 | a failed battery check stops the controller; otherwise the estimates are updated and a command computed |
| VelocityController.EmergencyDescentUnreachable | controllers/position_control/velocity_controller.py:245-249 | with battery below 15 the tick stops at the base check, so the descent command is never produced |
| VelocityController.OnReset | controllers/position_control/velocity_controller.py:279-294 | filtered velocities are zero and the last yaw sample is cleared |
| VelocityController.IsStable | controllers/position_control/velocity_controller.py:317-342 | False without a target; with one, True exactly when the z, x, y and yaw-rate errors are within 5, 8, 8 and 10 × the multiplier |
| VelocityController.EmergencyBrake | controllers/position_control/velocity_controller.py:344-368 | the target becomes all zero and the command is all zero |
| TrajectoryController.KindOf | controllers/position_control/trajectory_controller.py:141-146 | each known type string maps to its kind, and an unknown string is rejected |
| TrajectoryController.ResetTracking | controllers/position_control/trajectory_controller.py:518-526 | tracking restarts (no start time, index 0, distance 0) while the table is kept |
| TrajectoryController.ParseWaypoint | controllers/position_control/trajectory_controller.py:149-156 | a waypoint is built exactly from a dictionary with the waypoint keys, field by field |
| TrajectoryController.ParseWaypoints | controllers/position_control/trajectory_controller.py:149-156 | a list parses exactly when every entry does, entry by entry |
| TrajectoryController.FlightTime | controllers/position_control/trajectory_controller.py:252 | distance / speed for positive speed, 1.0 otherwise |
| TrajectoryController.MoveCount | controllers/position_control/trajectory_controller.py:255 | num_points = max(1, ⌊flight_time / res⌋) |
| TrajectoryController.HoldCount | controllers/position_control/trajectory_controller.py:282-292 | ⌊hold / res⌋ hold points, none without a hold |
| TrajectoryController.Segment | controllers/position_control/trajectory_controller.py:257-292 | num_points + 1 leg points plus the hold points; the first is the previous waypoint; stamps advance by res; leg end and hold points sit at rest on the waypoint |
| TrajectoryController.BuildStamps | controllers/position_control/trajectory_controller.py:235-292 | the k-th point of the table carries timestamp k·res |
| TrajectoryController.BuildLength | controllers/position_control/trajectory_controller.py:239-292 | each waypoint adds at least two points; the table is empty iff there are no waypoints |
| TrajectoryController.BuildEnds | controllers/position_control/trajectory_controller.py:239-292 | the table starts at the starting position and ends at rest on the last waypoint |
| TrajectoryController.BuildSorted | controllers/position_control/trajectory_controller.py:235-292 | timestamps never decrease along the table |
| TrajectoryController.GeneratedTable | controllers/position_control/trajectory_controller.py:229-294 | the generated table starts at (0, 0, default height) at time 0, is sorted, and ends at rest on the last waypoint |
| TrajectoryController.GenerateWaypointTrajectory | controllers/position_control/trajectory_controller.py:229-294 | no waypoints leave the table untouched; a zero resolution clears it and then raises; otherwise the table is built |
| TrajectoryController.SquareWaypoints | controllers/position_control/trajectory_controller.py:337-367 | five waypoints with hold 0.5, the last equal to the first, opposite corners centred on the requested centre |
| TrajectoryController.Finish | controllers/position_control/trajectory_controller.py:174-184 | success installs the table and restarts tracking; failure leaves no setpoint |
| TrajectoryController.SetTarget | controllers/position_control/trajectory_controller.py:127-184 | unknown type, CUSTOM and an empty waypoint list fail; a malformed waypoint fails; square builds its five waypoints; success restarts tracking |
| TrajectoryController.FirstFrom | controllers/position_control/trajectory_controller.py:430-440 | the first index from `from` whose timestamp reaches the bound, and none only if every later stamp is below it |
| TrajectoryController.TargetIndex | controllers/position_control/trajectory_controller.py:418-446 | None with no points, no start or elapsed past the last stamp; otherwise the first point at or after the first stamp reaching the elapsed time whose stamp reaches elapsed + lookahead; when no point does, that first stamp itself (and then no later point reaches it either) |
| TrajectoryController.CurrentTarget | controllers/position_control/trajectory_controller.py:418-446 | the point at the looked-up index, or None exactly when the lookup fails |
| TrajectoryController.LookupEndsAfterLastStamp | controllers/position_control/trajectory_controller.py:420-446 | with points and a start, the lookup fails exactly when the elapsed time passes the last stamp |
| TrajectoryController.GeneratedTableEnds | controllers/position_control/trajectory_controller.py:229-446 | a generated table is followed until its last stamp and no further |
| TrajectoryController.Feedforward | controllers/position_control/trajectory_controller.py:448-504 | every channel lies in [-80, 80]; the yaw error is wrapped once before the gain |
| TrajectoryController.TrackDistance | controllers/position_control/trajectory_controller.py:506-516 | the last position is recorded; the first sample adds no distance; nothing else changes |
| TrajectoryController.ComputeControl | controllers/position_control/trajectory_controller.py:186-227 | a failed battery check stops the controller; otherwise tracking starts or follows the table |
| TrajectoryController.OnReset | controllers/position_control/trajectory_controller.py:538-543 | the table and waypoints are emptied and tracking restarted, so no target can be looked up |
| FlightDataRecorder.FirstMatch | data/flight_data_recorder.py:264-268 | the leftmost position from `from` where the pattern matches, or none anywhere after it |
| FlightDataRecorder.RunEnd | data/flight_data_recorder.py:264-268 | the end of the maximal run of non-';' characters |
| FlightDataRecorder.Captured | data/flight_data_recorder.py:264-268 | nothing exactly when `field:` followed by a value never occurs; otherwise the non-empty run without ';' right after the leftmost such occurrence |
| FlightDataRecorder.ParseField | data/flight_data_recorder.py:264-275 | None exactly when nothing is captured; a float when the text parses; otherwise the text itself |
| FlightDataRecorder.ParseState | data/flight_data_recorder.py:259-278 | one entry per requested field, in order |
| FlightDataRecorder.FieldInsideLongerKey | data/flight_data_recorder.py:264-268 | asking for `x` in "vgx:12;x:3;" captures "12" from inside `vgx` |
| FlightDataRecorder.Answered | data/flight_data_recorder.py:185-191 | the number of getters that answered before the first one raised |
| FlightDataRecorder.Sequential | data/flight_data_recorder.py:185-191 | all answers give the values; a raise part-way leaves the answers already appended, in order, followed by a full block of blanks |
| FlightDataRecorder.Atomic | data/flight_data_recorder.py:185-191 | a block is either all values or all blanks, always of its own width |
| FlightDataRecorder.FromState | data/flight_data_recorder.py:194-203 | one entry per field, whatever the state string |
| FlightDataRecorder.Tail | data/flight_data_recorder.py:194-254 | the cells after the attitude block have a fixed width given the acceleration block |
| FlightDataRecorder.CollectRow | data/flight_data_recorder.py:152-257 | a row exists exactly when the drone answers and recording started; it has between 27 and 31 cells, exactly 27 when no block fails part-way |
| FlightDataRecorder.PartialAttitudeWidensRow | data/flight_data_recorder.py:185-191 | pitch answering and roll raising gives a 28-cell row |
| FlightDataRecorder.CollectRowCorrected | data/flight_data_recorder.py:152-257 | with all-or-nothing blocks every row has exactly 27 cells, ending in mode, command and error |
| FlightDataRecorder.CorrectedAgreesWhenAllAnswer | data/flight_data_recorder.py:152-257 | when every getter answers the corrected row equals the row as written |
| FlightDataRecorder.CommandRow | data/flight_data_recorder.py:280-298 | while recording, a command row has 25 cells with the command third from the end and the error last |
| FlightDataRecorder.CommandLandsUnderMissionPad | data/flight_data_recorder.py:285-295 | against the 27 headers, the command lands under mission_pad_id and the error under flight_mode |
| FlightDataRecorder.CommandRowCorrected | data/flight_data_recorder.py:280-298 | a 27-cell row with the command under command_executed, the error under error_state and blanks between |

## Left out

- Threads, timing and callbacks are not modelled. This covers the control
  loop's start, stop, sleep and period logic, the recorder and video worker
  threads, and the monitor threads. Clock readings, `dt` and timeouts are
  parameters of the functions that use them.
- Device and file I/O is not modelled: the drone connection, video and media,
  logging, and CSV writing. The getters the recorder and the adapter call are
  parameters, each of which may raise.
- Experiment drivers, demos, command-line scripts and the analysis module are
  not modelled.
- LandingTypes.ThrottleTable: holds over real arithmetic only. In binary
  floating point `(0.6 - 0.5)·200` is just below 20, so the program gives 19
  for thrust 0.6 and -19 for 0.4; the hx quick check tolerates 5 either way.
- The circular and figure-eight trajectory generators are not modelled. They
  are sin/cos tables; their outcome (success or not) is a parameter of
  `TrajectoryController.SetTarget`.
- Transcendental values are not modelled. The functions are fields of a
  parameter record, so nothing is proved about attitude angles, rotation
  entries beyond their formula, basis-function values, or distances.
- Floating-point rounding, NaN and infinities are not modelled; all
  arithmetic is over `real`.
- config/settings.py is not part of this model. The speed limit, battery
  threshold and altitude limit of the movement validator are fields of
  `FlightSafety.Settings`.
- The ADRC `method_choose` switch is fixed at 1, its only used value. The other
  thrust mapping is not modelled.
- The UDE's `disturbance_estimate_` and `disturbance_filter_state_` are not
  modelled. They are never written after construction.
- `get_status`-style reporting, `printf_result` and log messages are not
  modelled.
- The Python `float()` grammar is not modelled. It is the `toFloat` parameter
  of the state parser.
- A requested field name is matched literally, not as a regular expression.
- A getter that returns something other than a string for the state is read
  as a missing state.
- ControlCommand timestamps are not modelled.
- The manager is modelled without aliasing. The same controller object
  registered under two names is two independent entries.
- LandingPid.Update: requires a non-zero mass. With mass 0 numpy yields
  inf/NaN rather than raising, which real arithmetic cannot express. The same
  holds for LandingUde.Update and the shaping helpers in `ForceShaping`.
- Adrc.Update: requires the weight vector to have nine entries. Every state
  reachable from construction has them.
- Adrc.HxAttitude: requires a non-zero u_z and mass. `Adrc.ThrustFallback`
  guarantees a non-zero u_z for every non-zero mass before the attitude is
  computed, so the atan division never sees zero. The same holds for
  Adrc.Finish.
- PositionController.SetTarget and VelocityController.SetTarget: the setpoint
  is a map from key to real. A non-numeric value in the target dictionary is
  not modelled.
- BaseController.Update: the sensor record carries only the fields the
  controllers read (battery, height, attitude, velocities, TOF).
- RmttAdapter.UpdateControl: requires the controller's own preconditions
  (a non-zero mass for PID and UDE, nine ADRC weights). It states the thrust window and yaw of the
  forwarded output, not the control law again. The UDE law u_l − u_d is
  stated in `LandingUde`, the PID force in terms of its acceleration in
  `LandingPid.Law` (which `LandingPid.Update` is stated to follow), and the
  ADRC demands in `Adrc`.

## Findings

| source | as written | input that shows it | evidently intended | confidence | as-written member | corrected member |
|---|---|---|---|---|---|---|
| controllers/attitude_control/attitude_controller.py:76-78 | `hold_altitude_cm` is created only when altitude hold is enabled, and `set_target` logs it unconditionally at line 132 | altitude hold disabled, any valid target: AttributeError | the attribute always exists, as `_on_reset` creates it at line 382 | not executed | AttitudeController.SetTargetRaisesWithoutHold | AttitudeController.SetTargetNeverRaisesCorrected |
| hx_exp_1_landing/adrc_controller.py:279 | `math.asin` receives an unsaturated argument | m = 2.5, yaw 0, u = (0, 3, 4): argument -1.5, ValueError | saturate the argument to ±0.99, as the controller package does at lines 289-294 | not executed | Adrc.HxRollArgumentLeavesDomain | Adrc.PackageAttitude |
| data/flight_data_recorder.py:185-191 | a getter raising inside the attitude block leaves the values already appended and then appends three blanks | pitch answers, roll raises: 28 cells against 27 headers | each block is all values or all blanks, so every row matches the headers | not executed | FlightDataRecorder.PartialAttitudeWidensRow | FlightDataRecorder.CollectRowCorrected |
| data/flight_data_recorder.py:285-295 | a command row is 2 + 23 = 25 cells wide | any command while recording: the command lands under mission_pad_id and the error under flight_mode | a 27-cell row with the command under command_executed and the error under error_state | not executed | FlightDataRecorder.CommandLandsUnderMissionPad | FlightDataRecorder.CommandRowCorrected |

=== FILE: adrc.dfy ===
/** The AMESO-based ADRC controller of the landing experiment, in both
    copies: `ADRC_Controller` of the hx copy and `ADRCController` of the
    controller package.  The vertical axis runs a sliding-mode law with a
    variable-exponent integral surface, an adaptive model over nine basis
    functions, an extended state observer, a tracking differentiator and a
    nominal system; x and y run a PID law.  The two copies differ in the
    parameter key prefix, the default `omega_star`, whether the horizontal
    errors are capped, and the attitude step. */
module Adrc {
  import opened Outcomes
  import opened Numerics
  import opened LandingTypes
  import opened ForceShaping

  datatype Copy = HxCopy | PackageCopy

  function Spelling(copy: Copy): SatSpelling {
    match copy
    case HxCopy => NestedSat
    case PackageCopy => MaxMinSat
  }

  datatype Params = Params(
    mass: real, hov: real,
    k: real, k1: real, k2: real, c1: real, c2: real, lambdaD: real, betaMax: real, gamma: real,
    lambdaAdapt: real, sigmaAdapt: real, omegaStar: real,
    t1: real, t2: real, l: real,
    intMaxXy: real, intMaxZ: real,
    kp: real, ki: real, kd: real)

  /** The hx constructor leaves every parameter at zero. */
  const HxConstructed := Params(0.0, 0.0, 0.0, 0.0, 0.0, 0.0, 0.0, 0.0, 0.0, 0.0,
                                0.0, 0.0, 0.0, 0.0, 0.0, 0.0, 0.0, 0.0, 0.0, 0.0, 0.0)

  /** The controller-package constructor starts from the paper's table. */
  const PackageConstructed := Params(2.5, 0.5, 0.8, -0.15, -3.0, 1.5, 0.6, 1.0, 1.0, 0.2,
                                     0.8, 0.9, 0.02, 0.02, 0.04, 5.0, 0.5, 0.5, 2.0, 0.3, 2.0)

  function Prefix(copy: Copy): string {
    match copy
    case HxCopy => "ameso_gain/"
    case PackageCopy => ""
  }

  /** The default switching threshold differs between the copies. */
  function OmegaStarDefault(copy: Copy): real {
    match copy
    case HxCopy => 1.0
    case PackageCopy => 0.02
  }

  /** `init(params)`: every parameter read under the copy's prefix. */
  function Init(copy: Copy, params: map<string, real>): (p: Params)
    ensures Prefix(copy) + "omega_star" !in params ==> p.omegaStar == OmegaStarDefault(copy)
    ensures Prefix(copy) + "omega_star" in params ==> p.omegaStar == params[Prefix(copy) + "omega_star"]
    ensures Prefix(copy) + "c2" in params ==> p.c2 == params[Prefix(copy) + "c2"]
    ensures p.mass == ParamOr(params, Prefix(copy) + "quad_mass", 2.5) && p.hov == ParamOr(params, Prefix(copy) + "hov_percent", 0.5)
    ensures p.k == ParamOr(params, Prefix(copy) + "k", 0.8) && p.k1 == ParamOr(params, Prefix(copy) + "k1", -0.15)
    ensures p.k2 == ParamOr(params, Prefix(copy) + "k2", -3.0) && p.c1 == ParamOr(params, Prefix(copy) + "c1", 1.5)
    ensures p.c2 == ParamOr(params, Prefix(copy) + "c2", 0.6) && p.lambdaD == ParamOr(params, Prefix(copy) + "lambda_D", 1.0)
    ensures p.betaMax == ParamOr(params, Prefix(copy) + "beta_max", 1.0) && p.gamma == ParamOr(params, Prefix(copy) + "gamma", 0.2)
    ensures p.lambdaAdapt == ParamOr(params, Prefix(copy) + "lambda", 0.8) && p.sigmaAdapt == ParamOr(params, Prefix(copy) + "sigma", 0.9)
    ensures p.t1 == ParamOr(params, Prefix(copy) + "t1", 0.02) && p.t2 == ParamOr(params, Prefix(copy) + "t2", 0.04)
    ensures p.l == ParamOr(params, Prefix(copy) + "l", 5.0) && p.intMaxXy == ParamOr(params, Prefix(copy) + "pxy_int_max", 0.5)
    ensures p.intMaxZ == ParamOr(params, Prefix(copy) + "pz_int_max", 0.5) && p.kp == ParamOr(params, Prefix(copy) + "kp", 2.0)
    ensures p.ki == ParamOr(params, Prefix(copy) + "ki", 0.3) && p.kd == ParamOr(params, Prefix(copy) + "kd", 2.0)
    ensures params == map[] ==> p == PackageConstructed.(omegaStar := OmegaStarDefault(copy))
  {
    var pre := Prefix(copy);
    Params(
      ParamOr(params, pre + "quad_mass", 2.5), ParamOr(params, pre + "hov_percent", 0.5),
      ParamOr(params, pre + "k", 0.8), ParamOr(params, pre + "k1", -0.15), ParamOr(params, pre + "k2", -3.0),
      ParamOr(params, pre + "c1", 1.5), ParamOr(params, pre + "c2", 0.6), ParamOr(params, pre + "lambda_D", 1.0),
      ParamOr(params, pre + "beta_max", 1.0), ParamOr(params, pre + "gamma", 0.2),
      ParamOr(params, pre + "lambda", 0.8), ParamOr(params, pre + "sigma", 0.9),
      ParamOr(params, pre + "omega_star", OmegaStarDefault(copy)),
      ParamOr(params, pre + "t1", 0.02), ParamOr(params, pre + "t2", 0.04), ParamOr(params, pre + "l", 5.0),
      ParamOr(params, pre + "pxy_int_max", 0.5), ParamOr(params, pre + "pz_int_max", 0.5),
      ParamOr(params, pre + "kp", 2.0), ParamOr(params, pre + "ki", 0.3), ParamOr(params, pre + "kd", 2.0))
  }

  /** With no parameters the two copies agree on everything except the
      switching threshold: 1.0 in the hx copy, 0.02 in the package. */
  lemma DefaultThresholdsDiffer()
    ensures Init(HxCopy, map[]).omegaStar == 1.0 && Init(PackageCopy, map[]).omegaStar == 0.02
    ensures Init(HxCopy, map[]).(omegaStar := 0.0) == Init(PackageCopy, map[]).(omegaStar := 0.0)
  {
  }

  const Basis := 9

  /** The controller's memory: observer states (hat), tracking
      differentiator (bar), exponent terms (beta), the surface integral, the
      nominal system (n) and its initial values, the adaptive weights, the
      first-update flag, the horizontal integral and the last output. */
  datatype State = State(
    hat1: real, hat2: real, hat3: real,
    bar1: real, bar2: real,
    beta1: real, beta2: real,
    integral: real,
    n1: real, n2: real, n1Init: real, n2Init: real,
    omega: seq<real>,
    initialized: bool,
    pidIntegral: V3,
    out: Output4)

  function Zeros(n: nat): (r: seq<real>)
    ensures |r| == n && forall i :: 0 <= i < n ==> r[i] == 0.0
  {
    seq(n, i => 0.0)
  }

  const Initial := State(0.0, 0.0, 0.0, 0.0, 0.0, 0.0, 0.0, 0.0, 0.0, 0.0, 0.0, 0.0,
                         Zeros(Basis), false, Zero3, ZeroOutput)

  /** What one `update` leaves: the next state, and the output or the
      exception that ended the call part-way, fields written before the
      exception included. */
  datatype Ticked = Ticked(next: State, out: Result<Output4>)

  /** The first update captures the vertical error and error rate as the
      nominal system's state and initial value, and clears the tracking
      differentiator and both integrals; later updates change nothing here. */
  function Begin(st: State, d: Kinematics, c: Kinematics): (r: State)
    ensures r.initialized
    ensures r.omega == st.omega && r.hat1 == st.hat1 && r.hat2 == st.hat2 && r.hat3 == st.hat3
    ensures !st.initialized ==>
      r.n1 == r.n1Init == c.pos.z - d.pos.z && r.n2 == r.n2Init == c.vel.z - d.vel.z &&
      r.bar1 == 0.0 && r.bar2 == 0.0 && r.integral == 0.0 && r.pidIntegral == Zero3
    ensures st.initialized ==> r == st
  {
    if st.initialized then st
    else
      var e1 := c.pos.z - d.pos.z;
      var e2 := c.vel.z - d.vel.z;
      st.(n1 := e1, n2 := e2, n1Init := e1, n2Init := e2, bar1 := 0.0, bar2 := 0.0,
          integral := 0.0, pidIntegral := Zero3, initialized := true)
  }

  /** `compute_variable_exponent`: 1 for errors below 1e-6; otherwise one
      plus (errors above 1) or minus (errors up to 1) the smaller of
      `beta_max` and `|e|^gamma`, kept within [0.1, beta_max + 1]. */
  function VariableExponent(tr: Transcendentals, e: real, betaMax: real, gamma: real): (r: real)
    ensures Abs(e) < 0.000001 ==> r == 1.0
    ensures Abs(e) >= 0.000001 ==> r >= 0.1
    ensures Abs(e) >= 0.000001 && betaMax + 1.0 >= 0.1 ==> r <= betaMax + 1.0
    ensures Abs(e) > 1.0 && betaMax >= 0.0 && tr.pow(Abs(e), gamma) >= 0.0 ==> r >= 1.0
    ensures 0.000001 <= Abs(e) <= 1.0 && betaMax >= 0.0 && tr.pow(Abs(e), gamma) >= 0.0 ==> r <= 1.0
  {
    if Abs(e) < 0.000001 then 1.0
    else
      var b := 1.0 + Min(betaMax, tr.pow(Abs(e), gamma)) * (if Abs(e) > 1.0 then 1.0 else -1.0);
      Max(0.1, Min(b, betaMax + 1.0))
  }

  /** `sign(e)·|e|^beta`, or `e` itself for magnitudes up to 1e-6; the sign
      of the error is kept whenever the power is non-negative. */
  function Exponentiated(tr: Transcendentals, e: real, beta: real): (r: real)
    ensures Abs(e) <= 0.000001 ==> r == e
    ensures e > 0.000001 && tr.pow(Abs(e), beta) >= 0.0 ==> r >= 0.0
    ensures e < -0.000001 && tr.pow(Abs(e), beta) >= 0.0 ==> r <= 0.0
  {
    if Abs(e) > 0.000001 then Sign(e) * tr.pow(Abs(e), beta) else e
  }

  /** Step 1: the two variable-exponent terms of the nominal errors. */
  function Exponents(tr: Transcendentals, p: Params, st: State): (r: State)
    ensures r == st.(beta1 := r.beta1, beta2 := r.beta2)
    ensures Abs(st.n1) <= 0.000001 ==> r.beta1 == st.n1
    ensures Abs(st.n2) <= 0.000001 ==> r.beta2 == st.n2
  {
    st.(beta1 := Exponentiated(tr, st.n1, VariableExponent(tr, st.n1, p.betaMax, p.gamma)),
        beta2 := Exponentiated(tr, st.n2, VariableExponent(tr, st.n2, p.betaMax, p.gamma)))
  }

  /** Step 2: the integral sliding surface, zero at its initial value. */
  function Surface(p: Params, st: State): real {
    p.c1 * st.n1 + p.c2 * st.n2 + p.lambdaD * st.integral - p.c1 * st.n1Init - p.c2 * st.n2Init
  }

  /** The surface is zero on the first update, as its construction intends. */
  lemma FirstSurfaceIsZero(tr: Transcendentals, p: Params, st: State, d: Kinematics, c: Kinematics)
    requires !st.initialized
    ensures Surface(p, Exponents(tr, p, Begin(st, d, c))) == 0.0
  {
    var b := Begin(st, d, c);
    var x := Exponents(tr, p, b);
    assert x.n1 == x.n1Init && x.n2 == x.n2Init && x.integral == 0.0;
  }

  /** Step 3: the nominal control law; `c2` divides. */
  function NominalLaw(p: Params, s: real, st: State, accZ: real): real
    requires p.c2 != 0.0
  {
    -(p.mass * p.k / p.c2) * s - (p.mass * p.c1 / p.c2) * st.n2 + p.mass * 9.8 + p.mass * accZ
      - p.lambdaD * p.mass * p.c1 / p.c2 * st.beta1 - p.lambdaD * p.mass * st.beta2
  }

  /** With the surface, the nominal rate and both exponent terms at zero the
      nominal law asks for exactly the weight plus the feed-forward. */
  lemma NominalLawAtRest(p: Params, st: State, accZ: real)
    requires p.c2 != 0.0 && st.n2 == 0.0 && st.beta1 == 0.0 && st.beta2 == 0.0
    ensures NominalLaw(p, 0.0, st, accZ) == p.mass * 9.8 + p.mass * accZ
  {
    var a := p.mass * p.k / p.c2;
    var b := p.mass * p.c1 / p.c2;
    var q := p.lambdaD * p.mass * p.c1 / p.c2;
    assert a * 0.0 == 0.0 && b * 0.0 == 0.0 && q * 0.0 == 0.0;
    assert p.lambdaD * p.mass * 0.0 == 0.0;
  }

  /** Step 4: the feedback law on the position and rate mismatches. */
  function Feedback(p: Params, ez: real, st: State): (r: real)
    ensures ez == st.n1 && st.bar2 == st.n2 ==> r == 0.0
  {
    p.mass * p.k1 * (ez - st.n1) + p.mass * p.k2 * (st.bar2 - st.n2)
  }

  /** The nine basis functions: 1, then sines and cosines of the height and
      the estimated vertical rate, single and doubled. */
  function BasisFunctions(tr: Transcendentals, z: real, zDot: real): (phi: seq<real>)
    ensures |phi| == Basis && phi[0] == 1.0
  {
    [1.0, tr.sin(z), tr.sin(zDot), tr.cos(z), tr.cos(zDot),
     tr.sin(2.0 * z), tr.sin(2.0 * zDot), tr.cos(2.0 * z), tr.cos(2.0 * zDot)]
  }

  /** `sum(w[i]·phi[i])`. */
  function Weighted(w: seq<real>, phi: seq<real>): real
    requires |w| == |phi|
  {
    if |w| == 0 then 0.0 else Weighted(w[..|w| - 1], phi[..|phi| - 1]) + w[|w| - 1] * phi[|phi| - 1]
  }

  /** Zero weights give a zero model output, whatever the basis values. */
  lemma {:induction false} ZeroWeightsGiveZero(w: seq<real>, phi: seq<real>)
    requires |w| == |phi| && forall i :: 0 <= i < |w| ==> w[i] == 0.0
    ensures Weighted(w, phi) == 0.0
  {
    if |w| > 0 {
      ZeroWeightsGiveZero(w[..|w| - 1], phi[..|phi| - 1]);
    }
  }

  /** One Euler step of the weight law with learning rate `lam` and
      shrinkage `sigma`, driven by the rate mismatch `e`. */
  function AdaptStep(w: seq<real>, phi: seq<real>, e: real, lam: real, sigma: real, dt: real): (r: seq<real>)
    requires |w| == |phi|
    ensures |r| == |w|
    ensures forall i :: 0 <= i < |w| ==> r[i] == w[i] + WeightRate(w[i], phi[i], e, lam, sigma) * dt
    ensures e == 0.0 ==> r == w
  {
    var r := seq(|w|, i requires 0 <= i < |w| => w[i] + WeightRate(w[i], phi[i], e, lam, sigma) * dt);
    assert e == 0.0 ==> forall i :: 0 <= i < |w| ==> r[i] == w[i];
    r
  }

  /** The weight law's rate for one weight: learning minus shrinkage, both
      proportional to the mismatch. */
  function WeightRate(wi: real, phii: real, e: real, lam: real, sigma: real): (r: real)
    ensures e == 0.0 ==> r == 0.0
  {
    var learn := lam * e;
    var shrink := sigma * lam * Abs(e);
    learn * phii - shrink * wi
  }

  /** The largest absolute change between two weight vectors, as the
      source's running maximum from 0. */
  function MaxChange(a: seq<real>, b: seq<real>): (r: real)
    requires |a| == |b|
    ensures r >= 0.0
    ensures forall i :: 0 <= i < |a| ==> Abs(b[i] - a[i]) <= r
    ensures r == 0.0 || exists i :: 0 <= i < |a| && r == Abs(b[i] - a[i])
  {
    if |a| == 0 then 0.0
    else
      var rest := MaxChange(a[..|a| - 1], b[..|b| - 1]);
      assert forall i :: 0 <= i < |a| - 1 ==> a[..|a| - 1][i] == a[i] && b[..|b| - 1][i] == b[i];
      Max(Abs(b[|a| - 1] - a[|a| - 1]), rest)
  }

  /** Unchanged weights mean zero change, so the observer stays switched in. */
  lemma NoChangeMeansZero(a: seq<real>)
    ensures MaxChange(a, a) == 0.0
  {
  }

  /** Step 5 and 6: the adaptive model output with the weights before the
      step, the new weights, and the observer switch `p_t`, which is 0 when
      any weight moved by more than `omega_star` and 1 otherwise. */
  datatype Adapted = Adapted(fa: real, omega: seq<real>, pt: real)

  function Adapt(tr: Transcendentals, p: Params, st: State, d: Kinematics, c: Kinematics, dt: real): (r: Adapted)
    requires |st.omega| == Basis
    ensures |r.omega| == Basis
    ensures r.fa == Weighted(st.omega, BasisFunctions(tr, c.pos.z, st.bar2 + d.vel.z))
    ensures r.omega == AdaptStep(st.omega, BasisFunctions(tr, c.pos.z, st.bar2 + d.vel.z), st.bar2 - st.n2,
                                 p.lambdaAdapt, p.sigmaAdapt, dt)
    ensures r.pt == 0.0 <==> MaxChange(st.omega, r.omega) > p.omegaStar
    ensures r.pt == 0.0 || r.pt == 1.0
    ensures st.bar2 == st.n2 ==> r.omega == st.omega
  {
    var phi := BasisFunctions(tr, c.pos.z, st.bar2 + d.vel.z);
    var w := AdaptStep(st.omega, phi, st.bar2 - st.n2, p.lambdaAdapt, p.sigmaAdapt, dt);
    Adapted(Weighted(st.omega, phi), w, if MaxChange(st.omega, w) > p.omegaStar then 0.0 else 1.0)
  }

  /** Step 8: one Euler step of the third-order extended state observer; its
      disturbance estimate moves only with the observation error. */
  function Observer(p: Params, st: State, ez: real, uz: real, fz: real, accZ: real, dt: real): (r: State)
    requires p.mass != 0.0
    ensures r == st.(hat1 := r.hat1, hat2 := r.hat2, hat3 := r.hat3)
    ensures ez == st.hat1 ==> r.hat3 == st.hat3 && r.hat1 == st.hat1 + st.hat2 * dt
  {
    var e1 := ez - st.hat1;
    var d1 := st.hat2 + 3.0 * p.l * e1;
    var d2 := -9.8 + (1.0 / p.mass) * uz + fz - accZ + 3.0 * p.l * p.l * e1;
    var d3 := p.l * p.l * p.l * e1;
    st.(hat1 := st.hat1 + d1 * dt, hat2 := st.hat2 + d2 * dt, hat3 := st.hat3 + d3 * dt)
  }

  /** Step 9: one Euler step of the second-order tracking differentiator. */
  function Differentiator(p: Params, st: State, ez: real, dt: real): (r: State)
    requires p.t1 * p.t2 != 0.0
    ensures r == st.(bar1 := r.bar1, bar2 := r.bar2)
    ensures r.bar1 == st.bar1 + st.bar2 * dt
  {
    var d2 := -(1.0 / (p.t1 * p.t2)) * (st.bar1 - ez) - (p.t1 + p.t2) / (p.t1 * p.t2) * st.bar2;
    st.(bar1 := st.bar1 + st.bar2 * dt, bar2 := st.bar2 + d2 * dt)
  }

  /** A differentiator sitting on the error with zero rate stays there. */
  lemma DifferentiatorFixedPoint(p: Params, st: State, dt: real)
    requires p.t1 * p.t2 != 0.0 && st.bar2 == 0.0
    ensures Differentiator(p, st, st.bar1, dt) == st
  {
    var k := -(1.0 / (p.t1 * p.t2));
    var q := (p.t1 + p.t2) / (p.t1 * p.t2);
    assert k * (st.bar1 - st.bar1) == 0.0;
    assert q * 0.0 == 0.0;
  }

  /** Step 10: one Euler step of the nominal system driven by the nominal law. */
  function NominalSystem(p: Params, st: State, un: real, accZ: real, dt: real): (r: State)
    requires p.mass != 0.0
    ensures r == st.(n1 := r.n1, n2 := r.n2)
    ensures r.n1 == st.n1 + st.n2 * dt
  {
    st.(n1 := st.n1 + st.n2 * dt, n2 := st.n2 + (-9.8 + (1.0 / p.mass) * un - accZ) * dt)
  }

  /** Driven by exactly the weight plus feed-forward, the nominal rate does
      not change. */
  lemma NominalSystemAtRest(p: Params, st: State, accZ: real, dt: real)
    requires p.mass != 0.0
    ensures NominalSystem(p, st, p.mass * 9.8 + p.mass * accZ, accZ, dt).n2 == st.n2
  {
    var m := p.mass;
    assert (1.0 / m) * (m * 9.8 + m * accZ) == 9.8 + accZ;
  }

  /** Steps 4 to 7, given the nominal law's value `un`: the feedback law,
      the adaptive model and the vertical force demand
      `u_z = u_n + u_f - m·(f_a + p_t·hat3)`. */
  datatype Demand = Demand(un: real, fz: real, uz: real, adapted: Adapted)

  function ZDemand(p: Params, un: real, a: Adapted, st: State, d: Kinematics, c: Kinematics): (r: Demand)
    ensures r.un == un && r.adapted == a
    ensures r.uz == r.un + Feedback(p, c.pos.z - d.pos.z, st) - p.mass * r.fz
    ensures a.pt == 0.0 ==> r.fz == a.fa
  {
    var uf := Feedback(p, c.pos.z - d.pos.z, st);
    var fz := Estimate(a.fa, a.pt, st.hat3);
    Demand(un, fz, un + uf - p.mass * fz, a)
  }

  /** `f_z_hat = f_a + p_t·hat3`: the adaptive model alone while the observer
      is switched out. */
  function Estimate(fa: real, pt: real, hat3: real): (r: real)
    ensures pt == 0.0 ==> r == fa
    ensures pt == 1.0 ==> r == fa + hat3
  {
    fa + pt * hat3
  }

  /** Steps 9 and 10: the tracking differentiator, then the nominal system. */
  function Filters(p: Params, st: State, ez: real, un: real, accZ: real, dt: real): (r: State)
    requires p.mass != 0.0 && p.t1 * p.t2 != 0.0
    ensures r == st.(bar1 := r.bar1, bar2 := r.bar2, n1 := r.n1, n2 := r.n2)
  {
    NominalSystem(p, Differentiator(p, st, ez, dt), un, accZ, dt)
  }

  /** The vertical channel after step 2: the demand `u_z`, or the exception
      of a zero `c2`, mass or `t1·t2`, with the state as far as it got. */
  datatype Vertical = Vertical(next: State, uz: Result<real>)

  function VerticalChannel(tr: Transcendentals, p: Params, st: State, d: Kinematics, c: Kinematics, dt: real): (r: Vertical)
    requires |st.omega| == Basis
    ensures |r.next.omega| == Basis
    ensures r.next.initialized == st.initialized && r.next.pidIntegral == st.pidIntegral && r.next.out == st.out
    ensures r.uz.Success? <==> p.c2 != 0.0 && p.mass != 0.0 && p.t1 * p.t2 != 0.0
    ensures r.uz.Failure? ==> r.uz.fault == ZeroDivision
    ensures p.c2 == 0.0 ==> r.next == st.(integral := r.next.integral)
  {
    var s := Surface(p, st);
    var s1 := st.(integral := st.integral + (p.c1 * st.beta1 + p.c2 * st.beta2) * dt);
    if p.c2 == 0.0 then Vertical(s1, Failure(ZeroDivision))
    else
      var ez := c.pos.z - d.pos.z;
      var dm := ZDemand(p, NominalLaw(p, s, s1, d.acc.z), Adapt(tr, p, s1, d, c, dt), s1, d, c);
      Estimators(p, s1.(omega := dm.adapted.omega), ez, dm, d.acc.z, dt)
  }

  /** Steps 8 to 10, once the weights are stored: the observer divides by
      the mass, the differentiator by `t1·t2`. */
  function Estimators(p: Params, st: State, ez: real, dm: Demand, accZ: real, dt: real): (r: Vertical)
    ensures r.next.omega == st.omega && r.next.initialized == st.initialized
    ensures r.next.pidIntegral == st.pidIntegral && r.next.out == st.out
    ensures r.uz.Success? <==> p.mass != 0.0 && p.t1 * p.t2 != 0.0
    ensures r.uz.Success? ==> r.uz.value == dm.uz
    ensures r.uz.Failure? ==> r.uz.fault == ZeroDivision
  {
    if p.mass == 0.0 then Vertical(st, Failure(ZeroDivision))
    else
      var s3 := Observer(p, st, ez, dm.uz, dm.fz, accZ, dt);
      if p.t1 * p.t2 == 0.0 then Vertical(s3, Failure(ZeroDivision))
      else Vertical(Filters(p, s3, ez, dm.un, accZ, dt), Success(dm.uz))
  }

  /** The position and velocity errors the x and y PID law works on: the
      hx copy computes capped copies of them but goes on with the raw
      errors, the package caps them at ±3 in place. */
  function HorizontalErrors(copy: Copy, d: Kinematics, c: Kinematics): (r: (V3, V3))
    ensures copy == HxCopy ==> r == (Minus(d.pos, c.pos), Minus(d.vel, c.vel))
    ensures copy == PackageCopy ==> r == (CapError(Minus(d.pos, c.pos)), CapError(Minus(d.vel, c.vel)))
  {
    var rawP := Minus(d.pos, c.pos);
    var rawV := Minus(d.vel, c.vel);
    if copy == HxCopy then (rawP, rawV) else (CapError(rawP), CapError(rawV))
  }

  /** The x and y PID law: the integral is reset outside the 0.2 gate on x
      and y and the 0.5 gate on z, accumulates and is saturated inside it;
      the demands are the mass times desired acceleration plus the gains
      times the errors of the copy and the new integral.  Returns the new
      integral and the horizontal force demands. */
  function Horizontal(copy: Copy, p: Params, integral: V3, d: Kinematics, c: Kinematics, dt: real): (r: (V3, real, real))
    ensures p.intMaxXy >= 0.0 ==> Abs(r.0.x) <= p.intMaxXy && Abs(r.0.y) <= p.intMaxXy
    ensures p.intMaxZ >= 0.0 ==> Abs(r.0.z) <= p.intMaxZ
    ensures Abs(d.pos.x - c.pos.x) >= 0.2 ==> r.0.x == 0.0
    ensures Abs(d.pos.y - c.pos.y) >= 0.2 ==> r.0.y == 0.0
    ensures Abs(d.pos.z - c.pos.z) >= 0.5 ==> r.0.z == 0.0
    ensures var e := HorizontalErrors(copy, d, c);
      r.1 == Axis(p, d.acc.x, e.0.x, e.1.x, r.0.x) && r.2 == Axis(p, d.acc.y, e.0.y, e.1.y, r.0.y)
  {
    var e := HorizontalErrors(copy, d, c);
    var i := Integrals(Spelling(copy), integral, e.0, dt, p.intMaxXy, p.intMaxZ);
    (i, Axis(p, d.acc.x, e.0.x, e.1.x, i.x), Axis(p, d.acc.y, e.0.y, e.1.y, i.y))
  }

  /** One horizontal axis of the PID law, `u = (acc + kp·e + kd·ė + ki·I)·m`. */
  function Axis(p: Params, acc: real, e: real, ev: real, i: real): real {
    (acc + p.kp * e + p.kd * ev + p.ki * i) * p.mass
  }

  /** While every position and velocity error lies inside the ±3 cap the two
      copies compute the same integral and the same demands. */
  lemma CopiesAgreeWithinCap(p: Params, integral: V3, d: Kinematics, c: Kinematics, dt: real)
    requires p.intMaxXy >= 0.0 && p.intMaxZ >= 0.0
    requires Abs(d.pos.x - c.pos.x) <= 3.0 && Abs(d.pos.y - c.pos.y) <= 3.0 && Abs(d.pos.z - c.pos.z) <= 3.0
    requires Abs(d.vel.x - c.vel.x) <= 3.0 && Abs(d.vel.y - c.vel.y) <= 3.0 && Abs(d.vel.z - c.vel.z) <= 3.0
    ensures Horizontal(HxCopy, p, integral, d, c, dt) == Horizontal(PackageCopy, p, integral, d, c, dt)
  {
    var e := HorizontalErrors(HxCopy, d, c);
    assert HorizontalErrors(PackageCopy, d, c) == e;
    IntegralsAgree(integral, e.0, dt, p.intMaxXy, p.intMaxZ);
  }

  lemma IntegralsAgree(i: V3, e: V3, dt: real, maxXy: real, maxZ: real)
    requires maxXy >= 0.0 && maxZ >= 0.0
    ensures Integrals(NestedSat, i, e, dt, maxXy, maxZ) == Integrals(MaxMinSat, i, e, dt, maxXy, maxZ)
  {
    assert Saturate(NestedSat, i.x + e.x * dt, maxXy) == Saturate(MaxMinSat, i.x + e.x * dt, maxXy);
    assert Saturate(NestedSat, i.y + e.y * dt, maxXy) == Saturate(MaxMinSat, i.y + e.y * dt, maxXy);
    assert Saturate(NestedSat, i.z + e.z * dt, maxZ) == Saturate(MaxMinSat, i.z + e.z * dt, maxZ);
  }

  /** Beyond the cap the copies part ways: with an x position error over 3
      in magnitude and the velocity error inside the cap, the hx demand
      grows with the error while the package's stops at ±3, so the x
      demands differ by `m·kp·(e_x − sat(e_x, 3))`. */
  lemma CopiesDifferBeyondCap(p: Params, integral: V3, d: Kinematics, c: Kinematics, dt: real)
    requires Abs(d.pos.x - c.pos.x) > 3.0 && Abs(d.vel.x - c.vel.x) <= 3.0
    ensures var ex := d.pos.x - c.pos.x;
      Horizontal(HxCopy, p, integral, d, c, dt).1 - Horizontal(PackageCopy, p, integral, d, c, dt).1
        == p.mass * p.kp * (ex - Sat(ex, 3.0))
    ensures p.kp != 0.0 && p.mass != 0.0 ==>
      Horizontal(HxCopy, p, integral, d, c, dt).1 != Horizontal(PackageCopy, p, integral, d, c, dt).1
  {
    var ex := d.pos.x - c.pos.x;
    var ev := d.vel.x - c.vel.x;
    var hx := Horizontal(HxCopy, p, integral, d, c, dt);
    var pk := Horizontal(PackageCopy, p, integral, d, c, dt);
    assert hx.0.x == 0.0 && pk.0.x == 0.0;
    assert hx.1 == Axis(p, d.acc.x, ex, ev, 0.0);
    assert pk.1 == Axis(p, d.acc.x, Sat(ex, 3.0), ev, 0.0);
    assert ex - Sat(ex, 3.0) != 0.0;
    AxisDifference(p, d.acc.x, ex, Sat(ex, 3.0), ev);
  }

  lemma AxisDifference(p: Params, acc: real, e1: real, e2: real, ev: real)
    ensures Axis(p, acc, e1, ev, 0.0) - Axis(p, acc, e2, ev, 0.0) == p.mass * p.kp * (e1 - e2)
    ensures p.mass != 0.0 && p.kp != 0.0 && e1 != e2 ==> Axis(p, acc, e1, ev, 0.0) != Axis(p, acc, e2, ev, 0.0)
  {
    assert Axis(p, acc, e1, ev, 0.0) - Axis(p, acc, e2, ev, 0.0) == (p.kp * e1 - p.kp * e2) * p.mass;
    assert p.kp * e1 - p.kp * e2 == p.kp * (e1 - e2);
    if p.mass != 0.0 && p.kp != 0.0 && e1 != e2 {
      assert p.kp * (e1 - e2) != 0.0;
    }
  }

  /** A vertical demand under 0.01 in magnitude becomes half the weight,
      with no horizontal demand. */
  function ThrustFallback(ux: real, uy: real, uz: real, m: real): (r: (real, real, real))
    ensures Abs(uz) < 0.01 ==> r == (0.0, 0.0, 0.5 * m * 9.8)
    ensures Abs(uz) >= 0.01 ==> r == (ux, uy, uz)
    ensures m != 0.0 ==> r.2 != 0.0
  {
    if Abs(uz) < 0.01 then (0.0, 0.0, 0.5 * m * 9.8) else (ux, uy, uz)
  }

  /** The roll argument: the yaw-rotated lateral demand over thrust per unit mass. */
  function RollArgument(tr: Transcendentals, m: real, yaw: real, ux: real, uy: real, thrust: real): real
    requires m != 0.0 && thrust / m != 0.0
  {
    (tr.sin(yaw) * ux - tr.cos(yaw) * uy) / (thrust / m)
  }

  /** Roll, pitch and the desired thrust. */
  datatype Attitude = Attitude(roll: real, pitch: real, thrust: real)

  /** The hx attitude step, as written: `math.asin` of the roll argument,
      which raises for arguments outside [-1, 1], and `math.atan` of the
      pitch ratio. */
  function HxAttitude(tr: Transcendentals, m: real, yaw: real, ux: real, uy: real, uz: real): (r: Result<Attitude>)
    requires m != 0.0 && uz != 0.0
    ensures var t := tr.sqrt(ux * ux + uy * uy + uz * uz);
      r.Failure? <==> t / m == 0.0 || RollArgument(tr, m, yaw, ux, uy, t) < -1.0 || RollArgument(tr, m, yaw, ux, uy, t) > 1.0
    ensures r.Failure? && tr.sqrt(ux * ux + uy * uy + uz * uz) / m != 0.0 ==> r.fault == MathDomain
    ensures r.Success? ==> r.value.thrust == tr.sqrt(ux * ux + uy * uy + uz * uz)
  {
    var t := tr.sqrt(ux * ux + uy * uy + uz * uz);
    if t / m == 0.0 then Failure(ZeroDivision)
    else
      var arg := RollArgument(tr, m, yaw, ux, uy, t);
      if arg < -1.0 || arg > 1.0 then Failure(MathDomain)
      else Success(Attitude(tr.asin(arg), tr.atan((tr.cos(yaw) * ux + tr.sin(yaw) * uy) / uz), t))
  }

  /** The package attitude step: a thrust per unit mass under 1e-6 is
      replaced by the weight, the roll argument is saturated to ±0.99 and
      the pitch uses `arctan2`; it never raises. */
  function PackageAttitude(tr: Transcendentals, m: real, yaw: real, ux: real, uy: real, uz: real): (r: Attitude)
    requires m != 0.0
    ensures Abs(r.thrust / m) >= 0.000001
    ensures r.roll == tr.asin(SatLanding(RollArgument(tr, m, yaw, ux, uy, r.thrust), 0.99))
    ensures -0.99 <= SatLanding(RollArgument(tr, m, yaw, ux, uy, r.thrust), 0.99) <= 0.99
    ensures Abs(tr.sqrt(ux * ux + uy * uy + uz * uz) / m) >= 0.000001 ==> r.thrust == tr.sqrt(ux * ux + uy * uy + uz * uz)
  {
    var t0 := tr.sqrt(ux * ux + uy * uy + uz * uz);
    var t := if Abs(t0 / m) < 0.000001 then WeightPerMass(m); m * 9.8 else t0;
    var arg := RollArgument(tr, m, yaw, ux, uy, t);
    Attitude(tr.asin(SatLanding(arg, 0.99)), tr.atan2(tr.cos(yaw) * ux + tr.sin(yaw) * uy, uz), t)
  }

  lemma WeightPerMass(m: real)
    requires m != 0.0
    ensures m * 9.8 / m == 9.8
  {
  }

  /** The hx finding: with the default mass of 2.5 kg, yaw 0 and a demand of
      (0, 3, 4) N — thrust 5 N — the roll argument is -1.5 and the hx step
      raises a math domain error; the package step returns a roll. */
  lemma HxRollArgumentLeavesDomain(tr: Transcendentals)
    requires tr.sin(0.0) == 0.0 && tr.cos(0.0) == 1.0 && tr.sqrt(25.0) == 5.0
    ensures HxAttitude(tr, 2.5, 0.0, 0.0, 3.0, 4.0) == Failure(MathDomain)
    ensures PackageAttitude(tr, 2.5, 0.0, 0.0, 3.0, 4.0).roll == tr.asin(-0.99)
  {
    assert 0.0 * 0.0 + 3.0 * 3.0 + 4.0 * 4.0 == 25.0;
    assert RollArgument(tr, 2.5, 0.0, 0.0, 3.0, 5.0) == -1.5;
  }

  /** The roll argument is at most the mass in magnitude, since the rotated
      lateral demand never exceeds the total thrust; so the hx step can only
      leave the domain for masses above 1, the default 2.5 among them. */
  lemma RollArgumentBound(tr: Transcendentals, m: real, yaw: real, ux: real, uy: real, t: real)
    requires m > 0.0 && t > 0.0
    requires Abs(tr.sin(yaw) * ux - tr.cos(yaw) * uy) <= t
    ensures Abs(RollArgument(tr, m, yaw, ux, uy, t)) <= m
  {
    var num := tr.sin(yaw) * ux - tr.cos(yaw) * uy;
    var q := t / m;
    assert q > 0.0;
    assert RollArgument(tr, m, yaw, ux, uy, t) == num / q;
    DivByQuotient(num, t, m);
    DivBoundByOne(num, t, m);
  }

  lemma DivByQuotient(num: real, t: real, m: real)
    requires m > 0.0 && t > 0.0
    ensures num / (t / m) == num * m / t
  {
    var q := t / m;
    assert q * m == t;
    var a := num / q;
    assert a * q == num;
    assert a * t == (a * q) * m;
  }

  lemma DivBoundByOne(num: real, t: real, m: real)
    requires m > 0.0 && t > 0.0 && Abs(num) <= t
    ensures Abs(num * m / t) <= m
  {
    assert Abs(num * m / t) == Abs(num) * m / t;
    assert Abs(num) * m <= t * m;
  }

  /** Throttle, method 1: the desired thrust over the full thrust
      `m·g / hover`, clamped to [0.3, 0.7]; a zero hover fraction raises. */
  function Throttle(thrust: real, m: real, hov: real): (r: Result<real>)
    requires m != 0.0
    ensures r.Failure? <==> hov == 0.0
    ensures r.Failure? ==> r.fault == ZeroDivision
    ensures r.Success? ==> 0.3 <= r.value <= 0.7
    ensures hov != 0.0 && 0.3 <= thrust / (m * 9.8 / hov) <= 0.7 ==> r == Success(thrust / (m * 9.8 / hov))
  {
    if hov == 0.0 then Failure(ZeroDivision)
    else
      var u := thrust / (m * 9.8 / hov);
      var low := if u < 0.3 then 0.3 else u;
      Success(if low > 0.7 then 0.7 else low)
  }

  /** Asking for the weight gives the hover fraction, inside the clamp. */
  lemma HoverThrottle(m: real, hov: real)
    requires m > 0.0 && 0.3 <= hov <= 0.7
    ensures Throttle(m * 9.8, m, hov) == Success(hov)
  {
    var w := m * 9.8;
    assert w / (w / hov) == hov;
  }

  /** Attitude and throttle from the force demands.  The yaw output is
      written first, then roll and pitch, then the throttle, so an exception
      leaves the output fields written before it. */
  function Finish(tr: Transcendentals, p: Params, copy: Copy, st: State, yaw: real, ux: real, uy: real, uz: real): (r: Ticked)
    requires p.mass != 0.0 && uz != 0.0
    ensures r.out.Success? ==> 0.3 <= r.out.value.thrust <= 0.7 && r.out.value.yaw == yaw
    ensures r.out.Success? ==> r.next == st.(out := r.out.value)
    ensures r.out.Failure? ==> r.next == st.(out := r.next.out) && r.next.out.yaw == yaw
    ensures copy == PackageCopy ==> (r.out.Success? <==> p.hov != 0.0)
    ensures r.out.Success? ==> p.hov != 0.0
  {
    var a := if copy == HxCopy then HxAttitude(tr, p.mass, yaw, ux, uy, uz)
             else Success(PackageAttitude(tr, p.mass, yaw, ux, uy, uz));
    match a
    case Failure(e) => Ticked(st.(out := st.out.(yaw := yaw)), Failure(e))
    case Success(att) =>
      match Throttle(att.thrust, p.mass, p.hov)
      case Failure(e) => Ticked(st.(out := Output4(att.roll, att.pitch, yaw, st.out.thrust)), Failure(e))
      case Success(th) =>
        var o := Output4(att.roll, att.pitch, yaw, th);
        Ticked(st.(out := o), Success(o))
  }

  /** `update(dt)`.  A missing desired or current state raises on its first
      line and changes nothing. */
  function Update(tr: Transcendentals, p: Params, copy: Copy, st: State, desired: Option<Kinematics>,
                  current: Option<Kinematics>, dt: real): (r: Ticked)
    requires |st.omega| == Basis
    ensures |r.next.omega| == Basis
    ensures desired.None? || current.None? ==> r == Ticked(st, Failure(MissingAttribute))
    ensures desired.Some? && current.Some? ==> r.next.initialized
    ensures desired.Some? && current.Some? && p.c2 == 0.0 ==> r.out == Failure(ZeroDivision)
    ensures r.out.Success? ==> 0.3 <= r.out.value.thrust <= 0.7 && r.out.value.yaw == desired.value.yaw
    ensures r.out.Success? ==> p.c2 != 0.0 && p.mass != 0.0 && p.t1 * p.t2 != 0.0 && p.hov != 0.0
    ensures copy == PackageCopy && desired.Some? && current.Some? ==>
      (p.c2 != 0.0 && p.mass != 0.0 && p.t1 * p.t2 != 0.0 && p.hov != 0.0 ==> r.out.Success?)
  {
    if desired.None? || current.None? then Ticked(st, Failure(MissingAttribute))
    else
      var d := desired.value;
      var c := current.value;
      var s0 := Exponents(tr, p, Begin(st, d, c));
      var v := VerticalChannel(tr, p, s0, d, c, dt);
      match v.uz
      case Failure(e) => Ticked(v.next, Failure(e))
      case Success(uz) =>
        var (i, ux, uy) := Horizontal(copy, p, v.next.pidIntegral, d, c, dt);
        var f := ThrustFallback(ux, uy, uz, p.mass);
        Finish(tr, p, copy, v.next.(pidIntegral := i), d.yaw, f.0, f.1, f.2)
  }

  /** The first update of a fresh controller sees zero weights, so its
      adaptive model contributes nothing. */
  lemma FreshModelIsSilent(tr: Transcendentals, p: Params, d: Kinematics, c: Kinematics, dt: real)
    ensures Adapt(tr, p, Initial, d, c, dt).fa == 0.0
  {
    var phi := BasisFunctions(tr, c.pos.z, Initial.bar2 + d.vel.z);
    ZeroWeightsGiveZero(Initial.omega, phi);
  }
}

=== FILE: attitude_controller.dfy ===
/** The attitude controller: PID on roll, pitch and wrapped yaw error,
    optional altitude hold, command-rate limiting, a command timeout and the
    attitude/altitude/battery safety limits. */
module AttitudeController {
  import opened Outcomes
  import opened Numerics
  import opened BaseController
  import Pid

  type Target = map<string, real>

  datatype Config = Config(
    rollGains: Pid.Gains, pitchGains: Pid.Gains, yawGains: Pid.Gains, altitudeGains: Pid.Gains,
    maxRoll: real, maxPitch: real, maxYawRate: real,
    altitudeHold: bool, rateLimit: bool,
    maxAngleError: real, timeout: real)

  const DefaultConfig := Config(
    Pid.MakeGains(1.5, 0.1, 0.2, 80.0), Pid.MakeGains(1.5, 0.1, 0.2, 80.0),
    Pid.MakeGains(2.0, 0.15, 0.3, 90.0), Pid.MakeGains(0.8, 0.05, 0.25, 60.0),
    30.0, 30.0, 120.0, true, true, 45.0, 5.0)

  /** `holdDefined` records whether the `hold_altitude_cm` attribute exists:
      the constructor creates it only when altitude hold is enabled. */
  datatype State = State(
    roll: Pid.State, pitch: Pid.State, yaw: Pid.State, altitude: Pid.State,
    hold: Option<real>, holdDefined: bool,
    lastRoll: real, lastPitch: real, lastYaw: real,
    commandTime: Option<real>)

  /** The constructor as written. */
  function NewState(cfg: Config): (st: State)
    ensures st.holdDefined == cfg.altitudeHold
    ensures st.hold.None? && st.commandTime.None?
  {
    State(Pid.Initial, Pid.Initial, Pid.Initial, Pid.Initial, None, cfg.altitudeHold, 0.0, 0.0, 0.0, None)
  }

  /** The constructor with `hold_altitude_cm = None` set unconditionally. */
  function NewStateCorrected(cfg: Config): (st: State)
    ensures st.holdDefined && st.hold.None? && st.commandTime.None?
  {
    NewState(cfg).(holdDefined := true)
  }

  /** `_validate_target`: roll and pitch targets within their limits; yaw is free. */
  function ValidTarget(cfg: Config, t: Target): (ok: bool)
    ensures ok <==>
      ("roll_deg" in t ==> Abs(t["roll_deg"]) <= cfg.maxRoll) &&
      ("pitch_deg" in t ==> Abs(t["pitch_deg"]) <= cfg.maxPitch)
  {
    !("roll_deg" in t && Abs(t["roll_deg"]) > cfg.maxRoll) &&
    !("pitch_deg" in t && Abs(t["pitch_deg"]) > cfg.maxPitch)
  }

  /** The yaw target is never checked: any yaw may be added or changed. */
  lemma YawIsUnchecked(cfg: Config, t: Target, yaw: real)
    ensures ValidTarget(cfg, t["yaw_deg" := yaw]) == ValidTarget(cfg, t)
  {
  }

  function Height(s: SensorData): real {
    if s.tof > 0.0 then s.tof else s.height
  }

  /** Dictionary merge `{**defaults, **t}`. */
  function Merge(defaults: Target, t: Target): (r: Target)
    ensures r.Keys == defaults.Keys + t.Keys
    ensures forall k :: k in t ==> r[k] == t[k]
    ensures forall k :: k in defaults && k !in t ==> r[k] == defaults[k]
  {
    map k | k in defaults.Keys + t.Keys :: if k in t then t[k] else defaults[k]
  }

  /** The state after `set_target`, the controller's setpoint, and the answer
      (True/False, or the exception that escapes). */
  datatype Setting = Setting(next: State, setpoint: Option<Target>, answer: Result<bool>)

  /** `set_target`.  `sensor` is the base class's `current_sensor_data`,
      `setpoint` its current `target_setpoint`, `now` the clock reading. */
  function SetTarget(cfg: Config, st: State, sensor: Option<SensorData>, setpoint: Option<Target>, t: Target, now: real): (r: Setting)
    ensures !ValidTarget(cfg, t) ==> r == Setting(st, setpoint, Success(false))
    ensures ValidTarget(cfg, t) ==>
      r.setpoint.Some? && r.next.commandTime == Some(now) &&
      r.setpoint.value.Keys == t.Keys + {"roll_deg", "pitch_deg", "yaw_deg"} &&
      (forall k :: k in t ==> r.setpoint.value[k] == t[k]) &&
      ("roll_deg" !in t ==> r.setpoint.value["roll_deg"] == 0.0) &&
      ("pitch_deg" !in t ==> r.setpoint.value["pitch_deg"] == 0.0) &&
      ("yaw_deg" !in t ==> r.setpoint.value["yaw_deg"] == (if sensor.Some? then sensor.value.yaw else 0.0))
    ensures ValidTarget(cfg, t) && st.holdDefined ==> r.answer == Success(true)
    ensures ValidTarget(cfg, t) && !st.holdDefined && !cfg.altitudeHold ==> r.answer == Failure(MissingAttribute)
    ensures ValidTarget(cfg, t) && cfg.altitudeHold && "hold_altitude_cm" in t ==> r.next.hold == Some(t["hold_altitude_cm"])
    ensures ValidTarget(cfg, t) && cfg.altitudeHold && "hold_altitude_cm" !in t && sensor.Some? && st.hold.None? ==>
      r.next.hold == Some(Height(sensor.value))
  {
    if !ValidTarget(cfg, t) then
      Setting(st, setpoint, Success(false))
    else
      var yaw0 := if sensor.Some? then sensor.value.yaw else 0.0;
      var merged := Merge(map["roll_deg" := 0.0, "pitch_deg" := 0.0, "yaw_deg" := yaw0], t);
      var st1 :=
        if !cfg.altitudeHold then st
        else if "hold_altitude_cm" in t then st.(hold := Some(t["hold_altitude_cm"]), holdDefined := true)
        else if sensor.Some? && st.hold.None? then st.(hold := Some(Height(sensor.value)), holdDefined := true)
        else st;
      var st2 := st1.(commandTime := Some(now));
      // reading `hold_altitude_cm` for the log line raises when the attribute was never created
      if st2.holdDefined then Setting(st2, Some(merged), Success(true))
      else Setting(st2, Some(merged), Failure(MissingAttribute))
  }

  /** As written, a controller built with altitude hold disabled raises
      AttributeError on its first valid `set_target`. */
  lemma SetTargetRaisesWithoutHold(s: SensorData, now: real)
    ensures var cfg := DefaultConfig.(altitudeHold := false);
      SetTarget(cfg, NewState(cfg), None, None, map[], now).answer == Failure(MissingAttribute)
  {
  }

  /** With the attribute always created, every valid target is accepted and
      an invalid one refused: `set_target` never raises. */
  lemma SetTargetNeverRaisesCorrected(cfg: Config, sensor: Option<SensorData>, setpoint: Option<Target>, t: Target, now: real)
    ensures SetTarget(cfg, NewStateCorrected(cfg), sensor, setpoint, t, now).answer == Success(ValidTarget(cfg, t))
  {
  }

  /** `_calculate_yaw_error`: one ±360 correction into the half-turn band. */
  function YawError(current: real, target: real): (r: real)
    ensures r == target - current || r == target - current - 360.0 || r == target - current + 360.0
    ensures -180.0 <= target - current <= 180.0 ==> r == target - current
    ensures -180.0 <= current <= 180.0 && -180.0 <= target <= 180.0 ==> -180.0 <= r <= 180.0
  {
    WrapHalfTurn(target - current)
  }

  datatype Axis = RollAxis | PitchAxis | YawAxis

  /** The per-axis command-rate limit. */
  function MaxRate(cfg: Config, axis: Axis): real {
    if axis == YawAxis then cfg.maxYawRate * 2.0 else 200.0
  }

  /** `_apply_rate_limit`: a command changing faster than `maxRate` per
      second is moved only `maxRate·dt` away from the previous one. */
  function RateLimit(newCommand: real, last: real, dt: real, maxRate: real): (r: real)
    ensures dt <= 0.0 ==> r == newCommand
    ensures dt > 0.0 && Abs(newCommand - last) <= maxRate * dt ==> r == newCommand
    ensures dt > 0.0 && maxRate >= 0.0 && Abs(newCommand - last) > maxRate * dt ==>
      Abs(r - last) == maxRate * dt && (newCommand > last ==> last <= r < newCommand) && (newCommand < last ==> newCommand < r <= last)
  {
    if dt <= 0.0 then newCommand
    else
      var rate := (newCommand - last) / dt;
      RateFacts(newCommand, last, dt, maxRate);
      if Abs(rate) > maxRate then last + (if rate > 0.0 then maxRate else -maxRate) * dt
      else newCommand
  }

  /** The rate test on `(new - last) / dt` is the same as comparing the
      change with `maxRate · dt`. */
  lemma RateFacts(newCommand: real, last: real, dt: real, maxRate: real)
    requires dt > 0.0
    ensures var rate := (newCommand - last) / dt;
      (Abs(rate) > maxRate <==> Abs(newCommand - last) > maxRate * dt) &&
      (rate > 0.0 <==> newCommand > last)
  {
    var rate := (newCommand - last) / dt;
    assert rate * dt == newCommand - last;
    if newCommand - last >= 0.0 {
      assert rate >= 0.0;
    } else {
      assert rate < 0.0;
    }
  }

  /** With a non-negative limit, the limited command never moves faster than
      the limit allows, and rate limiting twice is the same as once. */
  lemma RateLimitBoundsChange(newCommand: real, last: real, dt: real, maxRate: real)
    requires dt > 0.0 && maxRate >= 0.0
    ensures Abs(RateLimit(newCommand, last, dt, maxRate) - last) <= maxRate * dt ||
            RateLimit(newCommand, last, dt, maxRate) == newCommand
    ensures RateLimit(RateLimit(newCommand, last, dt, maxRate), last, dt, maxRate) == RateLimit(newCommand, last, dt, maxRate)
  {
    var r := RateLimit(newCommand, last, dt, maxRate);
    RateFacts(r, last, dt, maxRate);
  }

  /** `_apply_safety_limits` on the four channels. */
  function ApplySafetyLimits(cfg: Config, setpoint: Option<Target>, c: Channels, s: SensorData): (r: Channels)
    ensures s.battery < 20.0 ==> -30.0 <= r.roll <= 30.0 && -30.0 <= r.pitch <= 30.0 && -30.0 <= r.yaw <= 30.0
    ensures cfg.altitudeHold && Height(s) < 15.0 ==> r.throttle >= 20.0
    ensures cfg.altitudeHold && Height(s) > 350.0 ==> r.throttle <= -20.0
    ensures !cfg.altitudeHold || 15.0 <= Height(s) <= 350.0 ==> r.throttle == c.throttle
    ensures setpoint.Some? && "roll_deg" in setpoint.value && Abs(s.roll - setpoint.value["roll_deg"]) > cfg.maxAngleError ==> r.roll == 0.0
    ensures setpoint.Some? && "pitch_deg" in setpoint.value && Abs(s.pitch - setpoint.value["pitch_deg"]) > cfg.maxAngleError ==> r.pitch == 0.0
    ensures !(s.battery < 20.0) && setpoint.None? ==>
      r.roll == (if Abs(s.roll) > cfg.maxRoll then c.roll * 0.5 else c.roll) &&
      r.pitch == (if Abs(s.pitch) > cfg.maxPitch then c.pitch * 0.5 else c.pitch) &&
      r.yaw == c.yaw
  {
    var roll1 := if Abs(s.roll) > cfg.maxRoll then c.roll * 0.5 else c.roll;
    var pitch1 := if Abs(s.pitch) > cfg.maxPitch then c.pitch * 0.5 else c.pitch;
    var roll2 := if setpoint.Some? && "roll_deg" in setpoint.value && Abs(s.roll - setpoint.value["roll_deg"]) > cfg.maxAngleError
                 then 0.0 else roll1;
    var pitch2 := if setpoint.Some? && "pitch_deg" in setpoint.value && Abs(s.pitch - setpoint.value["pitch_deg"]) > cfg.maxAngleError
                  then 0.0 else pitch1;
    var h := Height(s);
    var thr := if !cfg.altitudeHold then c.throttle
               else if h < 15.0 then Max(c.throttle, 20.0)
               else if h > 350.0 then Min(c.throttle, -20.0)
               else c.throttle;
    if s.battery < 20.0 then
      Channels(Clip(roll2, -30.0, 30.0), Clip(pitch2, -30.0, 30.0), thr, Clip(c.yaw, -30.0, 30.0))
    else
      Channels(roll2, pitch2, thr, c.yaw)
  }

  /** `_check_attitude_timeout`. */
  function TimedOut(cfg: Config, st: State, now: real): (r: bool)
    ensures st.commandTime.None? ==> !r
    ensures st.commandTime.Some? ==> (r <==> now - st.commandTime.value > cfg.timeout)
  {
    st.commandTime.Some? && now - st.commandTime.value > cfg.timeout
  }

  /** `compute_control`; `setpoint` is the target the base class passes in. */
  function ComputeControl(cfg: Config, st: State, s: SensorData, setpoint: Target, lastUpdate: real, now: real): (r: (State, ComputeOutcome))
    ensures !SafetyCheck(s) ==> r == (st, Computed(ZeroCommand, true))
    ensures SafetyCheck(s) && TimedOut(cfg, st, now) ==> r == (st, Computed(ZeroCommand, false))
    ensures SafetyCheck(s) && !TimedOut(cfg, st, now) ==>
      (r.1.ComputeRaises? <==> !("roll_deg" in setpoint && "pitch_deg" in setpoint && "yaw_deg" in setpoint))
    ensures r.1.Computed? && SafetyCheck(s) ==> !r.1.stopped
  {
    var dt := if lastUpdate > 0.0 then now - lastUpdate else 0.02;
    if !SafetyCheck(s) then (st, Computed(ZeroCommand, true))
    else if TimedOut(cfg, st, now) then (st, Computed(ZeroCommand, false))
    else if !("roll_deg" in setpoint && "pitch_deg" in setpoint && "yaw_deg" in setpoint) then (st, ComputeRaises)
    else
      var rp := Pid.Compute(cfg.rollGains, st.roll, s.roll, setpoint["roll_deg"], dt);
      var pp := Pid.Compute(cfg.pitchGains, st.pitch, s.pitch, setpoint["pitch_deg"], dt);
      var yp := Pid.Compute(cfg.yawGains, st.yaw, 0.0, YawError(s.yaw, setpoint["yaw_deg"]), dt);
      var ap := if cfg.altitudeHold && st.hold.Some? then Pid.Compute(cfg.altitudeGains, st.altitude, Height(s), st.hold.value, dt)
                else Pid.Step(st.altitude, 0.0);
      var roll := if cfg.rateLimit then RateLimitAxis(cfg, rp.output, st.lastRoll, dt, RollAxis) else rp.output;
      var pitch := if cfg.rateLimit then RateLimitAxis(cfg, pp.output, st.lastPitch, dt, PitchAxis) else pp.output;
      var yaw := if cfg.rateLimit then RateLimitAxis(cfg, yp.output, st.lastYaw, dt, YawAxis) else yp.output;
      var limited := ApplySafetyLimits(cfg, Some(setpoint), Channels(roll, pitch, ap.output, yaw), s);
      (st.(roll := rp.next, pitch := pp.next, yaw := yp.next, altitude := ap.next,
           lastRoll := roll, lastPitch := pitch, lastYaw := yaw),
       Computed(MakeCommand(limited.roll, limited.pitch, limited.throttle, limited.yaw), false))
  }

  /** `_apply_rate_limit` for one axis. */
  function RateLimitAxis(cfg: Config, newCommand: real, last: real, dt: real, axis: Axis): real {
    RateLimit(newCommand, last, dt, MaxRate(cfg, axis))
  }

  /** The battery < 20 clamp of the safety limits never shapes a computed
      command: the base-class check in front already stops the controller
      at that battery level. */
  lemma BatteryClampUnreachable(cfg: Config, st: State, s: SensorData, setpoint: Target, lastUpdate: real, now: real)
    requires s.battery < 20.0
    ensures ComputeControl(cfg, st, s, setpoint, lastUpdate, now) == (st, Computed(ZeroCommand, true))
  {
  }

  /** `_on_reset`: PIDs reset, hold altitude and command time cleared, last
      commands zeroed; the result is the corrected constructor's state. */
  function OnReset(cfg: Config, st: State): (r: State)
    ensures r == NewStateCorrected(cfg)
    ensures r.hold.None? && r.commandTime.None? && r.lastRoll == 0.0 && r.lastPitch == 0.0 && r.lastYaw == 0.0
  {
    State(Pid.Reset(st.roll), Pid.Reset(st.pitch), Pid.Reset(st.yaw), Pid.Reset(st.altitude),
          None, true, 0.0, 0.0, 0.0, None)
  }
}

=== FILE: base_controller.dfy ===
/** The lifecycle every controller shares: four states, a gated `update`,
    an emergency stop that always yields the zero command, and a reset that
    clears the cached data.  The subclass hooks (`_on_activate`,
    `_on_deactivate`, `_on_reset`) and `compute_control` are not visible
    here; their outcomes are parameters. */
module BaseController {
  import opened Outcomes
  import opened Numerics

  datatype ControllerState = Inactive | Active | Error | EmergencyStop

  /** The four control channels of a command, before any range check. */
  datatype Channels = Channels(roll: real, pitch: real, throttle: real, yaw: real) {
    predicate InRange() {
      -100.0 <= roll <= 100.0 && -100.0 <= pitch <= 100.0 &&
      -100.0 <= throttle <= 100.0 && -100.0 <= yaw <= 100.0
    }
  }

  /** A `ControlCommand` as it exists after `__post_init__`: every channel in
      [-100, 100].  The timestamp is wall-clock data and is left out. */
  type ControlCommand = c: Channels | c.InRange() witness Channels(0.0, 0.0, 0.0, 0.0)

  const ZeroCommand: ControlCommand := Channels(0.0, 0.0, 0.0, 0.0)

  /** Constructing a `ControlCommand`: each channel is clipped to [-100, 100]. */
  function MakeCommand(roll: real, pitch: real, throttle: real, yaw: real): (c: ControlCommand)
    ensures -100.0 <= roll <= 100.0 ==> c.roll == roll
    ensures -100.0 <= pitch <= 100.0 ==> c.pitch == pitch
    ensures -100.0 <= throttle <= 100.0 ==> c.throttle == throttle
    ensures -100.0 <= yaw <= 100.0 ==> c.yaw == yaw
    ensures roll > 100.0 ==> c.roll == 100.0
    ensures roll < -100.0 ==> c.roll == -100.0
    ensures pitch > 100.0 ==> c.pitch == 100.0
    ensures pitch < -100.0 ==> c.pitch == -100.0
    ensures throttle > 100.0 ==> c.throttle == 100.0
    ensures throttle < -100.0 ==> c.throttle == -100.0
    ensures yaw > 100.0 ==> c.yaw == 100.0
    ensures yaw < -100.0 ==> c.yaw == -100.0
  {
    Channels(Clip(roll, -100.0, 100.0), Clip(pitch, -100.0, 100.0),
             Clip(throttle, -100.0, 100.0), Clip(yaw, -100.0, 100.0))
  }

  /** The sensor fields the controllers read (a `SensorData` record). */
  datatype SensorData = SensorData(
    height: real, tof: real, barometer: real,
    pitch: real, roll: real, yaw: real,
    vgx: real, vgy: real, vgz: real,
    battery: real)

  /** What a subclass hook does when called: returns True, returns False, or raises. */
  datatype HookOutcome = HookTrue | HookFalse | HookRaises

  /** What `compute_control` does: returns a command (having called
      `emergency_stop` first when `stopped`), or raises. */
  datatype ComputeOutcome = Computed(command: ControlCommand, stopped: bool) | ComputeRaises

  /** The base-class fields of a controller; `T` is the subclass's target type. */
  datatype Core<T> = Core(
    name: string,
    state: ControllerState,
    sensor: Option<SensorData>,
    target: Option<T>,
    lastCommand: Option<ControlCommand>,
    iterations: nat)

  /** A state-changing call that also answers True/False. */
  datatype Transition<T> = Transition(next: Core<T>, ok: bool)

  /** `update`: the controller afterwards and the command it returned, if any. */
  datatype Updated<T> = Updated(next: Core<T>, command: Option<ControlCommand>)

  function NewCore<T>(name: string): (c: Core<T>)
    ensures c.state == Inactive && c.iterations == 0
  {
    Core(name, Inactive, None, None, None, 0)
  }

  /** `activate`: only an INACTIVE controller whose hook succeeds becomes ACTIVE. */
  function Activate<T>(c: Core<T>, hook: HookOutcome): (r: Transition<T>)
    ensures r.ok <==> c.state == Inactive && hook == HookTrue
    ensures r.ok ==> r.next == c.(state := Active)
    ensures c.state == Inactive && hook == HookRaises ==> r.next == c.(state := Error)
    ensures !r.ok && !(c.state == Inactive && hook == HookRaises) ==> r.next == c
  {
    if c.state == Inactive then
      match hook
      case HookTrue => Transition(c.(state := Active), true)
      case HookFalse => Transition(c, false)
      case HookRaises => Transition(c.(state := Error), false)
    else
      Transition(c, false)
  }

  /** `deactivate`: only an ACTIVE controller whose hook succeeds becomes INACTIVE. */
  function Deactivate<T>(c: Core<T>, hook: HookOutcome): (r: Transition<T>)
    ensures r.ok <==> c.state == Active && hook == HookTrue
    ensures r.ok ==> r.next == c.(state := Inactive)
    ensures c.state == Active && hook == HookRaises ==> r.next == c.(state := Error)
    ensures !r.ok && !(c.state == Active && hook == HookRaises) ==> r.next == c
  {
    if c.state == Active then
      match hook
      case HookTrue => Transition(c.(state := Inactive), true)
      case HookFalse => Transition(c, false)
      case HookRaises => Transition(c.(state := Error), false)
    else
      Transition(c, false)
  }

  /** `update`: gated on ACTIVE and on a target being set; a successful
      compute counts one iteration, a raising compute moves to ERROR. */
  function Update<T>(c: Core<T>, sensor: SensorData, compute: ComputeOutcome): (r: Updated<T>)
    ensures c.state != Active || c.target.None? ==> r == Updated(c, None)
    ensures c.state == Active && c.target.Some? && compute.Computed? ==>
      r.command == Some(compute.command) && r.next.lastCommand == Some(compute.command) &&
      r.next.iterations == c.iterations + 1 && r.next.sensor == Some(sensor) &&
      r.next.state == (if compute.stopped then EmergencyStop else Active) &&
      r.next.target == c.target && r.next.name == c.name
    ensures c.state == Active && c.target.Some? && compute.ComputeRaises? ==>
      r.command == None && r.next.state == Error && r.next.iterations == c.iterations &&
      r.next.lastCommand == c.lastCommand && r.next.sensor == Some(sensor)
  {
    if c.state != Active || c.target.None? then
      Updated(c, None)
    else
      match compute
      case Computed(cmd, stopped) =>
        var state := if stopped then EmergencyStop else c.state;
        Updated(c.(sensor := Some(sensor), lastCommand := Some(cmd), iterations := c.iterations + 1,
                   state := state), Some(cmd))
      case ComputeRaises =>
        Updated(c.(sensor := Some(sensor), state := Error), None)
  }

  /** `emergency_stop`: from any state, EMERGENCY_STOP and the all-zero command. */
  function EmergencyStopCall<T>(c: Core<T>): (r: (Core<T>, ControlCommand))
    ensures r.0 == c.(state := EmergencyStop)
    ensures r.1.roll == 0.0 && r.1.pitch == 0.0 && r.1.throttle == 0.0 && r.1.yaw == 0.0
  {
    (c.(state := EmergencyStop), MakeCommand(0.0, 0.0, 0.0, 0.0))
  }

  /** `reset`: clears the cached data and counters and returns to INACTIVE;
      the answer is the `_on_reset` hook's, and a raising hook leaves ERROR. */
  function Reset<T>(c: Core<T>, hook: HookOutcome): (r: Transition<T>)
    ensures r.next.name == c.name
    ensures r.next.sensor.None? && r.next.target.None? && r.next.lastCommand.None?
    ensures r.next.iterations == 0
    ensures r.next.state == (if hook == HookRaises then Error else Inactive)
    ensures r.ok <==> hook == HookTrue
  {
    var cleared := Core(c.name, Inactive, None, None, None, 0);
    match hook
    case HookTrue => Transition(cleared, true)
    case HookFalse => Transition(cleared, false)
    case HookRaises => Transition(cleared.(state := Error), false)
  }

  /** `_safety_check` of the base class. */
  function SafetyCheck(s: SensorData): (ok: bool)
    ensures ok <==> s.battery >= 20.0
  {
    !(s.battery < 20.0)
  }

  /** ERROR and EMERGENCY_STOP are left only through `reset`: activate and
      deactivate fail and change nothing, whatever the hooks do, while a
      reset with a succeeding hook makes the controller activatable again. */
  lemma OnlyResetLeavesFaultStates<T>(c: Core<T>, h: HookOutcome)
    requires c.state == Error || c.state == EmergencyStop
    ensures Activate(c, h) == Transition(c, false)
    ensures Deactivate(c, h) == Transition(c, false)
    ensures Reset(c, HookTrue).next.state == Inactive
    ensures Activate(Reset(c, HookTrue).next, HookTrue).ok
  {
  }

  /** Activation followed by deactivation, both with succeeding hooks,
      restores the controller exactly. */
  lemma ActivateDeactivateRoundTrip<T>(c: Core<T>)
    requires c.state == Inactive
    ensures Activate(c, HookTrue).ok
    ensures Deactivate(Activate(c, HookTrue).next, HookTrue) == Transition(c, true)
  {
  }

  /** A successful update keeps the iteration counter equal to the number of
      commands produced: a run of successful updates of an ACTIVE controller
      with a target counts exactly one iteration per command. */
  lemma {:induction false} UpdatesCountIterations<T>(c: Core<T>, s: SensorData, cmds: seq<ControlCommand>)
    requires c.state == Active && c.target.Some?
    ensures RunUpdates(c, s, cmds).iterations == c.iterations + |cmds|
    ensures RunUpdates(c, s, cmds).state == Active
    ensures |cmds| > 0 ==> RunUpdates(c, s, cmds).lastCommand == Some(cmds[|cmds| - 1])
    decreases |cmds|
  {
    if |cmds| > 0 {
      var c' := Update(c, s, Computed(cmds[0], false)).next;
      UpdatesCountIterations(c', s, cmds[1..]);
    }
  }

  /** Feeding a controller a sequence of successful, non-stopping computes. */
  function RunUpdates<T>(c: Core<T>, s: SensorData, cmds: seq<ControlCommand>): Core<T>
    decreases |cmds|
  {
    if |cmds| == 0 then c else RunUpdates(Update(c, s, Computed(cmds[0], false)).next, s, cmds[1..])
  }
}

=== FILE: controller_manager.dfy ===
/** The controller manager: a registry of named controllers with per-name
    error counters, a control-mode state machine, one control cycle with its
    safety checks and fallback, and the error counter of the control loop.
    Wall-clock readings are the parameter `now`; the behaviour of each
    controller's hooks is the parameter `hooks`, indexed by registry name. */
module ControllerManager {
  import opened Outcomes
  import opened BaseController

  datatype ControlMode = Manual | Attitude | Position | Velocity | Trajectory | Emergency

  datatype Config = Config(
    timeout: real,          // controller_timeout_s
    safetyEnabled: bool,    // safety_check_enabled
    autoFallback: bool,     // auto_fallback_enabled
    fallback: string,       // fallback_controller
    maxErrors: int)         // max_control_error_count

  const DefaultConfig := Config(1.0, true, true, "attitude", 5)

  /** How the hooks of one controller behave during one manager operation. */
  datatype Hooks = Hooks(onActivate: HookOutcome, onDeactivate: HookOutcome, onReset: HookOutcome)

  /** The controller's `update` either runs (with some compute outcome) or
      itself raises. */
  datatype UpdateOutcome = Ran(compute: ComputeOutcome) | UpdateRaises

  /** The active controller is identified by its registry name. */
  datatype Manager<T> = Manager(
    controllers: map<string, Core<T>>,
    errors: map<string, int>,
    active: Option<string>,
    mode: ControlMode,
    sensor: Option<SensorData>,
    latest: Option<ControlCommand>,
    lastSuccess: real,
    cycles: nat,
    loopErrors: nat)

  datatype Switched<T> = Switched(next: Manager<T>, ok: bool)

  /** The outcome of `_execute_control_cycle`: it completes, or an exception
      (a KeyError on the error counter) escapes to the control loop. */
  datatype Cycle<T> = Completed(next: Manager<T>) | Escaped(next: Manager<T>)

  /** Every manager built by these operations keeps the active name in the
      registry and an error counter for every registered name. */
  ghost predicate Valid<T>(m: Manager<T>) {
    (m.active.Some? ==> m.active.value in m.controllers) &&
    m.controllers.Keys <= m.errors.Keys
  }

  function NewManager<T>(now: real): (m: Manager<T>)
    ensures Valid(m) && m.mode == Manual && m.active.None? && m.controllers == map[]
  {
    Manager(map[], map[], None, Manual, None, None, now, 0, 0)
  }

  /** `register_controller`: stores the controller under the name, replacing
      any previous entry, and sets the name's error count to 0. */
  function Register<T>(m: Manager<T>, name: string, c: Core<T>): (r: Manager<T>)
    ensures name in r.controllers && r.controllers[name] == c
    ensures name in r.errors && r.errors[name] == 0
    ensures forall n :: n in m.controllers && n != name ==> n in r.controllers && r.controllers[n] == m.controllers[n]
    ensures r.controllers.Keys == m.controllers.Keys + {name}
    ensures r.active == m.active && r.mode == m.mode
  {
    m.(controllers := m.controllers[name := c], errors := m.errors[name := 0])
  }

  /** Registering a name twice leaves only the second controller. */
  lemma ReRegisterReplaces<T>(m: Manager<T>, name: string, c1: Core<T>, c2: Core<T>)
    ensures Register(Register(m, name, c1), name, c2) == Register(m, name, c2)
  {
  }

  function ModeControllerName(mode: ControlMode): string {
    match mode
    case Attitude => "attitude"
    case Position => "position"
    case Velocity => "velocity"
    case Trajectory => "trajectory"
    case _ => ""
  }

  /** Deactivates the active controller (if any) in place and forgets it. */
  function DropActive<T>(m: Manager<T>, hooks: string -> Hooks): (r: Manager<T>)
    ensures r.active.None? && r.controllers.Keys == m.controllers.Keys
    ensures r.errors == m.errors && r.mode == m.mode && r.latest == m.latest && r.cycles == m.cycles
    ensures forall n :: n in m.controllers && Some(n) != m.active ==> r.controllers[n] == m.controllers[n]
  {
    match m.active
    case None => m
    case Some(k) =>
      if k in m.controllers then
        var c := Deactivate(m.controllers[k], hooks(k).onDeactivate).next;
        m.(controllers := m.controllers[k := c], active := None)
      else
        m.(active := None)
  }

  /** `switch_control_mode`.  `requested` is the optional controller name;
      the empty string stands for `None` (both are falsy in the source). */
  function Switch<T>(m: Manager<T>, mode: ControlMode, requested: string, hooks: string -> Hooks): (r: Switched<T>)
    ensures r.next.mode == mode
    ensures r.next.controllers.Keys == m.controllers.Keys && r.next.errors == m.errors
    ensures r.next.latest == m.latest && r.next.cycles == m.cycles && r.next.sensor == m.sensor
    ensures mode == Manual || mode == Emergency ==> r.ok && r.next.active.None?
    ensures r.next.active.Some? <==> r.ok && mode != Manual && mode != Emergency
    ensures r.next.active.Some? ==>
      r.next.active.value == (if requested != "" then requested else ModeControllerName(mode)) &&
      r.next.active.value in m.controllers &&
      r.next.controllers[r.next.active.value].state == Active
  {
    var m1 := DropActive(m, hooks).(mode := mode);
    if mode == Manual || mode == Emergency then
      Switched(m1, true)
    else
      var name := if requested != "" then requested else ModeControllerName(mode);
      if name == "" || name !in m1.controllers then
        Switched(m1, false)
      else
        var t := Activate(m1.controllers[name], hooks(name).onActivate);
        var m2 := m1.(controllers := m1.controllers[name := t.next]);
        if t.ok then Switched(m2.(active := Some(name)), true) else Switched(m2, false)
  }

  /** Without an explicit name, the four controller modes pick the controller
      registered under the mode's own name, and succeed exactly when that
      controller exists, is INACTIVE and its activation hook succeeds. */
  lemma SwitchSelectsByMode<T>(m: Manager<T>, mode: ControlMode, hooks: string -> Hooks)
    requires mode in {Attitude, Position, Velocity, Trajectory}
    requires m.active.None?
    ensures var name := ModeControllerName(mode);
      Switch(m, mode, "", hooks).ok <==>
        name in m.controllers && m.controllers[name].state == Inactive && hooks(name).onActivate == HookTrue
  {
  }

  /** `unregister_controller`: an unknown name changes nothing; otherwise
      the controller is dropped from both maps after switching to MANUAL if
      it was the active one. */
  function Unregister<T>(m: Manager<T>, name: string, hooks: string -> Hooks): (r: Switched<T>)
    ensures name !in m.controllers ==> r == Switched(m, false)
    ensures name in m.controllers ==>
      r.ok && name !in r.next.controllers && name !in r.next.errors &&
      r.next.controllers.Keys == m.controllers.Keys - {name}
    ensures name in m.controllers && m.active == Some(name) ==> r.next.mode == Manual && r.next.active.None?
    ensures name in m.controllers && m.active != Some(name) ==> r.next.mode == m.mode && r.next.active == m.active
  {
    if name !in m.controllers then
      Switched(m, false)
    else
      var m1 := if m.active == Some(name) then Switch(m, Manual, "", hooks).next else m;
      // the controller is deactivated and reset before it is deleted; those
      // calls only change the object being removed
      Switched(m1.(controllers := m1.controllers - {name}, errors := m1.errors - {name}), true)
  }

  /** Registering a fresh name and unregistering it again restores the manager. */
  lemma RegisterUnregisterRoundTrip<T>(m: Manager<T>, name: string, c: Core<T>, hooks: string -> Hooks)
    requires name !in m.controllers && name !in m.errors
    requires m.active != Some(name)
    ensures Unregister(Register(m, name, c), name, hooks) == Switched(m, true)
  {
    var r := Register(m, name, c);
    assert r.controllers - {name} == m.controllers;
    assert r.errors - {name} == m.errors;
  }

  /** Fallback mode for a registered fallback controller name. */
  function FallbackMode(name: string): ControlMode {
    if name == "attitude" then Attitude
    else if name == "position" then Position
    else if name == "velocity" then Velocity
    else Manual
  }

  /** `_perform_controller_fallback`. */
  function Fallback<T>(m: Manager<T>, cfg: Config, hooks: string -> Hooks): (r: Manager<T>)
    ensures cfg.fallback in m.controllers ==> r.mode == FallbackMode(cfg.fallback)
    ensures cfg.fallback !in m.controllers ==> r.mode == Manual && r.active.None?
  {
    if cfg.fallback in m.controllers then
      Switch(m, FallbackMode(cfg.fallback), cfg.fallback, hooks).next
    else
      Switch(m, Manual, "", hooks).next
  }

  /** `_perform_safety_checks`: trips to EMERGENCY on controller timeout,
      battery below 10 %, or an attitude beyond 60 degrees. */
  function SafetyChecks<T>(m: Manager<T>, cfg: Config, now: real, hooks: string -> Hooks): (r: Switched<T>)
    ensures m.sensor.None? ==> r == Switched(m, false)
    ensures m.sensor.Some? ==>
      (r.ok <==> !(now - m.lastSuccess > cfg.timeout) && !(m.sensor.value.battery < 10.0) &&
                 !(m.sensor.value.pitch > 60.0 || m.sensor.value.pitch < -60.0 ||
                   m.sensor.value.roll > 60.0 || m.sensor.value.roll < -60.0))
    ensures r.ok ==> r.next == m
    ensures m.sensor.Some? && !r.ok ==> r.next.mode == Emergency && r.next.active.None?
  {
    match m.sensor
    case None => Switched(m, false)
    case Some(s) =>
      if now - m.lastSuccess > cfg.timeout then Switched(Switch(m, Emergency, "", hooks).next, false)
      else if s.battery < 10.0 then Switched(Switch(m, Emergency, "", hooks).next, false)
      else if Numerics.Abs(s.pitch) > 60.0 || Numerics.Abs(s.roll) > 60.0 then
        Switched(Switch(m, Emergency, "", hooks).next, false)
      else Switched(m, true)
  }

  /** The command-generation part of a cycle, after the safety checks. */
  function Generate<T>(m: Manager<T>, cfg: Config, now: real, upd: UpdateOutcome, hooks: string -> Hooks): (r: Cycle<T>)
    requires m.sensor.Some?
  {
    if m.mode == Manual || m.mode == Emergency then
      Completed(Finish(m, Some(ZeroCommand)))
    else if m.active.None? || m.active.value !in m.controllers then
      Completed(Finish(m, None))
    else
      var key := m.active.value;
      var c := m.controllers[key];
      match upd
      case Ran(compute) =>
        var u := Update(c, m.sensor.value, compute);
        var m1 := m.(controllers := m.controllers[key := u.next]);
        var m2 := if u.command.Some? then m1.(errors := m1.errors[c.name := 0], lastSuccess := now) else m1;
        Completed(Finish(m2, u.command))
      case UpdateRaises =>
        if c.name !in m.errors then
          Escaped(m)
        else
          var count := m.errors[c.name] + 1;
          var m1 := m.(errors := m.errors[c.name := count]);
          var m2 := if cfg.autoFallback && count > 3 then Fallback(m1, cfg, hooks) else m1;
          Completed(Finish(m2, None))
  }

  /** Tail of a cycle: keep a non-None command and count the cycle. */
  function Finish<T>(m: Manager<T>, cmd: Option<ControlCommand>): Manager<T> {
    m.(latest := if cmd.Some? then cmd else m.latest, cycles := m.cycles + 1)
  }

  /** `_execute_control_cycle`. */
  function ExecuteCycle<T>(m: Manager<T>, cfg: Config, now: real, upd: UpdateOutcome, hooks: string -> Hooks): (r: Cycle<T>)
    ensures m.sensor.None? ==> r == Completed(m)
    ensures r.Completed? && r.next.latest != m.latest ==> r.next.latest.Some?
    ensures m.sensor.Some? && (m.mode == Manual || m.mode == Emergency) && (!cfg.safetyEnabled || SafetyChecks(m, cfg, now, hooks).ok) ==>
      r == Completed(m.(latest := Some(ZeroCommand), cycles := m.cycles + 1))
    ensures m.sensor.Some? && cfg.safetyEnabled && !SafetyChecks(m, cfg, now, hooks).ok ==>
      r.Completed? && r.next.mode == Emergency && r.next.cycles == m.cycles && r.next.latest == m.latest
  {
    if m.sensor.None? then
      Completed(m)
    else if cfg.safetyEnabled && !SafetyChecks(m, cfg, now, hooks).ok then
      Completed(SafetyChecks(m, cfg, now, hooks).next)
    else
      Generate(m, cfg, now, upd, hooks)
  }

  /** One iteration of `_control_loop`: an escaped exception counts one loop
      error, and more than `max_control_error_count` of them switch to
      EMERGENCY. */
  function LoopStep<T>(m: Manager<T>, cfg: Config, now: real, upd: UpdateOutcome, hooks: string -> Hooks): (r: Manager<T>)
    ensures ExecuteCycle(m, cfg, now, upd, hooks).Completed? ==> r == ExecuteCycle(m, cfg, now, upd, hooks).next
    ensures ExecuteCycle(m, cfg, now, upd, hooks).Escaped? ==>
      r.loopErrors == m.loopErrors + 1 &&
      (r.loopErrors > cfg.maxErrors ==> r.mode == Emergency && r.active.None?)
  {
    match ExecuteCycle(m, cfg, now, upd, hooks)
    case Completed(m1) => m1
    case Escaped(m1) =>
      var m2 := m1.(loopErrors := m1.loopErrors + 1);
      if m2.loopErrors > cfg.maxErrors then Switch(m2, Emergency, "", hooks).next else m2
  }

  /** An ACTIVE controller whose update produces a command has its error
      count (under the controller's own name) reset to 0, and the command
      becomes the latest one. */
  lemma SuccessfulUpdateClearsErrors<T>(m: Manager<T>, cfg: Config, now: real, cmd: ControlCommand, stopped: bool, hooks: string -> Hooks)
    requires m.sensor.Some? && !cfg.safetyEnabled
    requires m.mode !in {Manual, Emergency}
    requires m.active.Some? && m.active.value in m.controllers
    requires m.controllers[m.active.value].state == Active && m.controllers[m.active.value].target.Some?
    ensures var r := ExecuteCycle(m, cfg, now, Ran(Computed(cmd, stopped)), hooks);
      r.Completed? && r.next.latest == Some(cmd) &&
      m.controllers[m.active.value].name in r.next.errors &&
      r.next.errors[m.controllers[m.active.value].name] == 0 &&
      r.next.lastSuccess == now && r.next.cycles == m.cycles + 1
  {
  }

  /** A raising update with auto-fallback on: the fourth consecutive failure
      (count above 3) hands control to the fallback controller's mode, or to
      MANUAL when the fallback name is not registered; while the count stays
      at or below 3 the mode is kept. */
  lemma RepeatedFailuresFallBack<T>(m: Manager<T>, cfg: Config, now: real, hooks: string -> Hooks)
    requires m.sensor.Some? && !cfg.safetyEnabled && cfg.autoFallback
    requires m.mode !in {Manual, Emergency}
    requires m.active.Some? && m.active.value in m.controllers
    requires m.controllers[m.active.value].name in m.errors
    ensures var name := m.controllers[m.active.value].name;
      var r := ExecuteCycle(m, cfg, now, UpdateRaises, hooks);
      r.Completed? && r.next.errors[name] == m.errors[name] + 1 &&
      (m.errors[name] + 1 > 3 && cfg.fallback in m.controllers ==> r.next.mode == FallbackMode(cfg.fallback)) &&
      (m.errors[name] + 1 > 3 && cfg.fallback !in m.controllers ==> r.next.mode == Manual) &&
      (m.errors[name] + 1 <= 3 ==> r.next.mode == m.mode && r.next.active == m.active)
  {
    var name := m.controllers[m.active.value].name;
    var m1 := m.(errors := m.errors[name := m.errors[name] + 1]);
    if m.errors[name] + 1 > 3 {
      assert Fallback(m1, cfg, hooks).errors == m1.errors;
    }
  }

  /** If the controller's own name is not a registry name with a counter, a
      raising update escapes the cycle as a KeyError; the loop counts it. */
  lemma UnknownNameEscapes<T>(m: Manager<T>, cfg: Config, now: real, hooks: string -> Hooks)
    requires m.sensor.Some? && !cfg.safetyEnabled
    requires m.mode !in {Manual, Emergency}
    requires m.active.Some? && m.active.value in m.controllers
    requires m.controllers[m.active.value].name !in m.errors
    ensures ExecuteCycle(m, cfg, now, UpdateRaises, hooks) == Escaped(m)
    ensures LoopStep(m, cfg, now, UpdateRaises, hooks).loopErrors == m.loopErrors + 1
  {
  }

  /** MANUAL mode never refreshes `last_successful_control_time`, so with
      safety checks on, a MANUAL manager is tripped into EMERGENCY by the
      controller timeout once `now` is past it. */
  lemma ManualModeTimesOut<T>(m: Manager<T>, cfg: Config, now: real, upd: UpdateOutcome, hooks: string -> Hooks)
    requires m.sensor.Some? && cfg.safetyEnabled && m.mode == Manual
    requires now - m.lastSuccess > cfg.timeout
    ensures ExecuteCycle(m, cfg, now, upd, hooks).next.mode == Emergency
    ensures ExecuteCycle(m, cfg, now, upd, hooks).next.latest == m.latest
  {
  }

  /** Every operation keeps the registry invariant. */
  lemma SwitchKeepsValid<T>(m: Manager<T>, mode: ControlMode, requested: string, hooks: string -> Hooks)
    requires Valid(m)
    ensures Valid(Switch(m, mode, requested, hooks).next)
  {
  }

  lemma RegisterKeepsValid<T>(m: Manager<T>, name: string, c: Core<T>)
    requires Valid(m)
    ensures Valid(Register(m, name, c))
  {
  }

  lemma UnregisterKeepsValid<T>(m: Manager<T>, name: string, hooks: string -> Hooks)
    requires Valid(m)
    ensures Valid(Unregister(m, name, hooks).next)
  {
    if name in m.controllers && m.active == Some(name) {
      SwitchKeepsValid(m, Manual, "", hooks);
    }
  }

  lemma LoopStepKeepsValid<T>(m: Manager<T>, cfg: Config, now: real, upd: UpdateOutcome, hooks: string -> Hooks)
    requires Valid(m)
    ensures Valid(LoopStep(m, cfg, now, upd, hooks))
  {
    if m.sensor.Some? {
      if cfg.safetyEnabled && !SafetyChecks(m, cfg, now, hooks).ok {
        SwitchKeepsValid(m, Emergency, "", hooks);
      } else if m.mode != Manual && m.mode != Emergency && m.active.Some? && m.active.value in m.controllers {
        var c := m.controllers[m.active.value];
        if upd.UpdateRaises? && c.name in m.errors {
          var m1 := m.(errors := m.errors[c.name := m.errors[c.name] + 1]);
          assert Valid(m1);
          if cfg.fallback in m1.controllers {
            SwitchKeepsValid(m1, FallbackMode(cfg.fallback), cfg.fallback, hooks);
          } else {
            SwitchKeepsValid(m1, Manual, "", hooks);
          }
        }
      }
    }
    var e := ExecuteCycle(m, cfg, now, upd, hooks);
    if e.Escaped? {
      SwitchKeepsValid(e.next.(loopErrors := e.next.loopErrors + 1), Emergency, "", hooks);
    }
  }
}

=== FILE: experiment_config.dfy ===
/** The altitude experiment's configuration: the parameter sanity rules and
    the time estimates of the summary.  Heights are in centimetres, the
    descent speed in metres per second, durations in seconds. */
module ExperimentConfig {

  datatype Config = Config(
    cycles: int, targetHeight: real, hoverDuration: real, descentSpeed: real,
    finalHeight: real, cycleRest: real, stabilization: real)

  /** The values the configuration file ships with. */
  const Shipped := Config(3, 150.0, 1.0, 0.2, 30.0, 1.0, 1.0)

  /** The six rules, in the order `validate_parameters` checks them. */
  datatype Rule = NoCycles | TargetNotAboveFinal | NonPositiveSpeed | NegativeHover | TargetTooHigh | FinalTooLow

  const Rules := [NoCycles, TargetNotAboveFinal, NonPositiveSpeed, NegativeHover, TargetTooHigh, FinalTooLow]

  /** When a rule is broken. */
  predicate Violates(c: Config, rule: Rule) {
    match rule
    case NoCycles => c.cycles <= 0
    case TargetNotAboveFinal => c.targetHeight <= c.finalHeight
    case NonPositiveSpeed => c.descentSpeed <= 0.0
    case NegativeHover => c.hoverDuration < 0.0
    case TargetTooHigh => c.targetHeight > 500.0
    case FinalTooLow => c.finalHeight < 5.0
  }

  /** The broken rules among `rules`, in their order. */
  function Broken(c: Config, rules: seq<Rule>): (r: seq<Rule>)
    ensures forall x :: x in r <==> x in rules && Violates(c, x)
    ensures |r| <= |rules|
  {
    if rules == [] then []
    else (if Violates(c, rules[0]) then [rules[0]] else []) + Broken(c, rules[1..])
  }

  /** `validate_parameters`: one message per broken rule, in rule order. */
  function Validate(c: Config): (r: seq<Rule>)
    ensures forall x :: x in r <==> Violates(c, x)
    ensures r == [] <==> forall x :: !Violates(c, x)
  {
    var r := Broken(c, Rules);
    EveryRuleChecked();
    assert r != [] ==> r[0] in r;
    r
  }

  /** `x` occurs in `rules` strictly before `y`. */
  predicate InOrder(rules: seq<Rule>, x: Rule, y: Rule) {
    exists p, q :: 0 <= p < q < |rules| && rules[p] == x && rules[q] == y
  }

  /** `validate_parameters` checks every rule there is. */
  lemma EveryRuleChecked()
    ensures forall x: Rule :: x in Rules
  {
    forall x: Rule ensures x in Rules {
      match x
      case NoCycles => assert Rules[0] == x;
      case TargetNotAboveFinal => assert Rules[1] == x;
      case NonPositiveSpeed => assert Rules[2] == x;
      case NegativeHover => assert Rules[3] == x;
      case TargetTooHigh => assert Rules[4] == x;
      case FinalTooLow => assert Rules[5] == x;
    }
  }

  /** The messages come out in the order the rules are checked: an earlier
      position holds an earlier rule. */
  lemma {:induction false} BrokenInRuleOrder(c: Config, rules: seq<Rule>, i: nat, j: nat)
    requires i < j < |Broken(c, rules)|
    ensures InOrder(rules, Broken(c, rules)[i], Broken(c, rules)[j])
  {
    var b := Broken(c, rules);
    var rest := Broken(c, rules[1..]);
    if Violates(c, rules[0]) {
      assert b == [rules[0]] + rest;
      if i == 0 {
        assert b[j] == rest[j - 1] && rest[j - 1] in rest;
        HeadComesFirst(rules, b[j]);
      } else {
        BrokenInRuleOrder(c, rules[1..], i - 1, j - 1);
        assert b[i] == rest[i - 1] && b[j] == rest[j - 1];
        OrderInTail(rules, b[i], b[j]);
      }
    } else {
      assert b == rest;
      BrokenInRuleOrder(c, rules[1..], i, j);
      OrderInTail(rules, b[i], b[j]);
    }
  }

  lemma HeadComesFirst(rules: seq<Rule>, y: Rule)
    requires |rules| > 0 && y in rules[1..]
    ensures InOrder(rules, rules[0], y)
  {
    var q :| 0 <= q < |rules[1..]| && rules[1..][q] == y;
    assert rules[q + 1] == y;
  }

  lemma OrderInTail(rules: seq<Rule>, x: Rule, y: Rule)
    requires |rules| > 0 && InOrder(rules[1..], x, y)
    ensures InOrder(rules, x, y)
  {
    var p, q :| 0 <= p < q < |rules[1..]| && rules[1..][p] == x && rules[1..][q] == y;
    assert rules[p + 1] == x && rules[q + 1] == y;
  }

  /** The shipped configuration breaks no rule. */
  lemma ShippedIsValid()
    ensures Validate(Shipped) == []
  {
  }

  /** `get_experiment_summary`: heights in metres and the time estimates. */
  datatype Summary = Summary(
    cycles: int, targetHeightM: real, finalHeightM: real, hoverDuration: real,
    descentSpeed: real, cycleRest: real, cycleTime: real, totalTime: real)

  /** One cycle: the descent at `descentSpeed·100` cm/s, the hover and two
      stabilisation waits; the total adds a rest between consecutive cycles. */
  function GetSummary(c: Config): (r: Result)
    ensures c.descentSpeed == 0.0 <==> r.ZeroSpeed?
    ensures r.Ok? ==> r.s.targetHeightM * 100.0 == c.targetHeight && r.s.finalHeightM * 100.0 == c.finalHeight
    ensures r.Ok? ==> (r.s.cycleTime * 100.0 * c.descentSpeed ==
      (c.targetHeight - c.finalHeight) + (c.hoverDuration + 2.0 * c.stabilization) * 100.0 * c.descentSpeed)
    ensures r.Ok? && c.cycles >= 1 ==> r.s.totalTime == r.s.cycleTime + (c.cycles - 1) as real * (r.s.cycleTime + c.cycleRest)
  {
    if c.descentSpeed * 100.0 == 0.0 then ZeroSpeed
    else
      var cycle := (c.targetHeight - c.finalHeight) / (c.descentSpeed * 100.0) + c.hoverDuration + c.stabilization * 2.0;
      Ok(Summary(c.cycles, c.targetHeight / 100.0, c.finalHeight / 100.0, c.hoverDuration, c.descentSpeed,
                 c.cycleRest, cycle, cycle * c.cycles as real + c.cycleRest * (c.cycles - 1) as real))
  }

  /** A zero descent speed is the ZeroDivisionError of the estimate. */
  datatype Result = Ok(s: Summary) | ZeroSpeed

  /** With the shipped values a cycle takes 9 s and the three cycles 29 s. */
  lemma ShippedTimes()
    ensures GetSummary(Shipped) == Ok(Summary(3, 1.5, 0.3, 1.0, 0.2, 1.0, 9.0, 29.0))
  {
  }
}

=== FILE: flight_data_recorder.dfy ===
/** The flight-data recorder's row logic: the Tello state-string field
    parser, the telemetry row built from the drone's getters, and the
    command-log row.  Getters are probes that return a cell or raise; the
    CSV file itself is left out. */
module FlightDataRecorder {
  import opened Outcomes

  /** A CSV cell: Python `None`, a number, or text. */
  datatype Cell = Blank | Num(x: real) | Text(t: string)

  /** The 27 column names, in file order. */
  const Headers: seq<string> := [
    "timestamp", "relative_time", "battery_percent", "height_cm",
    "temperature_low", "temperature_high", "temperature_avg",
    "pitch_deg", "roll_deg", "yaw_deg",
    "velocity_x", "velocity_y", "velocity_z",
    "acceleration_x", "acceleration_y", "acceleration_z",
    "tof_distance_cm", "barometer_cm", "motor_time",
    "position_x", "position_y", "position_z", "mission_pad_id",
    "wifi_signal", "flight_mode", "command_executed", "error_state"]

  function Blanks(n: nat): (r: seq<Cell>)
    ensures |r| == n && forall i :: 0 <= i < n ==> r[i] == Blank
  {
    seq(n, i => Blank)
  }

  // ---------------------------------------------------------------------
  // The state-string parser: `re.search(field + ":([^;]+)", s)`.

  /** `key` occurs at `i` and is followed by at least one character other
      than ';'. */
  predicate MatchAt(s: string, key: string, i: nat) {
    i + |key| < |s| && s[i..i + |key|] == key && s[i + |key|] != ';'
  }

  /** The leftmost match at or after `from`, as the regex search finds it. */
  function FirstMatch(s: string, key: string, from: nat): (r: Option<nat>)
    decreases |s| - from
    ensures r.Some? ==> from <= r.value && MatchAt(s, key, r.value)
    ensures r.Some? ==> forall j :: from <= j < r.value ==> !MatchAt(s, key, j)
    ensures r.None? ==> forall j :: from <= j ==> !MatchAt(s, key, j)
  {
    if from >= |s| then None
    else if MatchAt(s, key, from) then Some(from)
    else FirstMatch(s, key, from + 1)
  }

  /** The end of the run of non-';' characters starting at `j`. */
  function RunEnd(s: string, j: nat): (k: nat)
    requires j <= |s|
    decreases |s| - j
    ensures j <= k <= |s| && (k == |s| || s[k] == ';')
    ensures forall t :: j <= t < k ==> s[t] != ';'
  {
    if j == |s| || s[j] == ';' then j else RunEnd(s, j + 1)
  }

  /** The captured text: the longest non-empty run without ';' after the
      first `field:` that is followed by one, or nothing. */
  function Captured(s: string, field: string): (r: Option<string>)
    ensures r.None? <==> forall i :: !MatchAt(s, field + ":", i)
    ensures r.Some? ==> |r.value| >= 1 && forall t :: 0 <= t < |r.value| ==> r.value[t] != ';'
    ensures r.Some? ==> exists i: nat ::
      MatchAt(s, field + ":", i) && (forall j :: 0 <= j < i ==> !MatchAt(s, field + ":", j)) &&
      r.value == s[i + |field| + 1 .. RunEnd(s, i + |field| + 1)]
  {
    var key := field + ":";
    match FirstMatch(s, key, 0)
    case None => None
    case Some(i) =>
      assert forall j :: 0 <= j < i ==> !MatchAt(s, key, j);
      Some(s[i + |key| .. RunEnd(s, i + |key|)])
  }

  /** One requested field: a number when Python's `float` accepts the
      captured text (`toFloat`, its grammar is not modelled), the text
      itself otherwise, and `None` when the field does not occur. */
  function ParseField(s: string, field: string, toFloat: string -> Option<real>): (c: Cell)
    ensures c == Blank <==> Captured(s, field).None?
    ensures c.Num? ==> toFloat(Captured(s, field).value) == Some(c.x)
    ensures c.Text? ==> c.t == Captured(s, field).value && toFloat(c.t).None?
  {
    match Captured(s, field)
    case None => Blank
    case Some(t) => match toFloat(t) case Some(x) => Num(x) case None => Text(t)
  }

  /** `_parse_state_data`: one cell per requested field, in order. */
  function ParseState(s: string, fields: seq<string>, toFloat: string -> Option<real>): (r: seq<Cell>)
    ensures |r| == |fields|
    ensures forall i :: 0 <= i < |fields| ==> r[i] == ParseField(s, fields[i], toFloat)
  {
    seq(|fields|, i requires 0 <= i < |fields| => ParseField(s, fields[i], toFloat))
  }

  /** A field name may be found inside a longer key: asked for `x`, the
      parser reads the value of `vgx` when that comes first. */
  lemma FieldInsideLongerKey()
    ensures Captured("vgx:12;x:3;", "x") == Some("12")
  {
    var s := "vgx:12;x:3;";
    var key := "x" + ":";
    assert key == "x:";
    assert s[2..4] == "x:";
    assert MatchAt(s, key, 2);
    assert s[0..2] == "vg" && s[1..3] == "gx";
    assert !MatchAt(s, key, 0) && !MatchAt(s, key, 1);
    var m := FirstMatch(s, key, 0);
    assert m == Some(2);
    assert RunEnd(s, 4) == 6;
    assert s[4..6] == "12";
  }

  // ---------------------------------------------------------------------
  // Telemetry rows.

  /** A getter call: the value it returned, or an exception. */
  datatype Probe = Got(c: Cell) | Raises

  function Single(p: Probe): Cell {
    if p.Got? then p.c else Blank
  }

  /** The number of probes that answer before the first exception. */
  function Answered(ps: seq<Probe>): (k: nat)
    ensures k <= |ps|
    ensures forall i :: 0 <= i < k ==> ps[i].Got?
    ensures k < |ps| ==> ps[k].Raises?
  {
    if ps == [] || ps[0].Raises? then 0 else 1 + Answered(ps[1..])
  }

  function Values(ps: seq<Probe>): (r: seq<Cell>)
    ensures |r| == |ps| && forall i :: 0 <= i < |ps| ==> r[i] == Single(ps[i])
  {
    seq(|ps|, i requires 0 <= i < |ps| => Single(ps[i]))
  }

  /** A block of appends inside one `try`, as written: the values appended
      before an exception stay, and the handler then adds one `None` per
      getter of the block. */
  function Sequential(ps: seq<Probe>): (r: seq<Cell>)
    ensures Answered(ps) == |ps| ==> r == Values(ps)
    ensures Answered(ps) < |ps| ==> |r| == |ps| + Answered(ps)
    ensures Answered(ps) < |ps| ==> forall i :: 0 <= i < Answered(ps) ==> r[i] == Single(ps[i])
    ensures Answered(ps) < |ps| ==> forall i :: Answered(ps) <= i < |r| ==> r[i] == Blank
  {
    var k := Answered(ps);
    if k == |ps| then Values(ps) else Values(ps)[..k] + Blanks(|ps|)
  }

  /** A block that adds its cells only when every getter answered: always
      one cell per getter. */
  function Atomic(ps: seq<Probe>): (r: seq<Cell>)
    ensures |r| == |ps|
    ensures Answered(ps) == |ps| ==> r == Values(ps)
    ensures Answered(ps) < |ps| ==> r == Blanks(|ps|)
  {
    if Answered(ps) == |ps| then Values(ps) else Blanks(|ps|)
  }

  /** Cells parsed from a state string, or `None`s when the getter raised,
      returned something other than a string, or returned an empty one. */
  function FromState(state: Option<string>, fields: seq<string>, toFloat: string -> Option<real>): (r: seq<Cell>)
    ensures |r| == |fields|
  {
    if state.Some? && state.value != "" then ParseState(state.value, fields, toFloat) else Blanks(|fields|)
  }

  /** What the drone's getters return during one collection.  The three
      `get_current_state` calls are separate; `None` stands for a call that
      raised or returned something other than a string. */
  datatype Readings = Readings(
    stamp: string, now: real,
    battery: Probe, height: Probe,
    tempLow: Probe, tempHigh: Probe, tempAvg: Probe,
    pitch: Probe, roll: Probe, yaw: Probe,
    accX: Probe, accY: Probe, accZ: Probe,
    tof: Probe, baro: Probe, motorState: Option<string>, positionState: Option<string>,
    velocity: Option<string>)

  /** The cells after the attitude block up to the end of the row. */
  function Tail(r: Readings, acceleration: seq<Cell>, toFloat: string -> Option<real>): (t: seq<Cell>)
    ensures |t| == 3 + |acceleration| + 2 + 1 + 4 + 4
  {
    FromState(r.velocity, ["vgx", "vgy", "vgz"], toFloat)
    + acceleration
    + [Single(r.tof), Single(r.baro)]
    + FromState(r.motorState, ["time"], toFloat)
    + FromState(r.positionState, ["x", "y", "z"], toFloat) + FromState(r.positionState, ["mid"], toFloat)
    + [Blank, Text("AUTO"), Text(""), Text("")]
  }

  /** `_collect_drone_data`, as written: no row when the drone handle or
      the elapsed time cannot be obtained (no start time); otherwise the
      cells in header order, with the attitude and acceleration blocks
      appended one getter at a time. */
  function CollectRow(reachable: bool, start: Option<real>, r: Readings, toFloat: string -> Option<real>): (row: Option<seq<Cell>>)
    ensures row.Some? <==> reachable && start.Some?
    ensures row.Some? ==> |Headers| <= |row.value| <= |Headers| + 4
    ensures row.Some? && Answered([r.pitch, r.roll, r.yaw]) in {0, 3} && Answered([r.accX, r.accY, r.accZ]) in {0, 3}
      ==> |row.value| == |Headers|
  {
    if !reachable || start.None? then None
    else
      Some([Text(r.stamp), Num(r.now - start.value), Single(r.battery), Single(r.height)]
           + Atomic([r.tempLow, r.tempHigh, r.tempAvg])
           + Sequential([r.pitch, r.roll, r.yaw])
           + Tail(r, Sequential([r.accX, r.accY, r.accZ]), toFloat))
  }

  /** The recorder's promise of 27 cells fails as soon as a block's second
      getter raises: pitch read, roll raising gives a 28-cell row. */
  lemma PartialAttitudeWidensRow(r: Readings, start: real, toFloat: string -> Option<real>)
    requires r.pitch.Got? && r.roll.Raises?
    requires r.accX.Got? && r.accY.Got? && r.accZ.Got?
    ensures |CollectRow(true, Some(start), r, toFloat).value| == 28
  {
    assert Answered([r.pitch, r.roll, r.yaw]) == 1 by {
      assert [r.pitch, r.roll, r.yaw][1..] == [r.roll, r.yaw];
    }
    assert Answered([r.accX, r.accY, r.accZ]) == 3 by {
      var a := [r.accX, r.accY, r.accZ];
      assert a[1..] == [r.accY, r.accZ] && a[1..][1..] == [r.accZ] && a[1..][1..][1..] == [];
    }
  }

  /** The collection with every block all-or-nothing: exactly one cell per
      header whichever getters raise. */
  function CollectRowCorrected(reachable: bool, start: Option<real>, r: Readings, toFloat: string -> Option<real>): (row: Option<seq<Cell>>)
    ensures row.Some? <==> reachable && start.Some?
    ensures row.Some? ==> |row.value| == |Headers|
    ensures row.Some? ==> row.value[24] == Text("AUTO") && row.value[25] == Text("") && row.value[26] == Text("")
  {
    if !reachable || start.None? then None
    else
      Some([Text(r.stamp), Num(r.now - start.value), Single(r.battery), Single(r.height)]
           + Atomic([r.tempLow, r.tempHigh, r.tempAvg])
           + Atomic([r.pitch, r.roll, r.yaw])
           + Tail(r, Atomic([r.accX, r.accY, r.accZ]), toFloat))
  }

  /** When every getter answers, the two collections agree. */
  lemma CorrectedAgreesWhenAllAnswer(r: Readings, start: real, toFloat: string -> Option<real>)
    requires Answered([r.pitch, r.roll, r.yaw]) == 3 && Answered([r.accX, r.accY, r.accZ]) == 3
    ensures CollectRowCorrected(true, Some(start), r, toFloat) == CollectRow(true, Some(start), r, toFloat)
  {
  }

  // ---------------------------------------------------------------------
  // Command-log rows.

  /** `add_command_log`, as written: while recording with an open writer
      (`active`), a row of the two time
      cells and `len(headers) - 4` `None`s, with the command written at
      index -3 and the error text (empty on success) at index -1. */
  function CommandRow(active: bool, stamp: string, now: real, start: Option<real>,
                      command: string, success: bool, error: string): (row: Option<seq<Cell>>)
    ensures row.Some? <==> active
    ensures row.Some? ==> |row.value| == 2 + (|Headers| - 4)
    ensures row.Some? ==> row.value[|row.value| - 3] == Text(command)
    ensures row.Some? ==> row.value[|row.value| - 1] == Text(if success then "" else error)
  {
    if !active then None
    else
      var elapsed := if start.Some? && start.value != 0.0 then now - start.value else 0.0;
      var base := [Text(stamp), Num(elapsed)] + Blanks(|Headers| - 4);
      Some(base[|base| - 3 := Text(command)][|base| - 1 := Text(if success then "" else error)])
  }

  /** Against the header the command-log row is two cells short: the
      command lands under `mission_pad_id` and the error under
      `flight_mode`. */
  lemma CommandLandsUnderMissionPad(stamp: string, now: real, start: Option<real>, command: string, error: string)
    ensures var row := CommandRow(true, stamp, now, start, command, false, error).value;
      |row| == 25 && Headers[22] == "mission_pad_id" && row[22] == Text(command) &&
      Headers[24] == "flight_mode" && row[24] == Text(error)
  {
  }

  /** The command-log row padded to the header, with the command under
      `command_executed` and the error under `error_state`. */
  function CommandRowCorrected(active: bool, stamp: string, now: real, start: Option<real>,
                               command: string, success: bool, error: string): (row: Option<seq<Cell>>)
    ensures row.Some? <==> active
    ensures row.Some? ==> |row.value| == |Headers|
    ensures row.Some? ==> Headers[25] == "command_executed" && row.value[25] == Text(command)
    ensures row.Some? ==> Headers[26] == "error_state" && row.value[26] == Text(if success then "" else error)
    ensures row.Some? ==> forall i :: 2 <= i < 25 ==> row.value[i] == Blank
  {
    if !active then None
    else
      var elapsed := if start.Some? && start.value != 0.0 then now - start.value else 0.0;
      Some([Text(stamp), Num(elapsed)] + Blanks(|Headers| - 4) + [Text(command), Text(if success then "" else error)])
  }
}

=== FILE: flight_safety.dfy ===
/** `SafetyManager.check_flight_safety`: the per-command limits and the
    battery floor a flight command must pass.  The settings module is not
    part of this model, so its switches and thresholds are parameters; the
    drone handle and its battery reading are probes that may raise. */
module FlightSafety {
  import opened Outcomes
  import opened Numerics

  datatype Settings = Settings(enabled: bool, speedLimit: real, altitudeLimit: real, batteryCritical: real)

  /** A call into the drone: its value, or an exception. */
  datatype Probe = Got(v: real) | Raises

  const Moves := ["up", "down", "left", "right", "forward", "back"]
  const Turns := ["cw", "ccw"]

  /** Python truthiness of an optional number. */
  predicate Truthy(value: Option<real>) {
    value.Some? && value.value != 0.0
  }

  /** The command-specific limit, checked before the battery. */
  predicate CommandAllowed(s: Settings, command: string, value: Option<real>) {
    if command in Moves then !(Truthy(value) && value.value > s.speedLimit)
    else if command in Turns then !(Truthy(value) && Abs(value.value) > 360.0)
    else true
  }

  /** The altitude rule meant for `up`. */
  predicate AboveAltitude(s: Settings, value: Option<real>) {
    Truthy(value) && value.value > s.altitudeLimit
  }

  /** The verdict: `Success(true)` to fly, `Success(false)` when reaching the
      drone raised, `Failure(SafetyViolation)` for a breached limit. */
  function Check(s: Settings, command: string, value: Option<real>, reachable: bool, battery: Probe): (r: Result<bool>)
    ensures !s.enabled ==> r == Success(true)
    ensures r.Failure? ==> r.fault == SafetyViolation
    ensures s.enabled && reachable && !CommandAllowed(s, command, value) ==> r == Failure(SafetyViolation)
    ensures r == Success(true) <==>
      !s.enabled || (reachable && CommandAllowed(s, command, value) && battery.Got? && battery.v > s.batteryCritical)
    ensures r == Success(false) <==> s.enabled && (!reachable || (CommandAllowed(s, command, value) && battery.Raises?))
  {
    if !s.enabled then Success(true)
    else if !reachable then Success(false)
    else if command in Moves && Truthy(value) && value.value > s.speedLimit then Failure(SafetyViolation)
    else if !(command in Moves) && command in Turns && Truthy(value) && Abs(value.value) > 360.0 then Failure(SafetyViolation)
    else if !(command in Moves) && !(command in Turns) && command == "up" && AboveAltitude(s, value) then Failure(SafetyViolation)
    else match battery
      case Raises => Success(false)
      case Got(b) => if b <= s.batteryCritical then Failure(SafetyViolation) else Success(true)
  }

  /** The altitude rule for `up` sits behind the movement rule, which matches
      `up` first, so the altitude limit never changes a verdict. */
  lemma AltitudeRuleIsUnreachable(s: Settings, value: Option<real>, reachable: bool, battery: Probe, other: real)
    ensures Check(s, "up", value, reachable, battery) == Check(s.(altitudeLimit := other), "up", value, reachable, battery)
  {
    assert "up" in Moves;
  }

  /** A zero or missing distance is not checked against the speed limit. */
  lemma FalsyValuesPass(s: Settings, command: string, reachable: bool, battery: Probe)
    requires s.enabled && reachable && battery.Got? && battery.v > s.batteryCritical
    ensures Check(s, command, None, reachable, battery) == Success(true)
    ensures Check(s, command, Some(0.0), reachable, battery) == Success(true)
  {
  }
}

=== FILE: force_shaping.dfy ===
/** The force and thrust shaping shared by the landing PID and UDE
    controllers in both copies: error caps, gated integrals, the near-zero
    vertical force fallback, the vertical force window, the tilt limit and
    the thrust command window. */
module ForceShaping {
  import opened Numerics
  import opened LandingTypes



  /** Each error component saturated to ±3. */
  function CapError(e: V3): (r: V3)
    ensures -3.0 <= r.x <= 3.0 && -3.0 <= r.y <= 3.0 && -3.0 <= r.z <= 3.0
    ensures Abs(e.x) <= 3.0 ==> r.x == e.x
    ensures Abs(e.y) <= 3.0 ==> r.y == e.y
    ensures Abs(e.z) <= 3.0 ==> r.z == e.z
  {
    V3(Sat(e.x, 3.0), Sat(e.y, 3.0), Sat(e.z, 3.0))
  }

  /** One axis of the conditional integrator: it accumulates `e·dt` and is
      saturated to `limit` while the error is inside the gate, and is reset to
      zero as soon as the error leaves it. */
  function IntegralStep(sp: SatSpelling, i: real, e: real, dt: real, gate: real, limit: real): (r: real)
    ensures Abs(e) >= gate ==> r == 0.0
    ensures limit >= 0.0 ==> -limit <= r <= limit
    ensures Abs(e) < gate && Abs(i + e * dt) <= limit ==> r == i + e * dt
    ensures Abs(e) < gate && limit >= 0.0 && i + e * dt > limit ==> r == limit
    ensures Abs(e) < gate && limit >= 0.0 && i + e * dt < -limit ==> r == -limit
  {
    if Abs(e) < gate then Saturate(sp, i + e * dt, limit) else 0.0
  }

  /** The three integrators: x and y gated at 0.2, z at 0.5. */
  function Integrals(sp: SatSpelling, i: V3, e: V3, dt: real, maxXy: real, maxZ: real): (r: V3)
    ensures Abs(e.x) >= 0.2 ==> r.x == 0.0
    ensures Abs(e.y) >= 0.2 ==> r.y == 0.0
    ensures Abs(e.z) >= 0.5 ==> r.z == 0.0
    ensures maxXy >= 0.0 ==> Abs(r.x) <= maxXy && Abs(r.y) <= maxXy
    ensures maxZ >= 0.0 ==> Abs(r.z) <= maxZ
  {
    V3(IntegralStep(sp, i.x, e.x, dt, 0.2, maxXy), IntegralStep(sp, i.y, e.y, dt, 0.2, maxXy),
       IntegralStep(sp, i.z, e.z, dt, 0.5, maxZ))
  }

  /** Component-wise products, `np.array * np.array`. */
  function Times(a: V3, b: V3): V3 {
    V3(a.x * b.x, a.y * b.y, a.z * b.z)
  }

  function Plus(a: V3, b: V3): V3 {
    V3(a.x + b.x, a.y + b.y, a.z + b.z)
  }

  function Scale(a: V3, k: real): V3 {
    V3(a.x * k, a.y * k, a.z * k)
  }

  /** Desired force from a desired acceleration: mass times acceleration plus
      the weight. */
  function DesiredForce(acc: V3, m: real): V3 {
    Plus(Scale(acc, m), V3(0.0, 0.0, m * 9.8))
  }

  /** A vertical force below 0.01 in magnitude is replaced by half the weight
      straight up. */
  function Fallback(m: real, f: V3): (r: V3)
    ensures Abs(f.z) < 0.01 ==> r == V3(0.0, 0.0, 0.5 * m * 9.8)
    ensures Abs(f.z) >= 0.01 ==> r == f
  {
    if Abs(f.z) < 0.01 then V3(0.0, 0.0, 0.5 * m * 9.8) else f
  }

  /** The vertical force window [0.5·m·g, 2·m·g]: a force outside it is
      rescaled so that its vertical part meets the nearer bound (a negative
      vertical part makes the factor negative and reverses the force). */
  function Window(m: real, f: V3): (r: V3)
    requires f.z == 0.0 ==> m == 0.0
    ensures m > 0.0 ==> 0.5 * m * 9.8 <= r.z <= 2.0 * m * 9.8
    ensures 0.5 * m * 9.8 <= f.z <= 2.0 * m * 9.8 ==> r == f
  {
    var lo := 0.5 * m * 9.8;
    var hi := 2.0 * m * 9.8;
    if f.z < lo then
      SelfRatio(f.z, lo);
      V3(f.x / f.z * lo, f.y / f.z * lo, f.z / f.z * lo)
    else if f.z > hi then
      SelfRatio(f.z, hi);
      V3(f.x / f.z * hi, f.y / f.z * hi, f.z / f.z * hi)
    else f
  }

  lemma SelfRatio(z: real, c: real)
    requires z != 0.0
    ensures z / z * c == c
  {
  }

  lemma DivisionBound(a: real, z: real, t: real)
    requires z > 0.0
    ensures Abs(a / z) <= t <==> Abs(a) <= z * t
  {
    var q := a / z;
    assert a == q * z;
    assert Abs(a) == Abs(q) * z;
    if Abs(q) <= t {
      assert Abs(q) * z <= t * z;
    } else {
      assert Abs(q) * z > t * z;
    }
  }

  /** One horizontal axis of the tilt limit: a component whose ratio to the
      vertical exceeds `t` is replaced by `sign · z · t`. */
  function TiltAxis(a: real, z: real, t: real): (r: real)
    requires z != 0.0
    ensures z > 0.0 && t >= 0.0 ==> Abs(r) <= z * t
    ensures z > 0.0 && t >= 0.0 && Abs(a) > z * t ==> Abs(r) == z * t
    ensures z > 0.0 && Abs(a) <= z * t ==> r == a
    ensures a == 0.0 ==> r == 0.0
  {
    if Abs(a / z) > t then
      if z > 0.0 then
        DivisionBound(a, z, t);
        Sign(a) * z * t
      else Sign(a) * z * t
    else
      if z > 0.0 then
        DivisionBound(a, z, t);
        a
      else a
  }

  /** The horizontal parts of `f` are at most `t` times its vertical part. */
  predicate WithinTilt(f: V3, t: real) {
    Abs(f.x) <= f.z * t && Abs(f.y) <= f.z * t
  }

  /** The tilt limit, applied only when the vertical force exceeds 0.01. */
  function Tilt(f: V3, t: real): (r: V3)
    ensures r.z == f.z
    ensures t >= 0.0 && r.z > 0.01 ==> WithinTilt(r, t)
    ensures Abs(f.z) <= 0.01 ==> r == f
  {
    if Abs(f.z) > 0.01 then
      var x := TiltAxis(f.x, f.z, t);
      var y := TiltAxis(f.y, f.z, t);
      V3(x, y, f.z)
    else f
  }

  /** A force already inside the tilt cone is left alone. */
  lemma TiltKeepsInner(f: V3, t: real)
    requires f.z >= 0.01 && WithinTilt(f, t)
    ensures Tilt(f, t) == f
  {
  }

  /** A purely vertical force is left alone, whatever the limit. */
  lemma TiltKeepsVertical(f: V3, t: real)
    requires f.x == 0.0 && f.y == 0.0
    ensures Tilt(f, t) == f
  {
  }

  /** The fallback followed by the vertical force window. */
  function Bounded(m: real, f: V3): (r: V3)
    ensures m > 0.0 ==> 0.5 * m * 9.8 <= r.z <= 2.0 * m * 9.8
    ensures m > 0.0 && Abs(f.z) < 0.01 ==> r == V3(0.0, 0.0, 0.5 * m * 9.8)
    ensures 0.01 <= f.z && 0.5 * m * 9.8 <= f.z <= 2.0 * m * 9.8 ==> r == f
  {
    Window(m, Fallback(m, f))
  }

  /** Fallback, window and tilt limit in the order the controllers apply them. */
  function ShapeForce(m: real, f: V3, t: real): (r: V3)
    ensures m > 0.0 ==> 0.5 * m * 9.8 <= r.z <= 2.0 * m * 9.8
    ensures m > 0.0 && Abs(f.z) < 0.01 ==> r == V3(0.0, 0.0, 0.5 * m * 9.8)
    ensures t >= 0.0 && r.z > 0.01 ==> WithinTilt(r, t)
  {
    Limited(Bounded(m, f), t)
  }

  /** A force already inside the envelope (vertical part within the window,
      tilt within the limit) passes through unchanged. */
  lemma ShapeForceKeepsInnerForces(m: real, f: V3, t: real)
    requires 0.01 <= f.z && 0.5 * m * 9.8 <= f.z <= 2.0 * m * 9.8
    requires Abs(f.x) <= f.z * t && Abs(f.y) <= f.z * t
    ensures ShapeForce(m, f, t) == f
  {
    assert Bounded(m, f) == f;
    TiltKeepsInner(f, t);
  }

  /** The same for a purely vertical force, whatever the tilt limit. */
  lemma ShapeForceKeepsVerticalForces(m: real, z: real, t: real)
    requires 0.01 <= z && 0.5 * m * 9.8 <= z <= 2.0 * m * 9.8
    ensures ShapeForce(m, V3(0.0, 0.0, z), t) == V3(0.0, 0.0, z)
  {
    assert Bounded(m, V3(0.0, 0.0, z)) == V3(0.0, 0.0, z);
    TiltKeepsVertical(V3(0.0, 0.0, z), t);
  }

  /** The tilt limit behind one more call, so that proofs about the shaped
      force see the contracts of its two stages rather than their bodies. */
  function Limited(f: V3, t: real): (r: V3)
    ensures r.z == f.z
    ensures t >= 0.0 && r.z > 0.01 ==> WithinTilt(r, t)
  {
    Tilt(f, t)
  }

  /** The normalised thrust: the raw thrust over the full thrust
      `m·g / hover` (hover fractions up to 0.01 replaced by 0.5), saturated to
      `maxThrust` and raised to `minThrust`. */
  function ThrustCommand(sp: SatSpelling, raw: real, m: real, hov: real, maxThrust: real, minThrust: real): (r: real)
    requires m != 0.0
    ensures r >= minThrust
    ensures 0.0 <= maxThrust && minThrust <= maxThrust ==> r <= maxThrust
    ensures var full := m * 9.8 / (if hov > 0.01 then hov else 0.5);
      0.0 <= minThrust <= raw / full <= maxThrust ==> r == raw / full
  {
    var safeHov := if hov > 0.01 then hov else 0.5;
    var full := m * 9.8 / safeHov;
    var u := Saturate(sp, raw / full, maxThrust);
    if u < minThrust then minThrust else u
  }

  /** A hover fraction at or below 0.01 behaves as 0.5. */
  lemma HoverFallback(sp: SatSpelling, raw: real, m: real, hov: real, maxThrust: real, minThrust: real)
    requires m != 0.0 && hov <= 0.01
    ensures ThrustCommand(sp, raw, m, hov, maxThrust, minThrust) == ThrustCommand(sp, raw, m, 0.5, maxThrust, minThrust)
  {
  }

  /** Desired roll and pitch from the force expressed in the body-yaw frame. */
  function BodyAngles(tr: Transcendentals, f: V3, yaw: real): (real, real) {
    var c := tr.cos(yaw);
    var s := tr.sin(yaw);
    var bodyX := c * f.x + s * f.y;
    var bodyY := -s * f.x + c * f.y;
    (tr.atan2(-bodyY, f.z), tr.atan2(bodyX, f.z))
  }

  /** `tan(max_tilt_angle · π / 180)`. */
  function TiltRatio(tr: Transcendentals, maxTiltDeg: real): real {
    tr.tan(maxTiltDeg * tr.pi / 180.0)
  }

  /** The shaped desired force for a desired acceleration. */
  function Force(tr: Transcendentals, m: real, maxTiltDeg: real, acc: V3): V3 {
    ShapeForce(m, DesiredForce(acc, m), TiltRatio(tr, maxTiltDeg))
  }

  /** With no desired acceleration the shaped force is the weight. */
  lemma WeightIsKept(tr: Transcendentals, m: real, maxTiltDeg: real)
    requires m > 0.0 && 0.01 <= 0.5 * m * 9.8
    ensures Force(tr, m, maxTiltDeg, Zero3) == V3(0.0, 0.0, m * 9.8)
  {
    assert DesiredForce(Zero3, m) == V3(0.0, 0.0, m * 9.8);
    ShapeForceKeepsVerticalForces(m, m * 9.8, TiltRatio(tr, maxTiltDeg));
  }

  /** The weight over the full thrust is the hover fraction. */
  lemma HoverThrust(sp: SatSpelling, m: real, hov: real, maxThrust: real, minThrust: real)
    requires m > 0.0 && 0.01 < hov && minThrust <= hov <= maxThrust
    ensures ThrustCommand(sp, m * 9.8, m, hov, maxThrust, minThrust) == hov
  {
    var w := m * 9.8;
    assert w > 0.0;
    assert w / (w / hov) == hov;
  }
}

=== FILE: landing_pid.dfy ===
/** The cascaded position PID controller of the landing experiment, in both
    copies: `PID_Controller` of the hx copy and `PIDController` of the
    controller package.  The two share the control law; they differ in the
    parameter key prefix, in the values the constructor leaves before `init`
    and in where the thrust is measured along. */
module LandingPid {
  import opened Outcomes
  import opened Numerics
  import opened LandingTypes
  import opened ForceShaping

  datatype Gains = Gains(
    kp: V3, kd: V3, ki: V3,
    mass: real, hov: real, maxTilt: real,
    maxThrust: real, minThrust: real, intMaxXy: real, intMaxZ: real)

  /** The hx constructor leaves every gain and limit at zero. */
  const HxConstructed := Gains(Zero3, Zero3, Zero3, 0.0, 0.0, 0.0, 0.0, 0.0, 0.0, 0.0)

  /** The controller-package constructor leaves zero gains but usable limits. */
  const PackageConstructed := Gains(Zero3, Zero3, Zero3, 1.0, 0.5, 10.0, 1.0, 0.1, 0.5, 0.5)

  const HxPrefix := "pid_gain/"
  const PackagePrefix := ""

  /** `init(params)`: every value read under `prefix`, the x and y gains
      shared, the thrust window fixed at [0.1, 1.0]. */
  function Init(prefix: string, params: map<string, real>): (g: Gains)
    ensures g.kp.x == g.kp.y && g.kd.x == g.kd.y && g.ki.x == g.ki.y
    ensures g.maxThrust == 1.0 && g.minThrust == 0.1
    ensures prefix + "quad_mass" in params ==> g.mass == params[prefix + "quad_mass"]
    ensures prefix + "Kp_xy" in params ==> g.kp.x == params[prefix + "Kp_xy"]
    ensures prefix + "Kvi_z" in params ==> g.ki.z == params[prefix + "Kvi_z"]
    ensures g.kp.z == ParamOr(params, prefix + "Kp_z", 2.0)
    ensures g.kd.x == ParamOr(params, prefix + "Kv_xy", 2.0) && g.kd.z == ParamOr(params, prefix + "Kv_z", 2.0)
    ensures g.ki.x == ParamOr(params, prefix + "Kvi_xy", 0.3)
    ensures g.hov == ParamOr(params, prefix + "hov_percent", 0.5)
    ensures g.maxTilt == ParamOr(params, prefix + "tilt_angle_max", 10.0)
    ensures g.intMaxXy == ParamOr(params, prefix + "pxy_int_max", 0.5)
    ensures g.intMaxZ == ParamOr(params, prefix + "pz_int_max", 0.5)
    ensures params == map[] ==>
      g == Gains(V3(2.0, 2.0, 2.0), V3(2.0, 2.0, 2.0), V3(0.3, 0.3, 0.3), 1.0, 0.5, 10.0, 1.0, 0.1, 0.5, 0.5)
  {
    var kpXy := ParamOr(params, prefix + "Kp_xy", 2.0);
    var kvXy := ParamOr(params, prefix + "Kv_xy", 2.0);
    var kiXy := ParamOr(params, prefix + "Kvi_xy", 0.3);
    Gains(
      V3(kpXy, kpXy, ParamOr(params, prefix + "Kp_z", 2.0)),
      V3(kvXy, kvXy, ParamOr(params, prefix + "Kv_z", 2.0)),
      V3(kiXy, kiXy, ParamOr(params, prefix + "Kvi_z", 0.3)),
      ParamOr(params, prefix + "quad_mass", 1.0),
      ParamOr(params, prefix + "hov_percent", 0.5),
      ParamOr(params, prefix + "tilt_angle_max", 10.0),
      1.0, 0.1,
      ParamOr(params, prefix + "pxy_int_max", 0.5),
      ParamOr(params, prefix + "pz_int_max", 0.5))
  }

  /** The two copies read different keys: a dictionary written for one is
      invisible to the other, which then runs on its defaults. */
  lemma PrefixesAreNotInterchangeable()
    ensures Init(PackagePrefix, map["pid_gain/quad_mass" := 0.087]).mass == 1.0
    ensures Init(HxPrefix, map["pid_gain/quad_mass" := 0.087]).mass == 0.087
  {
    assert "quad_mass" != "pid_gain/quad_mass";
    assert PackagePrefix + "quad_mass" == "quad_mass";
    assert HxPrefix + "quad_mass" == "pid_gain/quad_mass";
  }

  /** Besides the gains, `init` with no parameters leaves the limits the
      controller-package constructor already had. */
  lemma PackageDefaultsAgree()
    ensures var g := Init(PackagePrefix, map[]);
      g.(kp := Zero3, kd := Zero3, ki := Zero3) == PackageConstructed
  {
  }

  /** Controller memory: the position-error integral and the last output. */
  datatype State = State(integral: V3, out: Output4)

  const Initial := State(Zero3, ZeroOutput)

  /** The acceleration-to-force part of `update`: capped errors, the gated
      integral and the shaped force. */
  function Law(tr: Transcendentals, g: Gains, sp: SatSpelling, integral: V3, d: Kinematics, c: Kinematics, dt: real): (r: (V3, V3))
    ensures g.intMaxXy >= 0.0 ==> Abs(r.0.x) <= g.intMaxXy && Abs(r.0.y) <= g.intMaxXy
    ensures g.intMaxZ >= 0.0 ==> Abs(r.0.z) <= g.intMaxZ
    ensures Abs(d.pos.x - c.pos.x) >= 0.2 ==> r.0.x == 0.0
    ensures Abs(d.pos.y - c.pos.y) >= 0.2 ==> r.0.y == 0.0
    ensures Abs(d.pos.z - c.pos.z) >= 0.5 ==> r.0.z == 0.0
    ensures r.1 == Force(tr, g.mass, g.maxTilt, Acceleration(g, d, c, r.0))
  {
    var ep := CapError(Minus(d.pos, c.pos));
    var i := Integrals(sp, integral, ep, dt, g.intMaxXy, g.intMaxZ);
    (i, Force(tr, g.mass, g.maxTilt, Acceleration(g, d, c, i)))
  }

  /** The PID law: the desired acceleration plus the gains times the capped
      errors and the integral. */
  function Acceleration(g: Gains, d: Kinematics, c: Kinematics, i: V3): V3 {
    var ep := CapError(Minus(d.pos, c.pos));
    var ev := CapError(Minus(d.vel, c.vel));
    Plus(Plus(Plus(d.acc, Times(g.kp, ep)), Times(g.kd, ev)), Times(g.ki, i))
  }

  /** `update(dt)`: a missing desired or current state is the AttributeError
      the source raises on `None.pos`, before any field changes; otherwise the
      integral is advanced and the output recomputed. */
  function Update(tr: Transcendentals, g: Gains, st: State, desired: Option<Kinematics>,
                  current: Option<Kinematics>, axis: ThrustAxis, dt: real): (r: Result<State>)
    requires g.mass != 0.0
    ensures r.Failure? <==> desired.None? || current.None?
    ensures r.Failure? ==> r.fault == MissingAttribute
    ensures r.Success? ==> r.value.out.yaw == desired.value.yaw
    ensures r.Success? ==> g.minThrust <= r.value.out.thrust
    ensures r.Success? && 0.0 <= g.maxThrust && g.minThrust <= g.maxThrust ==> r.value.out.thrust <= g.maxThrust
    ensures r.Success? && g.intMaxXy >= 0.0 ==> Abs(r.value.integral.x) <= g.intMaxXy && Abs(r.value.integral.y) <= g.intMaxXy
    ensures r.Success? && g.intMaxZ >= 0.0 ==> Abs(r.value.integral.z) <= g.intMaxZ
    ensures r.Success? && Abs(desired.value.pos.x - current.value.pos.x) >= 0.2 ==> r.value.integral.x == 0.0
    ensures r.Success? && Abs(desired.value.pos.y - current.value.pos.y) >= 0.2 ==> r.value.integral.y == 0.0
    ensures r.Success? && Abs(desired.value.pos.z - current.value.pos.z) >= 0.5 ==> r.value.integral.z == 0.0
    ensures r.Success? ==>
      var (i, f) := Law(tr, g, SpellingOf(axis), st.integral, desired.value, current.value, dt);
      r.value.integral == i &&
      r.value.out.thrust == ThrustCommand(SpellingOf(axis), ThrustAlong(axis, f), g.mass, g.hov, g.maxThrust, g.minThrust)
  {
    if desired.None? || current.None? then Failure(MissingAttribute)
    else
      var d := desired.value;
      var c := current.value;
      var (i, f) := Law(tr, g, SpellingOf(axis), st.integral, d, c, dt);
      var angles := BodyAngles(tr, f, c.yaw);
      var thrust := ThrustCommand(SpellingOf(axis), ThrustAlong(axis, f), g.mass, g.hov, g.maxThrust, g.minThrust);
      Success(State(i, Output4(angles.0, angles.1, d.yaw, thrust)))
  }

  /** Hovering exactly at the set-point with an empty integral and a level
      body: the desired force is the weight, and the thrust command is the
      hover fraction whenever that lies in the thrust window. */
  lemma HoverAtSetpoint(tr: Transcendentals, g: Gains, k: Kinematics, axis: ThrustAxis, dt: real)
    requires g.mass > 0.0 && 0.01 <= 0.5 * g.mass * 9.8
    requires g.intMaxXy >= 0.0 && g.intMaxZ >= 0.0
    requires k.acc == Zero3
    requires axis == BodyAxis(VerticalAxis) || axis == Quaternion(None)
    requires 0.01 < g.hov && g.minThrust <= g.hov <= g.maxThrust
    ensures var r := Update(tr, g, State(Zero3, ZeroOutput), Some(k), Some(k), axis, dt);
      r.Success? && r.value.integral == Zero3 && r.value.out.thrust == g.hov
  {
    var weight := V3(0.0, 0.0, g.mass * 9.8);
    LawAtSetpoint(tr, g, SpellingOf(axis), k, dt);
    assert ThrustAlong(axis, weight) == g.mass * 9.8;
    HoverThrust(SpellingOf(axis), g.mass, g.hov, g.maxThrust, g.minThrust);
  }

  /** At the set-point the law keeps the integral empty and asks for the weight. */
  lemma LawAtSetpoint(tr: Transcendentals, g: Gains, sp: SatSpelling, k: Kinematics, dt: real)
    requires g.mass > 0.0 && 0.01 <= 0.5 * g.mass * 9.8
    requires g.intMaxXy >= 0.0 && g.intMaxZ >= 0.0
    requires k.acc == Zero3
    ensures Law(tr, g, sp, Zero3, k, k, dt) == (Zero3, V3(0.0, 0.0, g.mass * 9.8))
  {
    var i := Integrals(sp, Zero3, CapError(Minus(k.pos, k.pos)), dt, g.intMaxXy, g.intMaxZ);
    IntegralAtSetpoint(g, sp, k, dt);
    assert Law(tr, g, sp, Zero3, k, k, dt) == (i, Force(tr, g.mass, g.maxTilt, Acceleration(g, k, k, i)));
    NoAccelerationAtSetpoint(g, k);
    WeightIsKept(tr, g.mass, g.maxTilt);
  }

  lemma IntegralAtSetpoint(g: Gains, sp: SatSpelling, k: Kinematics, dt: real)
    requires g.intMaxXy >= 0.0 && g.intMaxZ >= 0.0
    ensures Integrals(sp, Zero3, CapError(Minus(k.pos, k.pos)), dt, g.intMaxXy, g.intMaxZ) == Zero3
  {
    assert CapError(Minus(k.pos, k.pos)) == Zero3;
  }

  lemma NoAccelerationAtSetpoint(g: Gains, k: Kinematics)
    requires k.acc == Zero3
    ensures Acceleration(g, k, k, Zero3) == Zero3
  {
    assert CapError(Minus(k.pos, k.pos)) == Zero3;
    assert CapError(Minus(k.vel, k.vel)) == Zero3;
  }
}

=== FILE: landing_types.dfy ===
/** The state and output records shared by the landing-experiment
    controllers, in both copies: the hx copy (`data_structures`) and the
    controller-package copy (`landing_state`).  Vectors are three reals;
    attitudes are carried as what the controllers read from them. */
module LandingTypes {
  import opened Outcomes
  import opened Numerics

  datatype V3 = V3(x: real, y: real, z: real)

  const Zero3 := V3(0.0, 0.0, 0.0)

  function Minus(a: V3, b: V3): V3 {
    V3(a.x - b.x, a.y - b.y, a.z - b.z)
  }

  function Dot(a: V3, b: V3): real {
    a.x * b.x + a.y * b.y + a.z * b.z
  }

  /** `params.get(key, default)` over a parameter dictionary. */
  function ParamOr(params: map<string, real>, key: string, default: real): real {
    if key in params then params[key] else default
  }

  /** Position, velocity and acceleration of a desired or current state, and
      its yaw in radians. */
  datatype Kinematics = Kinematics(pos: V3, vel: V3, acc: V3, yaw: real)

  /** `DesiredState()` / `CurrentState()` of the hx copy with every argument
      omitted: zero vectors and yaw 0. */
  function HxDefaultState(yaw: real): (k: Kinematics)
    ensures k.pos == Zero3 && k.vel == Zero3 && k.acc == Zero3 && k.yaw == yaw
  {
    Kinematics(Zero3, Zero3, Zero3, yaw)
  }

  /** The hx copy's default attitude is a rotation about z by the yaw; the
      third column of such a rotation matrix is the vertical axis, whatever
      the angle. */
  const VerticalAxis := V3(0.0, 0.0, 1.0)

  /** The controller output: three angles in radians and a normalised thrust. */
  datatype Output4 = Output4(roll: real, pitch: real, yaw: real, thrust: real)

  const ZeroOutput := Output4(0.0, 0.0, 0.0, 0.0)

  /** An RC command tuple (roll, pitch, throttle, yaw), Python ints. */
  datatype Rc = Rc(roll: int, pitch: int, throttle: int, yaw: int) {
    predicate InRange() {
      -100 <= roll <= 100 && -100 <= pitch <= 100 && -100 <= throttle <= 100 && -100 <= yaw <= 100
    }
  }

  /** `int(np.clip(v, -100, 100))`. */
  function RcValue(v: real): (r: int)
    ensures -100 <= r <= 100
    ensures -100.0 <= v <= 100.0 ==> r == Trunc(v)
    ensures v >= 100.0 ==> r == 100
    ensures v <= -100.0 ==> r == -100
  {
    Trunc(Clip(v, -100.0, 100.0))
  }

  /** Radians to degrees, with the supplied value of pi. */
  function Degrees(tr: Transcendentals, rad: real): real
    requires tr.pi != 0.0
  {
    rad * 180.0 / tr.pi
  }

  /** Thrust to throttle: 0.5 is hover, each 0.005 of thrust is one unit. */
  function ThrottleOf(thrust: real): (r: int)
    ensures -100 <= r <= 100
    ensures 0.0 <= thrust <= 1.0 ==> r == Trunc((thrust - 0.5) * 200.0)
    ensures thrust >= 1.0 ==> r == 100
    ensures thrust <= 0.0 ==> r == -100
  {
    RcValue((thrust - 0.5) * 200.0)
  }

  /** `ControlOutput.as_rc_command` of the hx copy: angles in degrees times 2.5. */
  function AsRcCommand(tr: Transcendentals, o: Output4): (r: Rc)
    requires tr.pi != 0.0
    ensures r.InRange()
    ensures r.throttle == ThrottleOf(o.thrust)
    ensures -40.0 <= Degrees(tr, o.roll) <= 40.0 ==> r.roll == Trunc(Degrees(tr, o.roll) * 2.5)
    ensures -40.0 <= Degrees(tr, o.pitch) <= 40.0 ==> r.pitch == Trunc(Degrees(tr, o.pitch) * 2.5)
    ensures -40.0 <= Degrees(tr, o.yaw) <= 40.0 ==> r.yaw == Trunc(Degrees(tr, o.yaw) * 2.5)
  {
    Rc(RcValue(Degrees(tr, o.roll) * 2.5), RcValue(Degrees(tr, o.pitch) * 2.5),
       ThrottleOf(o.thrust), RcValue(Degrees(tr, o.yaw) * 2.5))
  }

  /** `ControlOutput.to_tello_rc` of the controller package: the same layout,
      angles scaled by 2 instead of 2.5. */
  function ToTelloRc(tr: Transcendentals, o: Output4): (r: Rc)
    requires tr.pi != 0.0
    ensures r.InRange()
    ensures r.throttle == ThrottleOf(o.thrust)
    ensures -50.0 <= Degrees(tr, o.roll) <= 50.0 ==> r.roll == Trunc(Degrees(tr, o.roll) * 2.0)
    ensures -50.0 <= Degrees(tr, o.pitch) <= 50.0 ==> r.pitch == Trunc(Degrees(tr, o.pitch) * 2.0)
    ensures -50.0 <= Degrees(tr, o.yaw) <= 50.0 ==> r.yaw == Trunc(Degrees(tr, o.yaw) * 2.0)
  {
    Rc(RcValue(Degrees(tr, o.roll) * 2.0), RcValue(Degrees(tr, o.pitch) * 2.0),
       ThrottleOf(o.thrust), RcValue(Degrees(tr, o.yaw) * 2.0))
  }

  /** The thrust-to-throttle table the hx quick check expects, met exactly
      over real arithmetic; in binary floating point 0.6 and 0.4 give 19 and
      -19, which the quick check's tolerance of 5 still accepts. */
  lemma ThrottleTable()
    ensures ThrottleOf(0.5) == 0 && ThrottleOf(0.6) == 20 && ThrottleOf(0.4) == -20
    ensures ThrottleOf(1.0) == 100 && ThrottleOf(0.0) == -100
  {
    assert Trunc(20.0) == 20;
    assert Trunc(-20.0) == -20;
    assert Trunc(0.0) == 0;
  }

  /** The two copies disagree on angles: ten degrees of roll become 25 in the
      hx copy and 20 in the controller package, while the throttle agrees. */
  lemma CopiesScaleAnglesDifferently(tr: Transcendentals, o: Output4)
    requires tr.pi > 0.0 && Degrees(tr, o.roll) == 10.0
    ensures AsRcCommand(tr, o).roll == 25 && ToTelloRc(tr, o).roll == 20
    ensures AsRcCommand(tr, o).throttle == ToTelloRc(tr, o).throttle
  {
    assert Trunc(25.0) == 25;
    assert Trunc(20.0) == 20;
  }

  datatype Matrix3 = Matrix3(row0: V3, row1: V3, row2: V3) {
    function Column2(): V3 {
      V3(row0.z, row1.z, row2.z)
    }
  }

  const Identity := Matrix3(V3(1.0, 0.0, 0.0), V3(0.0, 1.0, 0.0), V3(0.0, 0.0, 1.0))

  /** `quaternion_to_rotation_matrix` for a quaternion [w, x, y, z]; the
      identity when the array is missing or does not have four entries. */
  function RotationMatrix(q: Option<seq<real>>): (r: Matrix3)
    ensures q.None? || |q.value| != 4 ==> r == Identity
    ensures q.Some? && |q.value| == 4 ==>
      r.Column2() == V3(2.0 * (q.value[1] * q.value[3] + q.value[0] * q.value[2]),
                        2.0 * (q.value[2] * q.value[3] - q.value[0] * q.value[1]),
                        1.0 - 2.0 * (q.value[1] * q.value[1] + q.value[2] * q.value[2]))
  {
    if q.None? || |q.value| != 4 then Identity
    else
      var w := q.value[0];
      var x := q.value[1];
      var y := q.value[2];
      var z := q.value[3];
      Matrix3(V3(1.0 - 2.0 * (y * y + z * z), 2.0 * (x * y - w * z), 2.0 * (x * z + w * y)),
              V3(2.0 * (x * y + w * z), 1.0 - 2.0 * (x * x + z * z), 2.0 * (y * z - w * x)),
              V3(2.0 * (x * z - w * y), 2.0 * (y * z + w * x), 1.0 - 2.0 * (x * x + y * y)))
  }

  /** A quaternion with no vector part, the unit quaternion (1, 0, 0, 0)
      among them, gives the identity matrix, the same as the fallback. */
  lemma UnitQuaternionIsIdentity(w: real)
    ensures RotationMatrix(Some([w, 0.0, 0.0, 0.0])) == Identity
  {
  }

  /** The thrust a force produces along the body z axis: the third column of
      the rotation of `q` dotted with the force; the vertical component when
      there is no quaternion (the controller package's `q is None` branch). */
  function RawThrust(q: Option<seq<real>>, f: V3): (r: real)
    ensures q.None? ==> r == f.z
    ensures q.Some? && |q.value| != 4 ==> r == f.z
  {
    if q.Some? then Dot(f, RotationMatrix(q).Column2()) else f.z
  }

  /** Where the thrust is measured along: the hx copy reads the third column
      of the current attitude's rotation matrix; the controller package reads
      an optional quaternion. */
  datatype ThrustAxis = BodyAxis(zAxis: V3) | Quaternion(q: Option<seq<real>>)

  /** The hx copy spells `sat` as nested conditionals, the controller
      package as `max`/`min`. */
  function SpellingOf(a: ThrustAxis): SatSpelling {
    match a
    case BodyAxis(_) => NestedSat
    case Quaternion(_) => MaxMinSat
  }

  function ThrustAlong(a: ThrustAxis, f: V3): (r: real)
    ensures a.BodyAxis? && a.zAxis == VerticalAxis ==> r == f.z
    ensures a.Quaternion? && a.q.None? ==> r == f.z
  {
    match a
    case BodyAxis(z) => Dot(f, z)
    case Quaternion(q) => RawThrust(q, f)
  }
}

=== FILE: landing_ude.dfy ===
/** The uncertainty-and-disturbance-estimator (UDE) controller of the
    landing experiment, in both copies: `UDE_Controller` of the hx copy and
    `UDEController` of the controller package.  Each `update` is computed
    from the current errors alone: the integral term is rebuilt from zero on
    every call and the stored disturbance fields are never written, so the
    controller keeps nothing between calls except its last output. */
module LandingUde {
  import opened Outcomes
  import opened Numerics
  import opened LandingTypes
  import opened ForceShaping

  datatype Gains = Gains(
    kp: V3, kd: V3, filter: real,
    mass: real, hov: real, maxTilt: real,
    maxThrust: real, minThrust: real, intMaxXy: real, intMaxZ: real)

  /** The hx constructor leaves everything at zero, the filter constant included. */
  const HxConstructed := Gains(Zero3, Zero3, 0.0, 0.0, 0.0, 0.0, 0.0, 0.0, 0.0, 0.0)

  /** The controller-package constructor: zero gains, the RMTT mass of 87 g. */
  const PackageConstructed := Gains(Zero3, Zero3, 1.0, 0.087, 0.5, 20.0, 1.0, 0.1, 1.0, 1.0)

  const HxPrefix := "ude_gain/"
  const PackagePrefix := ""

  /** `init(params)`: values read under `prefix`, x and y gains shared, the
      thrust window fixed at [0.1, 1.0]. */
  function Init(prefix: string, params: map<string, real>): (g: Gains)
    ensures g.kp.x == g.kp.y && g.kd.x == g.kd.y
    ensures g.maxThrust == 1.0 && g.minThrust == 0.1
    ensures g.kp.x == ParamOr(params, prefix + "Kp_xy", 0.5) && g.kp.z == ParamOr(params, prefix + "Kp_z", 0.5)
    ensures g.kd.x == ParamOr(params, prefix + "Kd_xy", 2.0) && g.kd.z == ParamOr(params, prefix + "Kd_z", 2.0)
    ensures prefix + "T_ude" in params ==> g.filter == params[prefix + "T_ude"]
    ensures prefix + "quad_mass" in params ==> g.mass == params[prefix + "quad_mass"]
    ensures g.hov == ParamOr(params, prefix + "hov_percent", 0.5)
    ensures g.maxTilt == ParamOr(params, prefix + "tilt_angle_max", 20.0)
    ensures g.intMaxXy == ParamOr(params, prefix + "pxy_int_max", 1.0)
    ensures g.intMaxZ == ParamOr(params, prefix + "pz_int_max", 1.0)
    ensures params == map[] ==>
      g == Gains(V3(0.5, 0.5, 0.5), V3(2.0, 2.0, 2.0), 1.0, 0.087, 0.5, 20.0, 1.0, 0.1, 1.0, 1.0)
  {
    var kpXy := ParamOr(params, prefix + "Kp_xy", 0.5);
    var kdXy := ParamOr(params, prefix + "Kd_xy", 2.0);
    Gains(
      V3(kpXy, kpXy, ParamOr(params, prefix + "Kp_z", 0.5)),
      V3(kdXy, kdXy, ParamOr(params, prefix + "Kd_z", 2.0)),
      ParamOr(params, prefix + "T_ude", 1.0),
      ParamOr(params, prefix + "quad_mass", 0.087),
      ParamOr(params, prefix + "hov_percent", 0.5),
      ParamOr(params, prefix + "tilt_angle_max", 20.0),
      1.0, 0.1,
      ParamOr(params, prefix + "pxy_int_max", 1.0),
      ParamOr(params, prefix + "pz_int_max", 1.0))
  }

  /** Besides the gains, `init` with no parameters leaves what the
      controller-package constructor already had. */
  lemma PackageDefaultsAgree()
    ensures Init(PackagePrefix, map[]).(kp := Zero3, kd := Zero3) == PackageConstructed
  {
  }

  /** One axis of the per-call integral term: `e·dt` inside the 0.5 gate,
      zero outside it. */
  function GatedProduct(e: real, dt: real): (r: real)
    ensures Abs(e) >= 0.5 ==> r == 0.0
    ensures Abs(e) < 0.5 ==> r == e * dt
  {
    if Abs(e) < 0.5 then 0.0 + e * dt else 0.0
  }

  function IntegralTerm(ep: V3, dt: real): V3 {
    V3(GatedProduct(ep.x, dt), GatedProduct(ep.y, dt), GatedProduct(ep.z, dt))
  }

  /** The disturbance compensation `u_d = -(1/T)(kp·I + kd·e_p + e_v)`,
      saturated per axis; a zero filter constant is the ZeroDivisionError of
      `1.0 / T`. */
  function Compensation(g: Gains, sp: SatSpelling, ep: V3, ev: V3, dt: real): (r: Result<V3>)
    ensures r.Failure? <==> g.filter == 0.0
    ensures r.Failure? ==> r.fault == ZeroDivision
    ensures r.Success? && g.intMaxXy >= 0.0 ==> Abs(r.value.x) <= g.intMaxXy && Abs(r.value.y) <= g.intMaxXy
    ensures r.Success? && g.intMaxZ >= 0.0 ==> Abs(r.value.z) <= g.intMaxZ
  {
    if g.filter == 0.0 then Failure(ZeroDivision)
    else Success(Limit(sp, Raw(g, ep, ev, dt), g.intMaxXy, g.intMaxZ))
  }

  function Raw(g: Gains, ep: V3, ev: V3, dt: real): V3
    requires g.filter != 0.0
  {
    Scale(Plus(Plus(Times(g.kp, IntegralTerm(ep, dt)), Times(g.kd, ep)), ev), -(1.0 / g.filter))
  }

  /** Per-axis saturation: x and y to `xy`, z to `z`. */
  function Limit(sp: SatSpelling, v: V3, xy: real, z: real): (r: V3)
    ensures xy >= 0.0 ==> Abs(r.x) <= xy && Abs(r.y) <= xy
    ensures z >= 0.0 ==> Abs(r.z) <= z
    ensures xy >= 0.0 && z >= 0.0 && v == Zero3 ==> r == Zero3
  {
    V3(Saturate(sp, v.x, xy), Saturate(sp, v.y, xy), Saturate(sp, v.z, z))
  }

  /** With no error there is nothing to compensate. */
  lemma NoCompensationWithoutError(g: Gains, sp: SatSpelling, dt: real)
    requires g.filter != 0.0 && g.intMaxXy >= 0.0 && g.intMaxZ >= 0.0
    ensures Compensation(g, sp, Zero3, Zero3, dt) == Success(Zero3)
  {
    RawWithoutError(g, dt);
  }

  lemma RawWithoutError(g: Gains, dt: real)
    requires g.filter != 0.0
    ensures Raw(g, Zero3, Zero3, dt) == Zero3
  {
    assert IntegralTerm(Zero3, dt) == Zero3;
    assert Times(g.kp, Zero3) == Zero3 && Times(g.kd, Zero3) == Zero3;
  }

  /** `update(dt)`: a missing state is the AttributeError on `None.pos`, a
      zero filter constant the ZeroDivisionError; otherwise the nominal law
      minus the compensation, shaped into attitude and thrust. */
  function Update(tr: Transcendentals, g: Gains, desired: Option<Kinematics>,
                  current: Option<Kinematics>, axis: ThrustAxis, dt: real): (r: Result<Output4>)
    requires g.mass != 0.0
    ensures r.Success? <==> desired.Some? && current.Some? && g.filter != 0.0
    ensures desired.None? || current.None? ==> r == Failure(MissingAttribute)
    ensures desired.Some? && current.Some? && g.filter == 0.0 ==> r == Failure(ZeroDivision)
    ensures r.Success? ==> r.value.yaw == desired.value.yaw
    ensures r.Success? ==> g.minThrust <= r.value.thrust
    ensures r.Success? && 0.0 <= g.maxThrust && g.minThrust <= g.maxThrust ==> r.value.thrust <= g.maxThrust
  {
    if desired.None? || current.None? then Failure(MissingAttribute)
    else
      var d := desired.value;
      var c := current.value;
      match Compensation(g, SpellingOf(axis), CapError(Minus(d.pos, c.pos)), CapError(Minus(d.vel, c.vel)), dt)
      case Failure(e) => Failure(e)
      case Success(ud) => Success(Command(tr, g, d, c, axis, ud))
  }

  /** The nominal law `u_l`: desired acceleration plus the gains times the
      capped errors. */
  function Nominal(g: Gains, d: Kinematics, c: Kinematics): V3 {
    Plus(Plus(d.acc, Times(g.kp, CapError(Minus(d.pos, c.pos)))), Times(g.kd, CapError(Minus(d.vel, c.vel))))
  }

  /** Attitude and thrust for the acceleration `u_l - u_d`. */
  function Command(tr: Transcendentals, g: Gains, d: Kinematics, c: Kinematics, axis: ThrustAxis, ud: V3): (o: Output4)
    requires g.mass != 0.0
    ensures o.yaw == d.yaw
    ensures g.minThrust <= o.thrust
    ensures 0.0 <= g.maxThrust && g.minThrust <= g.maxThrust ==> o.thrust <= g.maxThrust
  {
    var f := Force(tr, g.mass, g.maxTilt, Minus(Nominal(g, d, c), ud));
    var angles := BodyAngles(tr, f, c.yaw);
    Output4(angles.0, angles.1, d.yaw, ThrustCommand(SpellingOf(axis), ThrustAlong(axis, f), g.mass, g.hov, g.maxThrust, g.minThrust))
  }

  /** The compensation enters the law as an offset on the desired
      acceleration: the command for `u_l - u_d` is the uncompensated command
      for a desired acceleration lowered by `u_d`. */
  lemma CompensationActsAsAccelerationOffset(tr: Transcendentals, g: Gains, d: Kinematics, c: Kinematics, axis: ThrustAxis, ud: V3)
    requires g.mass != 0.0
    ensures Command(tr, g, d, c, axis, ud) == Command(tr, g, d.(acc := Minus(d.acc, ud)), c, axis, Zero3)
  {
    assert Minus(Nominal(g, d, c), ud) == Minus(Nominal(g, d.(acc := Minus(d.acc, ud)), c), Zero3);
  }

  /** A successful update is the command for the nominal law minus the
      compensation computed from the capped errors of this call. */
  lemma UpdateIsCommandOfCompensation(tr: Transcendentals, g: Gains, d: Kinematics, c: Kinematics, axis: ThrustAxis, dt: real)
    requires g.mass != 0.0 && g.filter != 0.0
    ensures var ud := Compensation(g, SpellingOf(axis), CapError(Minus(d.pos, c.pos)), CapError(Minus(d.vel, c.vel)), dt);
      ud.Success? && Update(tr, g, Some(d), Some(c), axis, dt) == Success(Command(tr, g, d, c, axis, ud.value))
  {
  }

  /** Before `init`, the hx copy's zero filter constant makes every update
      with both states present raise. */
  lemma HxUninitialisedRaises(tr: Transcendentals, m: real, d: Kinematics, c: Kinematics, axis: ThrustAxis, dt: real)
    requires m != 0.0
    ensures Update(tr, HxConstructed.(mass := m), Some(d), Some(c), axis, dt) == Failure(ZeroDivision)
  {
  }

  /** At the set-point there is nothing to compensate: the output equals the
      nominal law's, and the thrust is the hover fraction for a level body. */
  lemma HoverAtSetpoint(tr: Transcendentals, g: Gains, k: Kinematics, axis: ThrustAxis, dt: real)
    requires g.mass > 0.0 && 0.01 <= 0.5 * g.mass * 9.8 && g.filter != 0.0
    requires g.intMaxXy >= 0.0 && g.intMaxZ >= 0.0
    requires k.acc == Zero3
    requires axis == BodyAxis(VerticalAxis) || axis == Quaternion(None)
    requires 0.01 < g.hov && g.minThrust <= g.hov <= g.maxThrust
    ensures var r := Update(tr, g, Some(k), Some(k), axis, dt);
      r.Success? && r.value.thrust == g.hov
  {
    assert CapError(Minus(k.pos, k.pos)) == Zero3;
    assert CapError(Minus(k.vel, k.vel)) == Zero3;
    NoCompensationWithoutError(g, SpellingOf(axis), dt);
    HoverCommand(tr, g, k, axis);
  }

  lemma HoverCommand(tr: Transcendentals, g: Gains, k: Kinematics, axis: ThrustAxis)
    requires g.mass > 0.0 && 0.01 <= 0.5 * g.mass * 9.8
    requires k.acc == Zero3
    requires axis == BodyAxis(VerticalAxis) || axis == Quaternion(None)
    requires 0.01 < g.hov && g.minThrust <= g.hov <= g.maxThrust
    ensures Command(tr, g, k, k, axis, Zero3).thrust == g.hov
  {
    NominalAtSetpoint(g, k);
    assert Minus(Nominal(g, k, k), Zero3) == Zero3;
    WeightIsKept(tr, g.mass, g.maxTilt);
    assert ThrustAlong(axis, V3(0.0, 0.0, g.mass * 9.8)) == g.mass * 9.8;
    HoverThrust(SpellingOf(axis), g.mass, g.hov, g.maxThrust, g.minThrust);
  }

  lemma NominalAtSetpoint(g: Gains, k: Kinematics)
    requires k.acc == Zero3
    ensures Nominal(g, k, k) == Zero3
  {
    assert CapError(Minus(k.pos, k.pos)) == Zero3;
    assert CapError(Minus(k.vel, k.vel)) == Zero3;
  }
}

=== FILE: numerics.dfy ===
/** Scalar helpers over `real` used by every controller: numpy-style clipping,
    the two `sat` spellings of the landing experiments, `sign`, and Python's
    `int()` on a float.  Transcendental functions are not defined here: they
    are carried as uninterpreted function values in `Transcendentals`. */
module Numerics {

  function Abs(x: real): real {
    if x < 0.0 then -x else x
  }

  function Min(a: real, b: real): real {
    if a <= b then a else b
  }

  function Max(a: real, b: real): real {
    if a >= b then a else b
  }

  /** `numpy.clip(x, lo, hi)`, which is `min(max(x, lo), hi)`; with an empty
      interval (`lo > hi`) numpy returns `hi`. */
  function Clip(x: real, lo: real, hi: real): (r: real)
    ensures r <= hi
    ensures lo <= hi ==> lo <= r
    ensures lo <= x <= hi ==> r == x
    ensures lo <= hi && x < lo ==> r == lo
    ensures x > hi ==> r == hi
  {
    Min(Max(x, lo), hi)
  }

  /** `sat(x, limit)` of the hx landing experiment: the nested-conditional form. */
  function Sat(x: real, limit: real): real {
    if x > limit then limit else if x < -limit then -limit else x
  }

  /** `sat(x, limit)` of the landing-experiment package: `max(-limit, min(limit, x))`. */
  function SatLanding(x: real, limit: real): real {
    Max(-limit, Min(limit, x))
  }

  /** Which of the two `sat` spellings a copy of the controllers uses. */
  datatype SatSpelling = NestedSat | MaxMinSat

  function Saturate(sp: SatSpelling, x: real, limit: real): (r: real)
    ensures limit >= 0.0 ==> r == Sat(x, limit) && -limit <= r <= limit
    ensures sp == NestedSat ==> r == Sat(x, limit)
    ensures sp == MaxMinSat ==> r == SatLanding(x, limit)
  {
    match sp
    case NestedSat => Sat(x, limit)
    case MaxMinSat => SatLanding(x, limit)
  }

  /** `sign(x)`: 1 for positive, -1 for negative, 0 otherwise. */
  function Sign(x: real): real {
    if x > 0.0 then 1.0 else if x < 0.0 then -1.0 else 0.0
  }

  /** One ±360 correction of an angle difference toward the half-turn band,
      as the yaw computations of the controllers do it. */
  function WrapHalfTurn(e: real): (r: real)
    ensures r == e || r == e - 360.0 || r == e + 360.0
    ensures -180.0 <= e <= 180.0 ==> r == e
    ensures -540.0 <= e <= 540.0 ==> -180.0 <= r <= 180.0
  {
    if e > 180.0 then e - 360.0 else if e < -180.0 then e + 360.0 else e
  }

  /** Python `int()` applied to a float: truncation toward zero. */
  function Trunc(x: real): (r: int)
    ensures 0.0 <= x ==> 0 <= r
    ensures x <= 0.0 ==> r <= 0
    ensures Abs(r as real) <= Abs(x) < Abs(r as real) + 1.0
  {
    if x >= 0.0 then x.Floor else -((-x).Floor)
  }

  /** The transcendental functions the controllers call.  They are passed in
      as values, so no property of sin, atan2, sqrt, ... is assumed beyond
      what a lemma states in its own hypotheses. */
  datatype Transcendentals = Transcendentals(
    pi: real,
    sqrt: real -> real,
    sin: real -> real,
    cos: real -> real,
    tan: real -> real,
    atan: real -> real,
    atan2: (real, real) -> real,
    asin: real -> real,
    pow: (real, real) -> real)

  lemma SignProperties(x: real)
    ensures Sign(x) == -1.0 || Sign(x) == 0.0 || Sign(x) == 1.0
    ensures Sign(x) * Abs(x) == x
    ensures (Sign(x) > 0.0) == (x > 0.0) && (Sign(x) < 0.0) == (x < 0.0)
  {
  }

  /** For a non-negative limit, `Sat` lands in `[-limit, limit]`, is the
      identity inside that interval, and is idempotent. */
  lemma SatProperties(x: real, limit: real)
    requires limit >= 0.0
    ensures -limit <= Sat(x, limit) <= limit
    ensures Abs(x) <= limit ==> Sat(x, limit) == x
    ensures Sat(Sat(x, limit), limit) == Sat(x, limit)
    ensures Sat(x, limit) == Clip(x, -limit, limit)
  {
  }

  /** The two `sat` spellings agree on every non-negative limit. */
  lemma SatSpellingsAgree(x: real, limit: real)
    requires limit >= 0.0
    ensures SatLanding(x, limit) == Sat(x, limit)
  {
  }

  /** With a negative limit the spellings part ways: the nested form returns
      `limit` for large inputs, the max/min form returns `-limit`. */
  lemma SatSpellingsDifferOnNegativeLimit()
    ensures Sat(5.0, -1.0) == -1.0
    ensures SatLanding(5.0, -1.0) == 1.0
  {
  }
}

=== FILE: outcomes.dfy ===
/** Optional values and error results shared by every component.
    Python's `None` becomes `None`; a raised exception becomes `Failure`
    carrying the kind of exception the source would raise. */
module Outcomes {

  datatype Option<+T> = None | Some(value: T) {
    function GetOr(default: T): T {
      if Some? then value else default
    }
  }

  /** The exceptions the modelled code can raise. */
  datatype Fault =
    | ZeroDivision      // Python ZeroDivisionError
    | MathDomain        // ValueError from math.asin outside [-1, 1]
    | MissingKey        // KeyError
    | MissingAttribute  // AttributeError
    | NotInitialised    // RuntimeError raised by the RMTT adapter
    | SafetyViolation   // TelloSafetyError

  datatype Result<+R> = Success(value: R) | Failure(fault: Fault)
}

=== FILE: pid.dfy ===
/** The single-axis PID controller (`PIDGains`, `PIDController`) shared by
    the position, attitude and velocity controllers: clipped integral,
    zero derivative on the first call, clipped derivative afterwards, and a
    clipped output. */
module Pid {
  import opened Numerics

  datatype Gains = Gains(kp: real, ki: real, kd: real, maxIntegral: real, maxDerivative: real, maxOutput: real)

  /** `PIDGains(kp, ki, kd, max_output=...)` with the default integral and derivative limits. */
  function MakeGains(kp: real, ki: real, kd: real, maxOutput: real): (g: Gains)
    ensures g.maxIntegral == 100.0 && g.maxDerivative == 50.0
    ensures g.kp == kp && g.ki == ki && g.kd == kd && g.maxOutput == maxOutput
  {
    Gains(kp, ki, kd, 100.0, 50.0, maxOutput)
  }

  datatype State = State(integral: real, lastError: real, firstRun: bool)

  /** A fresh or reset controller. */
  const Initial := State(0.0, 0.0, true)

  datatype Step = Step(next: State, output: real)

  /** The derivative term of a call with error `e`. */
  function Derivative(g: Gains, s: State, e: real, dt: real): real
    requires dt > 0.0
  {
    if s.firstRun then 0.0 else Clip(g.kd * (e - s.lastError) / dt, -g.maxDerivative, g.maxDerivative)
  }

  /** The proportional plus integral terms for error `e` and accumulated integral `i`. */
  function PlusI(g: Gains, e: real, i: real): real {
    g.kp * e + g.ki * i
  }

  /** `PIDController.compute(current, target, dt)`. */
  function Compute(g: Gains, s: State, current: real, target: real, dt: real): (r: Step)
    ensures dt <= 0.0 ==> r == Step(s, 0.0)
    ensures dt > 0.0 ==> !r.next.firstRun && r.next.lastError == target - current
    ensures dt > 0.0 && g.maxIntegral >= 0.0 ==> -g.maxIntegral <= r.next.integral <= g.maxIntegral
    ensures dt > 0.0 && g.maxIntegral >= 0.0 && Abs(s.integral + (target - current) * dt) <= g.maxIntegral ==>
      r.next.integral == s.integral + (target - current) * dt
    ensures g.maxOutput >= 0.0 ==> -g.maxOutput <= r.output <= g.maxOutput
    ensures dt > 0.0 ==> r.output == Clip(PlusI(g, target - current, r.next.integral) + Derivative(g, s, target - current, dt),
                                          -g.maxOutput, g.maxOutput)
  {
    if dt <= 0.0 then
      Step(s, 0.0)
    else
      var e := target - current;
      var integral := Clip(s.integral + e * dt, -g.maxIntegral, g.maxIntegral);
      var d := Derivative(g, s, e, dt);
      var out := Clip(PlusI(g, e, integral) + d, -g.maxOutput, g.maxOutput);
      Step(State(integral, e, false), out)
  }

  /** `PIDController.reset`. */
  function Reset(s: State): (r: State)
    ensures r.integral == 0.0 && r.lastError == 0.0 && r.firstRun
  {
    Initial
  }

  /** The derivative term is zero on the first call after construction or
      reset, and within ±max_derivative on every later call. */
  lemma DerivativeBounds(g: Gains, s: State, e: real, dt: real)
    requires dt > 0.0 && g.maxDerivative >= 0.0
    ensures s.firstRun ==> Derivative(g, s, e, dt) == 0.0
    ensures -g.maxDerivative <= Derivative(g, s, e, dt) <= g.maxDerivative
  {
  }

  /** After a reset, the next call has no derivative contribution: its output
      is the clipped P and I terms only, and it clears `first_run`. */
  lemma ResetThenCompute(g: Gains, s: State, current: real, target: real, dt: real)
    requires dt > 0.0
    ensures var r := Compute(g, Reset(s), current, target, dt);
      !r.next.firstRun &&
      r.output == Clip(PlusI(g, target - current, Clip((target - current) * dt, -g.maxIntegral, g.maxIntegral)),
                       -g.maxOutput, g.maxOutput)
  {
  }

  /** A sample of one call: current value, target value, time step. */
  datatype Sample = Sample(current: real, target: real, dt: real)

  function Run(g: Gains, s: State, samples: seq<Sample>): State
    decreases |samples|
  {
    if |samples| == 0 then s
    else Run(g, Compute(g, s, samples[0].current, samples[0].target, samples[0].dt).next, samples[1..])
  }

  /** Anti-windup as an invariant: started within ±max_integral, the integral
      stays there over any sequence of calls, including the dt <= 0 calls
      that change nothing. */
  lemma {:induction false} IntegralStaysBounded(g: Gains, s: State, samples: seq<Sample>)
    requires g.maxIntegral >= 0.0 && -g.maxIntegral <= s.integral <= g.maxIntegral
    ensures -g.maxIntegral <= Run(g, s, samples).integral <= g.maxIntegral
    decreases |samples|
  {
    if |samples| > 0 {
      IntegralStaysBounded(g, Compute(g, s, samples[0].current, samples[0].target, samples[0].dt).next, samples[1..]);
    }
  }

  /** Calls with dt <= 0 are invisible: they leave the state as it was. */
  lemma {:induction false} NonPositiveStepsChangeNothing(g: Gains, s: State, samples: seq<Sample>)
    requires forall i :: 0 <= i < |samples| ==> samples[i].dt <= 0.0
    ensures Run(g, s, samples) == s
    decreases |samples|
  {
    if |samples| > 0 {
      NonPositiveStepsChangeNothing(g, s, samples[1..]);
    }
  }
}

=== FILE: position_controller.dfy ===
/** The 3-D position controller: four PID axes (altitude, x, y, yaw), a
    velocity-integrating position estimate, target validation and the
    throttle safety overrides. */
module PositionController {
  import opened Outcomes
  import opened Numerics
  import opened BaseController
  import Pid

  type Target = map<string, real>

  datatype Config = Config(
    altitudeGains: Pid.Gains, positionGains: Pid.Gains, yawGains: Pid.Gains,
    maxAltitude: real, minAltitude: real,
    emergencyDescentRate: real, maxTilt: real)

  const DefaultConfig := Config(
    Pid.MakeGains(0.8, 0.1, 0.3, 50.0), Pid.MakeGains(0.5, 0.05, 0.2, 30.0), Pid.MakeGains(1.0, 0.1, 0.1, 50.0),
    300.0, 20.0, -20.0, 25.0)

  datatype State = State(
    altitude: Pid.State, x: Pid.State, y: Pid.State, yaw: Pid.State,
    estX: real, estY: real, estYaw: real)

  const Initial := State(Pid.Initial, Pid.Initial, Pid.Initial, Pid.Initial, 0.0, 0.0, 0.0)

  /** `_validate_target`. */
  function ValidTarget(cfg: Config, t: Target): (ok: bool)
    ensures "height_cm" !in t ==> !ok
    ensures "height_cm" in t ==> (ok <==> cfg.minAltitude <= t["height_cm"] <= cfg.maxAltitude)
  {
    "height_cm" in t && cfg.minAltitude <= t["height_cm"] <= cfg.maxAltitude
  }

  /** `set_target`: the stored setpoint, or None when validation fails.
      Missing x, y and yaw are taken from the current estimates. */
  function SetTarget(cfg: Config, st: State, t: Target): (r: Option<Target>)
    ensures r.Some? <==> "height_cm" in t && cfg.minAltitude <= t["height_cm"] <= cfg.maxAltitude
    ensures r.Some? ==>
      r.value.Keys == t.Keys + {"x_cm", "y_cm", "yaw_deg"} &&
      (forall k :: k in t ==> r.value[k] == t[k]) &&
      r.value["x_cm"] == (if "x_cm" in t then t["x_cm"] else st.estX) &&
      r.value["y_cm"] == (if "y_cm" in t then t["y_cm"] else st.estY) &&
      r.value["yaw_deg"] == (if "yaw_deg" in t then t["yaw_deg"] else st.estYaw)
  {
    if !ValidTarget(cfg, t) then None
    else
      var t1 := if "x_cm" in t then t else t["x_cm" := st.estX];
      var t2 := if "y_cm" in t1 then t1 else t1["y_cm" := st.estY];
      var t3 := if "yaw_deg" in t2 then t2 else t2["yaw_deg" := st.estYaw];
      Some(t3)
  }

  /** Setting an already complete, valid setpoint again stores it unchanged. */
  lemma SetTargetIdempotent(cfg: Config, st: State, st2: State, t: Target)
    requires SetTarget(cfg, st, t).Some?
    ensures SetTarget(cfg, st2, SetTarget(cfg, st, t).value) == SetTarget(cfg, st, t)
  {
  }

  /** `_update_position_estimate`: dead reckoning from the ground speed
      (cm/s converted to m/s and back) when dt > 0; yaw copied from the sensor. */
  function UpdateEstimate(st: State, s: SensorData, dt: real): (r: State)
    ensures dt > 0.0 ==> r.estX == st.estX + s.vgx * dt && r.estY == st.estY + s.vgy * dt
    ensures dt <= 0.0 ==> r.estX == st.estX && r.estY == st.estY
    ensures r.estYaw == s.yaw
    ensures r.altitude == st.altitude && r.x == st.x && r.y == st.y && r.yaw == st.yaw
  {
    var st1 := if dt > 0.0 then st.(estX := st.estX + s.vgx / 100.0 * dt * 100.0,
                                    estY := st.estY + s.vgy / 100.0 * dt * 100.0)
               else st;
    st1.(estYaw := s.yaw)
  }

  /** The height used for control: TOF when positive, else the height reading. */
  function Height(s: SensorData): real {
    if s.tof > 0.0 then s.tof else s.height
  }

  /** `_apply_safety_limits`: the limited throttle. */
  function ApplySafetyLimits(cfg: Config, throttle: real, s: SensorData): (r: real)
    ensures s.battery < 15.0 ==> r == cfg.emergencyDescentRate
    ensures !(s.battery < 15.0) && Abs(s.pitch) <= cfg.maxTilt && Abs(s.roll) <= cfg.maxTilt ==>
      (Height(s) > cfg.maxAltitude ==> r <= -10.0) &&
      (!(Height(s) > cfg.maxAltitude) && Height(s) < cfg.minAltitude ==> r >= 10.0) &&
      (cfg.minAltitude <= Height(s) <= cfg.maxAltitude ==> r == throttle)
    ensures !(s.battery < 15.0) && (Abs(s.pitch) > cfg.maxTilt || Abs(s.roll) > cfg.maxTilt) ==>
      (cfg.minAltitude <= Height(s) <= cfg.maxAltitude ==> r == throttle * 0.5)
  {
    var h := Height(s);
    var t1 := if h > cfg.maxAltitude then Min(throttle, -10.0)
              else if h < cfg.minAltitude then Max(throttle, 10.0)
              else throttle;
    var t2 := if Abs(s.pitch) > cfg.maxTilt || Abs(s.roll) > cfg.maxTilt then t1 * 0.5 else t1;
    if s.battery < 15.0 then cfg.emergencyDescentRate else t2
  }

  /** `compute_control`.  `lastUpdate` is the base class's `last_update_time`
      and `now` the clock reading; a missing setpoint key raises KeyError.
      The source advances the estimates and the PID states it reaches before
      that KeyError; the model keeps the prior state instead, which no caller
      can tell apart, since the raise puts the controller in ERROR and only
      `reset` lets it compute again. */
  function ComputeControl(cfg: Config, st: State, s: SensorData, t: Target, lastUpdate: real, now: real): (r: (State, ComputeOutcome))
    ensures !SafetyCheck(s) ==> r == (st, Computed(ZeroCommand, true))
    ensures SafetyCheck(s) && r.1.Computed? ==> !r.1.stopped
    ensures SafetyCheck(s) ==> (r.1.ComputeRaises? <==> !("height_cm" in t && "x_cm" in t && "y_cm" in t && "yaw_deg" in t))
  {
    var dt := if lastUpdate > 0.0 then now - lastUpdate else 0.02;
    if !SafetyCheck(s) then (st, Computed(ZeroCommand, true))
    else if !("height_cm" in t && "x_cm" in t && "y_cm" in t && "yaw_deg" in t) then (st, ComputeRaises)
    else
      var st1 := UpdateEstimate(st, s, dt);
      var a := Pid.Compute(cfg.altitudeGains, st1.altitude, Height(s), t["height_cm"], dt);
      var x := Pid.Compute(cfg.positionGains, st1.x, st1.estX, t["x_cm"], dt);
      var y := Pid.Compute(cfg.positionGains, st1.y, st1.estY, t["y_cm"], dt);
      var w := Pid.Compute(cfg.yawGains, st1.yaw, st1.estYaw, t["yaw_deg"], dt);
      var throttle := ApplySafetyLimits(cfg, a.output, s);
      (st1.(altitude := a.next, x := x.next, y := y.next, yaw := w.next),
       Computed(MakeCommand(y.output, -x.output, throttle, w.output), false))
  }

  /** With the base class's battery check in front (battery < 20 stops the
      controller), the battery < 15 emergency-descent rule of the safety
      limits can never shape a command produced by `compute_control`. */
  lemma EmergencyDescentUnreachable(cfg: Config, st: State, s: SensorData, t: Target, lastUpdate: real, now: real)
    requires s.battery < 15.0
    ensures ComputeControl(cfg, st, s, t, lastUpdate, now).1 == Computed(ZeroCommand, true)
  {
  }

  /** `_on_reset`: every PID axis reset and the estimates zeroed, which is
      exactly the state of a freshly constructed controller. */
  function OnReset(st: State): (r: State)
    ensures r == Initial
  {
    State(Pid.Reset(st.altitude), Pid.Reset(st.x), Pid.Reset(st.y), Pid.Reset(st.yaw), 0.0, 0.0, 0.0)
  }
}

=== FILE: rmtt_adapter.dfy ===
/** The RMTT adapter of the landing-experiment package: it turns the
    drone's sensor dictionary into the controllers' current state, builds
    desired states, and runs the chosen controller.  Wall-clock reads and
    logging are left out; the sensor dictionary is a map whose missing keys
    read as 0, as `dict.get(key, 0)` does. */
module RmttAdapter {
  import opened Outcomes
  import opened Numerics
  import opened LandingTypes
  import LandingPid
  import LandingUde
  import Adrc

  datatype Kind = PidKind | UdeKind | AdrcKind

  /** A controller after `init_controller`, with its memory. */
  datatype Controller =
    | PidCtl(pg: LandingPid.Gains, ps: LandingPid.State)
    | UdeCtl(ug: LandingUde.Gains)
    | AdrcCtl(ag: Adrc.Params, ast: Adrc.State)

  /** The adapter's fields: controller, position and velocity estimates,
      takeoff origin and whether the origin has been taken. */
  datatype Adapter = Adapter(
    kind: Kind, controller: Option<Controller>,
    position: V3, velocity: V3, takeoff: Option<V3>, initialized: bool)
  {
    /** What the constructor and every later call keep: x and y of the
        estimate stay zero, and an origin exists once initialised. */
    predicate Valid() {
      position.x == 0.0 && position.y == 0.0 && (initialized ==> takeoff.Some?)
    }
  }

  function New(kind: Kind): (a: Adapter)
    ensures a.Valid() && !a.initialized && a.controller.None?
  {
    Adapter(kind, None, Zero3, Zero3, None, false)
  }

  /** The dictionaries `init_controller` hands to each controller: exactly
      the listed keys, each with the adapter's own default. */
  function PidParams(params: map<string, real>): map<string, real> {
    map["quad_mass" := ParamOr(params, "quad_mass", 1.0), "hov_percent" := ParamOr(params, "hov_percent", 0.5),
        "Kp_xy" := ParamOr(params, "Kp_xy", 2.0), "Kp_z" := ParamOr(params, "Kp_z", 2.0),
        "Kv_xy" := ParamOr(params, "Kv_xy", 2.0), "Kv_z" := ParamOr(params, "Kv_z", 2.0),
        "Kvi_xy" := ParamOr(params, "Kvi_xy", 0.3), "Kvi_z" := ParamOr(params, "Kvi_z", 0.3),
        "tilt_angle_max" := ParamOr(params, "tilt_angle_max", 10.0),
        "pxy_int_max" := ParamOr(params, "pxy_int_max", 0.5), "pz_int_max" := ParamOr(params, "pz_int_max", 0.5)]
  }

  function UdeParams(params: map<string, real>): map<string, real> {
    map["quad_mass" := ParamOr(params, "quad_mass", 1.0), "hov_percent" := ParamOr(params, "hov_percent", 0.5),
        "Kp_xy" := ParamOr(params, "Kp_xy", 0.5), "Kp_z" := ParamOr(params, "Kp_z", 0.5),
        "Kd_xy" := ParamOr(params, "Kd_xy", 2.0), "Kd_z" := ParamOr(params, "Kd_z", 2.0),
        "T_ude" := ParamOr(params, "T_ude", 1.0), "tilt_angle_max" := ParamOr(params, "tilt_angle_max", 20.0),
        "pxy_int_max" := ParamOr(params, "pxy_int_max", 1.0), "pz_int_max" := ParamOr(params, "pz_int_max", 1.0)]
  }

  function AdrcParams(params: map<string, real>): map<string, real> {
    map["quad_mass" := ParamOr(params, "quad_mass", 2.5), "hov_percent" := ParamOr(params, "hov_percent", 0.5),
        "k" := ParamOr(params, "k", 0.8), "k1" := ParamOr(params, "k1", -0.15), "k2" := ParamOr(params, "k2", -3.0),
        "c1" := ParamOr(params, "c1", 1.5), "c2" := ParamOr(params, "c2", 0.6),
        "lambda_D" := ParamOr(params, "lambda_D", 1.0), "beta_max" := ParamOr(params, "beta_max", 1.0),
        "gamma" := ParamOr(params, "gamma", 0.2), "lambda" := ParamOr(params, "lambda", 0.8),
        "sigma" := ParamOr(params, "sigma", 0.9), "omega_star" := ParamOr(params, "omega_star", 0.02),
        "t1" := ParamOr(params, "t1", 0.02), "t2" := ParamOr(params, "t2", 0.04), "l" := ParamOr(params, "l", 5.0),
        "kp" := ParamOr(params, "kp", 2.0), "ki" := ParamOr(params, "ki", 0.3), "kd" := ParamOr(params, "kd", 2.0),
        "pxy_int_max" := ParamOr(params, "pxy_int_max", 0.5), "pz_int_max" := ParamOr(params, "pz_int_max", 0.5)]
  }

  /** `init_controller`: a fresh controller of the adapter's kind,
      initialised from the forwarded dictionary. */
  function InitController(a: Adapter, params: map<string, real>): (r: Adapter)
    ensures r == a.(controller := r.controller) && r.controller.Some?
    ensures a.kind == PidKind ==>
      r.controller == Some(PidCtl(LandingPid.Init(LandingPid.PackagePrefix, PidParams(params)), LandingPid.Initial))
    ensures a.kind == UdeKind ==> r.controller == Some(UdeCtl(LandingUde.Init(LandingUde.PackagePrefix, UdeParams(params))))
    ensures a.kind == AdrcKind ==> r.controller == Some(AdrcCtl(Adrc.Init(Adrc.PackageCopy, AdrcParams(params)), Adrc.Initial))
  {
    match a.kind
    case PidKind => a.(controller := Some(PidCtl(LandingPid.Init(LandingPid.PackagePrefix, PidParams(params)), LandingPid.Initial)))
    case UdeKind => a.(controller := Some(UdeCtl(LandingUde.Init(LandingUde.PackagePrefix, UdeParams(params)))))
    case AdrcKind => a.(controller := Some(AdrcCtl(Adrc.Init(Adrc.PackageCopy, AdrcParams(params)), Adrc.Initial)))
  }

  /** The adapter's UDE defaults override the controller's own mass: with
      no parameters the UDE controller runs with 1.0 kg, not 0.087 kg. */
  lemma AdapterOverridesUdeMass()
    ensures LandingUde.Init(LandingUde.PackagePrefix, UdeParams(map[])).mass == 1.0
    ensures LandingUde.Init(LandingUde.PackagePrefix, map[]).mass == 0.087
  {
    assert "" + "quad_mass" == "quad_mass";
  }

  /** For the PID controller the adapter's defaults are the controller's
      own, so forwarding changes nothing whatever the parameters. */
  lemma PidForwardingIsTransparent(params: map<string, real>)
    ensures LandingPid.Init(LandingPid.PackagePrefix, PidParams(params)) == LandingPid.Init(LandingPid.PackagePrefix, params)
  {
    var f := LandingPid.Init(LandingPid.PackagePrefix, PidParams(params));
    var g := LandingPid.Init(LandingPid.PackagePrefix, params);
    ForwardedPidGains(params);
    ForwardedPidLimits(params);
    assert f.kp == g.kp && f.kd == g.kd && f.ki == g.ki;
  }

  lemma ForwardedPidGains(params: map<string, real>)
    ensures var f := LandingPid.Init(LandingPid.PackagePrefix, PidParams(params));
      var g := LandingPid.Init(LandingPid.PackagePrefix, params);
      f.kp == g.kp && f.kd == g.kd && f.ki == g.ki
  {
    assert LandingPid.PackagePrefix == "";
    assert "" + "Kp_xy" == "Kp_xy" && "" + "Kp_z" == "Kp_z" && "" + "Kv_xy" == "Kv_xy" && "" + "Kv_z" == "Kv_z";
    assert "" + "Kvi_xy" == "Kvi_xy" && "" + "Kvi_z" == "Kvi_z";
    assert "Kp_xy"[1] != "Kv_xy"[1] && "Kp_xy"[1] != "Kvi_z"[1] && "Kv_xy"[2] != "Kvi_z"[2];
    assert "Kp_z"[1] != "Kv_z"[1];
  }

  lemma ForwardedPidLimits(params: map<string, real>)
    ensures var f := LandingPid.Init(LandingPid.PackagePrefix, PidParams(params));
      var g := LandingPid.Init(LandingPid.PackagePrefix, params);
      f.mass == g.mass && f.hov == g.hov && f.maxTilt == g.maxTilt && f.intMaxXy == g.intMaxXy && f.intMaxZ == g.intMaxZ
  {
    assert LandingPid.PackagePrefix == "";
    assert "" + "quad_mass" == "quad_mass" && "" + "hov_percent" == "hov_percent";
    assert "" + "tilt_angle_max" == "tilt_angle_max";
    assert "" + "pxy_int_max" == "pxy_int_max" && "" + "pz_int_max" == "pz_int_max";
    assert "hov_percent"[0] != "pxy_int_max"[0];
  }

  /** The height in metres: the time-of-flight reading when it lies in
      (0, 300) cm, else the height reading when positive, else the
      barometer. */
  function SensorHeight(tof: real, height: real, baro: real): (z: real)
    ensures 0.0 < tof < 300.0 ==> z * 100.0 == tof
    ensures !(0.0 < tof < 300.0) && height > 0.0 ==> z * 100.0 == height
    ensures !(0.0 < tof < 300.0) && height <= 0.0 ==> z * 100.0 == baro
  {
    if tof > 0.0 && tof < 300.0 then tof / 100.0
    else if height > 0.0 then height / 100.0
    else baro / 100.0
  }

  /** What `rmtt_to_current_state` returns: the kinematic state and the
      yaw-only quaternion [cos(yaw/2), 0, 0, sin(yaw/2)]. */
  datatype Measured = Measured(state: Kinematics, q: seq<real>)

  /** `rmtt_to_current_state`: the first call takes the current height as
      the takeoff origin; every call reports the height above it, x = y = 0,
      the ground speed converted from cm/s, and zero acceleration. */
  function ToCurrentState(tr: Transcendentals, a: Adapter, sensors: map<string, real>): (r: (Adapter, Measured))
    requires a.Valid()
    ensures r.0.Valid() && r.0.initialized
    ensures r.0 == a.(position := r.0.position, velocity := r.0.velocity, takeoff := r.0.takeoff, initialized := true)
    ensures r.1.state.pos.x == 0.0 && r.1.state.pos.y == 0.0
    ensures !a.initialized ==> r.1.state.pos.z == 0.0
    ensures a.initialized ==> r.0.takeoff == a.takeoff
    ensures a.initialized ==> (r.1.state.pos.z ==
      SensorHeight(ParamOr(sensors, "tof_distance_cm", 0.0), ParamOr(sensors, "height_cm", 0.0),
                   ParamOr(sensors, "barometer_cm", 0.0)) - a.takeoff.value.z)
    ensures r.1.state.vel.z * 100.0 == ParamOr(sensors, "vgz_cm_s", 0.0)
    ensures r.1.state.vel.x * 100.0 == ParamOr(sensors, "vgx_cm_s", 0.0)
    ensures r.1.state.vel.y * 100.0 == ParamOr(sensors, "vgy_cm_s", 0.0)
    ensures r.1.state.yaw * 180.0 == ParamOr(sensors, "yaw_deg", 0.0) * tr.pi
    ensures r.1.state.acc == Zero3
    ensures |r.1.q| == 4 && r.1.q[1] == 0.0 && r.1.q[2] == 0.0
    ensures r.1.q[0] == tr.cos(r.1.state.yaw / 2.0) && r.1.q[3] == tr.sin(r.1.state.yaw / 2.0)
  {
    var z := SensorHeight(ParamOr(sensors, "tof_distance_cm", 0.0), ParamOr(sensors, "height_cm", 0.0),
                          ParamOr(sensors, "barometer_cm", 0.0));
    var b := if a.initialized then a
             else a.(takeoff := Some(V3(0.0, 0.0, z)), position := V3(0.0, 0.0, z), initialized := true);
    var pos := b.position.(z := z - b.takeoff.value.z);
    var vel := V3(ParamOr(sensors, "vgx_cm_s", 0.0) / 100.0, ParamOr(sensors, "vgy_cm_s", 0.0) / 100.0,
                  ParamOr(sensors, "vgz_cm_s", 0.0) / 100.0);
    var yaw := ParamOr(sensors, "yaw_deg", 0.0) * tr.pi / 180.0;
    (b.(position := pos, velocity := vel),
     Measured(Kinematics(pos, vel, Zero3, yaw), [tr.cos(yaw / 2.0), 0.0, 0.0, tr.sin(yaw / 2.0)]))
  }

  /** Two readings in a row: the second is measured from the first's height. */
  lemma HeightIsRelativeToTakeoff(tr: Transcendentals, kind: Kind, first: map<string, real>, second: map<string, real>)
    ensures var (a1, m1) := ToCurrentState(tr, New(kind), first);
      var (a2, m2) := ToCurrentState(tr, a1, second);
      m1.state.pos.z == 0.0 &&
      m2.state.pos.z == SensorHeight(ParamOr(second, "tof_distance_cm", 0.0), ParamOr(second, "height_cm", 0.0),
                                     ParamOr(second, "barometer_cm", 0.0))
                      - SensorHeight(ParamOr(first, "tof_distance_cm", 0.0), ParamOr(first, "height_cm", 0.0),
                                     ParamOr(first, "barometer_cm", 0.0))
  {
  }

  /** `create_desired_state`: a missing velocity or acceleration is zero. */
  function CreateDesiredState(pos: V3, vel: Option<V3>, acc: Option<V3>, yaw: real): (k: Kinematics)
    ensures k.pos == pos && k.yaw == yaw
    ensures k.vel == (if vel.None? then Zero3 else vel.value)
    ensures k.acc == (if acc.None? then Zero3 else acc.value)
  {
    Kinematics(pos, vel.GetOr(Zero3), acc.GetOr(Zero3), yaw)
  }

  /** The controllers' own preconditions: a non-zero mass for PID and UDE,
      nine weights for ADRC. */
  predicate Runnable(c: Controller) {
    match c
    case PidCtl(g, _) => g.mass != 0.0
    case UdeCtl(g) => g.mass != 0.0
    case AdrcCtl(_, st) => |st.omega| == Adrc.Basis
  }

  /** `update_control`: raises before `init_controller`; otherwise runs the
      controller on the measured state, with its quaternion as the thrust
      axis, and keeps the controller's new memory. */
  function UpdateControl(tr: Transcendentals, a: Adapter, current: Measured, desired: Kinematics, dt: real): (r: (Adapter, Result<Output4>))
    requires a.controller.Some? ==> Runnable(a.controller.value)
    ensures a.controller.None? ==> r == (a, Failure(NotInitialised))
    ensures r.0 == a.(controller := r.0.controller)
    ensures r.1.Success? ==> r.1.value.yaw == desired.yaw
    ensures a.controller.Some? && a.controller.value.PidCtl? ==> r.1.Success?
    ensures a.controller.Some? && a.controller.value.PidCtl? && r.1.Success? ==>
      (a.controller.value.pg.maxThrust == 1.0 && a.controller.value.pg.minThrust == 0.1 ==> 0.1 <= r.1.value.thrust <= 1.0)
    ensures a.controller.Some? && a.controller.value.UdeCtl? ==> (r.1.Success? <==> a.controller.value.ug.filter != 0.0)
    ensures a.controller.Some? && a.controller.value.AdrcCtl? && r.1.Success? ==> 0.3 <= r.1.value.thrust <= 0.7
  {
    match a.controller
    case None => (a, Failure(NotInitialised))
    case Some(PidCtl(g, st)) =>
      (match LandingPid.Update(tr, g, st, Some(desired), Some(current.state), Quaternion(Some(current.q)), dt)
       case Success(next) => (a.(controller := Some(PidCtl(g, next))), Success(next.out))
       case Failure(e) => (a, Failure(e)))
    case Some(UdeCtl(g)) =>
      (a, LandingUde.Update(tr, g, Some(desired), Some(current.state), Quaternion(Some(current.q)), dt))
    case Some(AdrcCtl(p, st)) =>
      var t := Adrc.Update(tr, p, Adrc.PackageCopy, st, Some(desired), Some(current.state), dt);
      (a.(controller := Some(AdrcCtl(p, t.next))), t.out)
  }
}

=== FILE: thrust_conversion.dfy ===
/** The thrust-to-throttle mapping of the hx landing experiment's conversion
    script: the current mapping with its minimum-throttle guard, and the
    older symmetric mapping it replaced. */
module ThrustConversion {
  import opened Numerics
  import LandingTypes

  /** The mapping before the guard: thrusts from 0.5 up land in [0, 100],
      thrusts below 0.5 in [-100, 0], 200 throttle units per unit thrust. */
  function Unguarded(thrust: real): (r: int)
    ensures thrust >= 0.5 ==> 0 <= r <= 100
    ensures thrust < 0.5 ==> -100 <= r <= 0
  {
    if thrust >= 0.5 then Trunc(Clip((thrust - 0.5) * 200.0, 0.0, 100.0))
    else Trunc(Clip((thrust - 0.5) * 200.0, -100.0, 0.0))
  }

  /** `convert_thrust_to_throttle`: a throttle under 5 is raised to 5 for
      every thrust above 0.1. */
  function Convert(thrust: real): (r: int)
    ensures thrust > 0.1 ==> 5 <= r <= 100
    ensures thrust <= 0.1 ==> -100 <= r <= 0
    ensures thrust <= 0.1 || Unguarded(thrust) >= 5 ==> r == Unguarded(thrust)
  {
    var u := Unguarded(thrust);
    if u < 5 && thrust > 0.1 then (if 5 >= u then 5 else u) else u
  }

  /** `old_convert_thrust`: one clip to [-100, 100]. */
  function Old(thrust: real): (r: int)
    ensures -100 <= r <= 100
  {
    Trunc(Clip((thrust - 0.5) * 200.0, -100.0, 100.0))
  }

  /** The old mapping is the throttle conversion of the hx `ControlOutput`. */
  lemma OldIsControlOutputThrottle(thrust: real)
    ensures Old(thrust) == LandingTypes.ThrottleOf(thrust)
  {
  }

  /** Hover thrust 0.5 gives 5 under the guard and 0 under the old mapping,
      although the script announces 0 for hover. */
  lemma HoverGivesFive()
    ensures Convert(0.5) == 5 && Old(0.5) == 0
  {
    assert Trunc(0.0) == 0;
  }

  /** The two mappings part ways only where the guard acts: thrusts in
      (0.1, 0.525), where the unguarded throttle is below 5. */
  lemma AgreesWithOldOutsideGuard(thrust: real)
    requires thrust <= 0.1 || thrust >= 0.525
    ensures Convert(thrust) == Old(thrust)
  {
    if thrust >= 0.525 {
      assert (thrust - 0.5) * 200.0 >= 5.0;
      TruncAtLeast((thrust - 0.5) * 200.0, Clip((thrust - 0.5) * 200.0, 0.0, 100.0));
    }
  }

  lemma TruncAtLeast(x: real, c: real)
    requires x >= 5.0 && c == Clip(x, 0.0, 100.0)
    ensures Trunc(c) >= 5
  {
    assert c >= 5.0;
    assert c.Floor >= 5;
  }
}

=== FILE: trajectory_controller.dfy ===
/** The trajectory controller: pre-generated waypoint and square trajectories
    (a table of time-stamped points), the look-ahead lookup of the point to
    fly to, and the feed-forward plus feedback command with its yaw wrap and
    ±80 clips.  The circular and figure-eight generators are parameters. */
module TrajectoryController {
  import opened Outcomes
  import opened Numerics
  import opened BaseController

  datatype Kind = WaypointKind | Circular | FigureEight | Square | Custom

  /** `TrajectoryType(value)` for the five enumeration values; None for any
      other string. */
  function KindOf(s: string): (r: Option<Kind>)
    ensures r == Some(WaypointKind) <==> s == "waypoint"
    ensures r == Some(Square) <==> s == "square"
    ensures r == Some(Custom) <==> s == "custom"
    ensures r.None? <==> s !in {"waypoint", "circular", "figure_eight", "square", "custom"}
  {
    if s == "waypoint" then Some(WaypointKind)
    else if s == "circular" then Some(Circular)
    else if s == "figure_eight" then Some(FigureEight)
    else if s == "square" then Some(Square)
    else if s == "custom" then Some(Custom)
    else None
  }

  datatype Waypoint = Waypoint(x: real, y: real, height: real, yaw: real, speed: real, hold: real, tolerance: real)

  datatype Point = Point(t: real, x: real, y: real, height: real, yaw: real, vx: real, vy: real, vz: real)

  datatype Position = Position(x: real, y: real, height: real)

  function PositionOf(w: Waypoint): Position {
    Position(w.x, w.y, w.height)
  }

  function PointPosition(p: Point): Position {
    Position(p.x, p.y, p.height)
  }

  predicate AtRest(p: Point) {
    p.vx == 0.0 && p.vy == 0.0 && p.vz == 0.0
  }

  datatype Config = Config(
    resolution: real, maxSpeed: real, maxAcceleration: real, defaultHeight: real,
    feedforwardGain: real, positionKp: real, velocityKp: real,
    lookahead: real, trackingTolerance: real, waypointTolerance: real,
    circleRadius: real, squareSize: real, eightWidth: real)

  const DefaultConfig := Config(0.1, 50.0, 30.0, 100.0, 0.8, 0.6, 0.4, 0.5, 8.0, 15.0, 100.0, 150.0, 120.0)

  /** The target dictionary: `trajectory_type` (None when absent), the
      `waypoints` list (empty when absent) and the `parameters` dictionary. */
  datatype Request = Request(kind: Option<string>, waypoints: seq<map<string, real>>, parameters: map<string, real>)

  datatype State = State(
    points: seq<Point>, waypoints: seq<Waypoint>, kind: Option<Kind>,
    index: nat, startTime: Option<real>, completed: bool,
    travelled: real, lastPosition: Option<(real, real)>,
    waypointIndex: nat, holdStart: Option<real>)

  const Initial := State([], [], None, 0, None, false, 0.0, None, 0, None)

  /** `_reset_trajectory_state`: tracking progress is forgotten; the table,
      the waypoints and the trajectory type are kept. */
  function ResetTracking(st: State): (r: State)
    ensures r.points == st.points && r.waypoints == st.waypoints && r.kind == st.kind
    ensures r.startTime.None? && !r.completed && r.travelled == 0.0 && r.lastPosition.None?
    ensures r.index == 0 && r.waypointIndex == 0 && r.holdStart.None?
  {
    st.(index := 0, startTime := None, completed := false, travelled := 0.0,
        lastPosition := None, waypointIndex := 0, holdStart := None)
  }

  const WaypointKeys: set<string> := {"x_cm", "y_cm", "height_cm", "yaw_deg", "speed_cm_s", "hold_time_s", "tolerance_cm"}

  /** `Waypoint(**wp)`: the dataclass has no defaults, so the dictionary must
      name exactly its seven fields (anything else raises TypeError). */
  function ParseWaypoint(m: map<string, real>): (r: Option<Waypoint>)
    ensures r.Some? <==> m.Keys == WaypointKeys
    ensures r.Some? ==>
      r.value.x == m["x_cm"] && r.value.y == m["y_cm"] && r.value.height == m["height_cm"] &&
      r.value.yaw == m["yaw_deg"] && r.value.speed == m["speed_cm_s"] &&
      r.value.hold == m["hold_time_s"] && r.value.tolerance == m["tolerance_cm"]
  {
    if m.Keys == WaypointKeys then
      Some(Waypoint(m["x_cm"], m["y_cm"], m["height_cm"], m["yaw_deg"], m["speed_cm_s"], m["hold_time_s"], m["tolerance_cm"]))
    else None
  }

  /** The list comprehension over the waypoint dictionaries: all or nothing. */
  function ParseWaypoints(ms: seq<map<string, real>>): (r: Option<seq<Waypoint>>)
    ensures r.Some? <==> forall i :: 0 <= i < |ms| ==> ms[i].Keys == WaypointKeys
    ensures r.Some? ==> |r.value| == |ms| && forall i :: 0 <= i < |ms| ==> Some(r.value[i]) == ParseWaypoint(ms[i])
  {
    if |ms| == 0 then Some([])
    else
      match ParseWaypoint(ms[0])
      case None => None
      case Some(w) =>
        match ParseWaypoints(ms[1..])
        case None => None
        case Some(rest) => Some([w] + rest)
  }

  /** The time stamp of the k-th point of a table: the running clock starts at
      0 and advances by one resolution step per emitted point. */
  function Stamp(k: nat, res: real): real {
    (k as real) * res
  }

  lemma StampMonotone(i: nat, j: nat, res: real)
    requires res > 0.0 && i <= j
    ensures Stamp(i, res) <= Stamp(j, res)
  {
    var d := (j - i) as real;
    assert Stamp(j, res) - Stamp(i, res) == d * res;
    ProductNonNegative(d, res);
  }

  lemma ProductNonNegative(a: real, b: real)
    requires a >= 0.0 && b >= 0.0
    ensures a * b >= 0.0
  {
  }

  /** `j / num_points` of the interpolation. */
  function Fraction(j: nat, n: nat): real
    requires n > 0
  {
    (j as real) / (n as real)
  }

  lemma FractionEnds(n: nat)
    requires n > 0
    ensures Fraction(0, n) == 0.0 && Fraction(n, n) == 1.0
  {
  }

  /** Straight-line distance, through the supplied square root. */
  function Distance(tr: Transcendentals, from: Position, w: Waypoint): real {
    var dx := w.x - from.x;
    var dy := w.y - from.y;
    var dh := w.height - from.height;
    tr.sqrt(dx * dx + dy * dy + dh * dh)
  }

  /** Flight time of a leg: distance over speed, or one second when the speed
      is not positive. */
  function FlightTime(tr: Transcendentals, from: Position, w: Waypoint): (r: real)
    ensures w.speed <= 0.0 ==> r == 1.0
    ensures w.speed > 0.0 ==> r * w.speed == Distance(tr, from, w)
  {
    if w.speed > 0.0 then Distance(tr, from, w) / w.speed else 1.0
  }

  /** `num_points = max(1, int(flight_time / res))`. */
  function MoveCount(flightTime: real, res: real): (n: nat)
    requires res != 0.0
    ensures n >= 1
    ensures flightTime / res >= 1.0 ==> n as real <= flightTime / res < n as real + 1.0
    ensures flightTime / res < 2.0 ==> n == 1
  {
    var k := Trunc(flightTime / res);
    if k >= 1 then k else 1
  }

  /** The number of hold points: `int(hold / res)` when the hold is positive;
      a negative count makes an empty `range`. */
  function HoldCount(hold: real, res: real): (h: nat)
    requires res != 0.0
    ensures hold <= 0.0 ==> h == 0
    ensures hold > 0.0 && res > 0.0 ==> h as real <= hold / res < h as real + 1.0
  {
    if hold > 0.0 then
      var k := Trunc(hold / res);
      if k >= 0 then k else 0
    else 0
  }

  /** Leg velocity: displacement over flight time, 0 when the time is not positive. */
  function LegVelocity(d: real, flightTime: real): real {
    if flightTime > 0.0 then d / flightTime else 0.0
  }

  /** Point j of the interpolated leg from `from` to `w`. */
  function LegPoint(from: Position, w: Waypoint, flightTime: real, n: nat, j: nat, base: nat, res: real): Point
    requires 0 < n && j <= n
  {
    var dx := w.x - from.x;
    var dy := w.y - from.y;
    var dh := w.height - from.height;
    var f := Fraction(j, n);
    if j < n then
      Point(Stamp(base + j, res), from.x + dx * f, from.y + dy * f, from.height + dh * f, w.yaw,
            LegVelocity(dx, flightTime), LegVelocity(dy, flightTime), LegVelocity(dh, flightTime))
    else
      Point(Stamp(base + j, res), from.x + dx * f, from.y + dy * f, from.height + dh * f, w.yaw, 0.0, 0.0, 0.0)
  }

  /** One iteration of the waypoint loop: the num_points + 1 leg points
      followed by the hold points, numbered from `base`. */
  function Segment(tr: Transcendentals, res: real, from: Position, w: Waypoint, base: nat): (r: seq<Point>)
    requires res != 0.0
    ensures |r| == MoveCount(FlightTime(tr, from, w), res) + 1 + HoldCount(w.hold, res)
    ensures PointPosition(r[0]) == from
    ensures forall k :: 0 <= k < |r| ==> r[k].t == Stamp(base + k, res) && r[k].yaw == w.yaw
    ensures forall k :: MoveCount(FlightTime(tr, from, w), res) <= k < |r| ==>
      PointPosition(r[k]) == PositionOf(w) && AtRest(r[k])
  {
    var ft := FlightTime(tr, from, w);
    var n := MoveCount(ft, res);
    var h := HoldCount(w.hold, res);
    FractionEnds(n);
    var leg := seq(n + 1, j requires 0 <= j <= n => LegPoint(from, w, ft, n, j, base, res));
    var stay := seq(h, k requires 0 <= k < h =>
      Point(Stamp(base + n + 1 + k, res), w.x, w.y, w.height, w.yaw, 0.0, 0.0, 0.0));
    assert leg[0] == LegPoint(from, w, ft, n, 0, base, res);
    assert leg[n] == LegPoint(from, w, ft, n, n, base, res);
    leg + stay
  }

  /** The whole waypoint loop, starting at `from` with point number `base`;
      each leg starts where the previous waypoint is. */
  function Build(tr: Transcendentals, res: real, from: Position, ws: seq<Waypoint>, base: nat): seq<Point>
    requires res != 0.0
    decreases |ws|
  {
    if |ws| == 0 then []
    else
      var seg := Segment(tr, res, from, ws[0], base);
      seg + Build(tr, res, PositionOf(ws[0]), ws[1..], base + |seg|)
  }

  /** The clock of a generated table: point k is stamped k resolution steps
      after the first. */
  lemma {:induction false} BuildStamps(tr: Transcendentals, res: real, from: Position, ws: seq<Waypoint>, base: nat)
    requires res != 0.0
    ensures forall k :: 0 <= k < |Build(tr, res, from, ws, base)| ==> Build(tr, res, from, ws, base)[k].t == Stamp(base + k, res)
    decreases |ws|
  {
    if |ws| > 0 {
      var seg := Segment(tr, res, from, ws[0], base);
      BuildStamps(tr, res, PositionOf(ws[0]), ws[1..], base + |seg|);
      var b := Build(tr, res, from, ws, base);
      forall k | 0 <= k < |b|
        ensures b[k].t == Stamp(base + k, res)
      {
        if k >= |seg| {
          assert b[k] == Build(tr, res, PositionOf(ws[0]), ws[1..], base + |seg|)[k - |seg|];
        }
      }
    }
  }

  /** Every waypoint contributes at least two points, so a table is empty
      exactly when there are no waypoints. */
  lemma {:induction false} BuildLength(tr: Transcendentals, res: real, from: Position, ws: seq<Waypoint>, base: nat)
    requires res != 0.0
    ensures |Build(tr, res, from, ws, base)| >= 2 * |ws|
    ensures |Build(tr, res, from, ws, base)| == 0 <==> |ws| == 0
    decreases |ws|
  {
    if |ws| > 0 {
      var seg := Segment(tr, res, from, ws[0], base);
      BuildLength(tr, res, PositionOf(ws[0]), ws[1..], base + |seg|);
    }
  }

  /** A table starts at the starting position and ends, at rest, at the last waypoint. */
  lemma {:induction false} BuildEnds(tr: Transcendentals, res: real, from: Position, ws: seq<Waypoint>, base: nat)
    requires res != 0.0 && |ws| > 0
    ensures var b := Build(tr, res, from, ws, base);
      |b| > 0 && PointPosition(b[0]) == from &&
      PointPosition(b[|b| - 1]) == PositionOf(ws[|ws| - 1]) && AtRest(b[|b| - 1])
    decreases |ws|
  {
    var seg := Segment(tr, res, from, ws[0], base);
    var rest := Build(tr, res, PositionOf(ws[0]), ws[1..], base + |seg|);
    var b := Build(tr, res, from, ws, base);
    assert b == seg + rest;
    if |ws| == 1 {
      assert rest == [];
      assert b[|b| - 1] == seg[|seg| - 1];
    } else {
      BuildEnds(tr, res, PositionOf(ws[0]), ws[1..], base + |seg|);
      assert b[|b| - 1] == rest[|rest| - 1];
      assert ws[1..][|ws[1..]| - 1] == ws[|ws| - 1];
    }
  }

  /** With a positive resolution a table's time stamps never decrease. */
  lemma BuildSorted(tr: Transcendentals, res: real, from: Position, ws: seq<Waypoint>)
    requires res > 0.0
    ensures Sorted(Build(tr, res, from, ws, 0))
  {
    var b := Build(tr, res, from, ws, 0);
    BuildStamps(tr, res, from, ws, 0);
    forall i, j | 0 <= i <= j < |b|
      ensures b[i].t <= b[j].t
    {
      StampMonotone(i, j, res);
    }
  }

  predicate Sorted(ps: seq<Point>) {
    forall i, j :: 0 <= i <= j < |ps| ==> ps[i].t <= ps[j].t
  }

  /** The facts about a whole table, gathered in one place. */
  lemma GeneratedTable(tr: Transcendentals, res: real, from: Position, ws: seq<Waypoint>)
    requires res != 0.0 && |ws| > 0
    ensures var b := Build(tr, res, from, ws, 0);
      |b| >= 2 * |ws| &&
      PointPosition(b[0]) == from &&
      PointPosition(b[|b| - 1]) == PositionOf(ws[|ws| - 1]) && AtRest(b[|b| - 1]) &&
      (forall k :: 0 <= k < |b| ==> b[k].t == Stamp(k, res)) &&
      (res > 0.0 ==> Sorted(b))
  {
    var b := Build(tr, res, from, ws, 0);
    BuildLength(tr, res, from, ws, 0);
    assert |b| >= 2 * |ws|;
    BuildEnds(tr, res, from, ws, 0);
    assert PointPosition(b[|b| - 1]) == PositionOf(ws[|ws| - 1]) && AtRest(b[|b| - 1]);
    BuildStamps(tr, res, from, ws, 0);
    assert forall k :: 0 <= k < |b| ==> b[k].t == Stamp(0 + k, res);
    if res > 0.0 {
      BuildSorted(tr, res, from, ws);
    }
  }

  /** How a generator left the table. */
  datatype Generation =
    | Untouched                  // returned False, or raised, before clearing the table
    | ClearedThenRaised          // raised after clearing the table
    | Built(points: seq<Point>)  // returned normally with this table

  /** `_generate_waypoint_trajectory`: an empty waypoint list returns False;
      a zero resolution raises ZeroDivisionError inside the loop, after the
      table has been cleared. */
  function GenerateWaypointTrajectory(cfg: Config, tr: Transcendentals, ws: seq<Waypoint>): (r: Generation)
    ensures r == Untouched <==> |ws| == 0
    ensures r == ClearedThenRaised <==> |ws| > 0 && cfg.resolution == 0.0
    ensures r.Built? ==>
      var b := r.points;
      |b| >= 2 * |ws| &&
      PointPosition(b[0]) == Position(0.0, 0.0, cfg.defaultHeight) &&
      PointPosition(b[|b| - 1]) == PositionOf(ws[|ws| - 1]) && AtRest(b[|b| - 1]) &&
      (forall k :: 0 <= k < |b| ==> b[k].t == Stamp(k, cfg.resolution)) &&
      (cfg.resolution > 0.0 ==> Sorted(b))
  {
    if |ws| == 0 then Untouched
    else if cfg.resolution == 0.0 then ClearedThenRaised
    else
      var from := Position(0.0, 0.0, cfg.defaultHeight);
      GeneratedTable(tr, cfg.resolution, from, ws);
      Built(Build(tr, cfg.resolution, from, ws, 0))
  }

  /** `params.get(key, default)`. */
  function Get(params: map<string, real>, key: string, default: real): real {
    if key in params then params[key] else default
  }

  /** `_generate_square_trajectory`'s waypoint list: the four corners of a
      square of side `size_cm` around the centre, counter-clockwise from the
      top-right, then the first corner again; each holds for 0.5 s. */
  function SquareWaypoints(cfg: Config, params: map<string, real>): (r: seq<Waypoint>)
    ensures |r| == 5 && r[4] == r[0]
    ensures forall i :: 0 <= i < 5 ==>
      r[i].hold == 0.5 && r[i].yaw == 0.0 && r[i].tolerance == cfg.waypointTolerance &&
      r[i].height == Get(params, "height_cm", cfg.defaultHeight) &&
      r[i].speed == Get(params, "speed_cm_s", cfg.maxSpeed * 0.4)
    ensures var size := Get(params, "size_cm", cfg.squareSize);
      r[0].x - r[1].x == size && r[1].y - r[2].y == size &&
      r[3].x - r[2].x == size && r[0].y - r[3].y == size &&
      r[0].y == r[1].y && r[1].x == r[2].x && r[2].y == r[3].y && r[3].x == r[0].x
    ensures r[0].x + r[2].x == 2.0 * Get(params, "center_x_cm", 0.0)
    ensures r[0].y + r[2].y == 2.0 * Get(params, "center_y_cm", 0.0)
  {
    var size := Get(params, "size_cm", cfg.squareSize);
    var cx := Get(params, "center_x_cm", 0.0);
    var cy := Get(params, "center_y_cm", 0.0);
    var height := Get(params, "height_cm", cfg.defaultHeight);
    var speed := Get(params, "speed_cm_s", cfg.maxSpeed * 0.4);
    var half := size / 2.0;
    var corners := [(cx + half, cy + half), (cx - half, cy + half), (cx - half, cy - half), (cx + half, cy - half)];
    var ws := seq(4, i requires 0 <= i < 4 => Waypoint(corners[i].0, corners[i].1, height, 0.0, speed, 0.5, cfg.waypointTolerance));
    ws + [ws[0]]
  }

  /** The state after `set_target`, the stored setpoint (only on success) and
      the answer. */
  datatype Setting = Setting(next: State, setpoint: Option<Request>, ok: bool)

  /** Applies a generator's outcome; the waypoint generator succeeds only with
      a non-empty table, the geometric ones whenever they return. */
  function Finish(st: State, req: Request, g: Generation, geometric: bool): (r: Setting)
    ensures r.ok <==> g.Built? && (geometric || |g.points| > 0)
    ensures r.ok ==> r.setpoint == Some(req) && r.next == ResetTracking(st.(points := g.points))
    ensures !r.ok ==> r.setpoint.None?
  {
    match g
    case Untouched => Setting(st, None, false)
    case ClearedThenRaised => Setting(st.(points := []), None, false)
    case Built(ps) =>
      if geometric || |ps| > 0 then Setting(ResetTracking(st.(points := ps)), Some(req), true)
      else Setting(st.(points := ps), None, false)
  }

  /** `set_target`.  The type is recorded before generation, so it changes
      even when the call then fails.  `geometric` is what the circular or
      figure-eight generator does with the request's parameters. */
  function SetTarget(cfg: Config, tr: Transcendentals, st: State, req: Request, geometric: Generation): (r: Setting)
    ensures req.kind.None? || KindOf(req.kind.value).None? ==> r == Setting(st, None, false)
    ensures req.kind.Some? && KindOf(req.kind.value) == Some(Custom) ==>
      r == Setting(st.(kind := Some(Custom)), None, false)
    ensures req.kind == Some("waypoint") && |req.waypoints| == 0 ==> !r.ok && r.next.points == st.points
    ensures req.kind == Some("waypoint") && !(forall i :: 0 <= i < |req.waypoints| ==> req.waypoints[i].Keys == WaypointKeys) ==>
      !r.ok && r.next == st.(kind := Some(WaypointKind))
    ensures req.kind == Some("square") ==>
      r.next.waypoints == SquareWaypoints(cfg, req.parameters) &&
      (r.ok <==> cfg.resolution != 0.0)
    ensures r.ok ==>
      r.setpoint == Some(req) && r.next.kind == KindOf(req.kind.value) &&
      r.next.startTime.None? && !r.next.completed && r.next.travelled == 0.0
  {
    if req.kind.None? then Setting(st, None, false)
    else match KindOf(req.kind.value)
      case None => Setting(st, None, false)
      case Some(k) =>
        var st1 := st.(kind := Some(k));
        match k
        case WaypointKind =>
          if |req.waypoints| == 0 then Setting(st1, None, false)
          else (match ParseWaypoints(req.waypoints)
            case None => Setting(st1, None, false)
            case Some(ws) =>
              var st2 := st1.(waypoints := ws);
              Finish(st2, req, GenerateWaypointTrajectory(cfg, tr, ws), false))
        case Square =>
          var ws := SquareWaypoints(cfg, req.parameters);
          Finish(st1.(waypoints := ws), req, GenerateWaypointTrajectory(cfg, tr, ws), false)
        case Circular => Finish(st1, req, geometric, true)
        case FigureEight => Finish(st1, req, geometric, true)
        case Custom => Setting(st1, None, false)
  }

  /** The first index at or after `from` whose time stamp reaches `bound`. */
  function FirstFrom(ps: seq<Point>, from: nat, bound: real): (r: Option<nat>)
    requires from <= |ps|
    ensures r.Some? ==>
      from <= r.value < |ps| && ps[r.value].t >= bound &&
      forall k :: from <= k < r.value ==> ps[k].t < bound
    ensures r.None? ==> forall k :: from <= k < |ps| ==> ps[k].t < bound
    decreases |ps| - from
  {
    if from == |ps| then None
    else if ps[from].t >= bound then Some(from)
    else FirstFrom(ps, from + 1, bound)
  }

  /** `_get_current_trajectory_target` as an index into the table: the first
      point due at the elapsed time, moved forward to the first point due at
      the look-ahead time when there is one. */
  function TargetIndex(ps: seq<Point>, start: Option<real>, now: real, lookahead: real): (r: Option<nat>)
    ensures r.None? <==>
      |ps| == 0 || start.None? || forall k :: 0 <= k < |ps| ==> ps[k].t < now - start.value
    ensures r.Some? ==>
      var elapsed := now - start.value;
      r.value < |ps| &&
      exists i :: 0 <= i <= r.value && ps[i].t >= elapsed && (forall k :: 0 <= k < i ==> ps[k].t < elapsed) &&
        (r.value == i || ps[r.value].t >= elapsed + lookahead) &&
        forall k :: i <= k < r.value ==> ps[k].t < elapsed + lookahead
    ensures r.Some? && ps[r.value].t < (now - start.value) + lookahead ==>
      forall k :: r.value <= k < |ps| ==> ps[k].t < (now - start.value) + lookahead
  {
    if |ps| == 0 || start.None? then None
    else
      var elapsed := now - start.value;
      match FirstFrom(ps, 0, elapsed)
      case None => None
      case Some(i) =>
        var j := match FirstFrom(ps, i, elapsed + lookahead) case None => i case Some(j) => j;
        Some(if j < |ps| - 1 then j else |ps| - 1)
  }

  function CurrentTarget(ps: seq<Point>, start: Option<real>, now: real, lookahead: real): (r: Option<Point>)
    ensures r.None? <==> TargetIndex(ps, start, now, lookahead).None?
    ensures r.Some? ==> r.value == ps[TargetIndex(ps, start, now, lookahead).value]
  {
    match TargetIndex(ps, start, now, lookahead)
    case None => None
    case Some(j) => Some(ps[j])
  }

  /** On a table with non-decreasing time stamps the lookup runs out exactly
      when the elapsed time passes the last stamp. */
  lemma LookupEndsAfterLastStamp(ps: seq<Point>, start: real, now: real, lookahead: real)
    requires |ps| > 0 && Sorted(ps)
    ensures TargetIndex(ps, Some(start), now, lookahead).None? <==> now - start > ps[|ps| - 1].t
  {
    if now - start > ps[|ps| - 1].t {
      forall k | 0 <= k < |ps|
        ensures ps[k].t < now - start
      {
        assert ps[k].t <= ps[|ps| - 1].t;
      }
    }
  }

  /** On a generated waypoint table (positive resolution), tracking ends once
      the elapsed time passes (number of points − 1) resolution steps. */
  lemma GeneratedTableEnds(cfg: Config, tr: Transcendentals, ws: seq<Waypoint>, start: real, now: real)
    requires cfg.resolution > 0.0 && |ws| > 0
    ensures var g := GenerateWaypointTrajectory(cfg, tr, ws);
      g.Built? &&
      (TargetIndex(g.points, Some(start), now, cfg.lookahead).None? <==>
       now - start > Stamp(|g.points| - 1, cfg.resolution))
  {
    var g := GenerateWaypointTrajectory(cfg, tr, ws);
    LookupEndsAfterLastStamp(g.points, start, now, cfg.lookahead);
  }

  function Height(s: SensorData): real {
    if s.tof > 0.0 then s.tof else s.height
  }

  /** `_compute_feedforward_feedback_control`.  The position estimate is
      fixed at x = y = 0, as in the source. */
  function Feedforward(cfg: Config, s: SensorData, p: Point): (c: Channels)
    ensures c.InRange()
    ensures -80.0 <= c.roll <= 80.0 && -80.0 <= c.pitch <= 80.0
    ensures -80.0 <= c.throttle <= 80.0 && -80.0 <= c.yaw <= 80.0
    ensures -180.0 <= p.yaw - s.yaw <= 180.0 ==> c.yaw == Clip((p.yaw - s.yaw) * 1.5, -80.0, 80.0)
    ensures p.yaw - s.yaw > 180.0 ==> c.yaw == Clip((p.yaw - s.yaw - 360.0) * 1.5, -80.0, 80.0)
    ensures p.yaw - s.yaw < -180.0 ==> c.yaw == Clip((p.yaw - s.yaw + 360.0) * 1.5, -80.0, 80.0)
  {
    var ffx := p.vx * cfg.feedforwardGain;
    var ffy := p.vy * cfg.feedforwardGain;
    var ffz := p.vz * cfg.feedforwardGain;
    var fbx := (p.x - 0.0) * cfg.positionKp + (p.vx - s.vgx) * cfg.velocityKp;
    var fby := (p.y - 0.0) * cfg.positionKp + (p.vy - s.vgy) * cfg.velocityKp;
    var fbz := (p.height - Height(s)) * cfg.positionKp + (p.vz - s.vgz) * cfg.velocityKp;
    var pitch := -Clip((ffx + fbx) * 2.0, -80.0, 80.0);
    var roll := Clip((ffy + fby) * 2.0, -80.0, 80.0);
    var throttle := Clip((ffz + fbz) * 1.5, -80.0, 80.0);
    var yaw := Clip(WrapHalfTurn(p.yaw - s.yaw) * 1.5, -80.0, 80.0);
    Channels(roll, pitch, throttle, yaw)
  }

  /** `_update_distance_tracking`: adds the distance between successive
      ground-speed samples (the source's stand-in for positions). */
  function TrackDistance(tr: Transcendentals, st: State, s: SensorData): (r: State)
    ensures r.lastPosition == Some((s.vgx, s.vgy))
    ensures st.lastPosition.None? ==> r.travelled == st.travelled
    ensures r == st.(travelled := r.travelled, lastPosition := r.lastPosition)
  {
    var travelled :=
      if st.lastPosition.Some? then
        var dx := s.vgx - st.lastPosition.value.0;
        var dy := s.vgy - st.lastPosition.value.1;
        st.travelled + tr.sqrt(dx * dx + dy * dy)
      else st.travelled;
    st.(travelled := travelled, lastPosition := Some((s.vgx, s.vgy)))
  }

  /** `compute_control`.  A failed battery check is the base class's
      emergency stop; the first call starts the trajectory clock; running off
      the end of the table marks it completed and commands all zeros. */
  function ComputeControl(cfg: Config, tr: Transcendentals, st: State, s: SensorData, now: real): (r: (State, ComputeOutcome))
    ensures !SafetyCheck(s) ==> r == (st, Computed(ZeroCommand, true))
    ensures SafetyCheck(s) ==>
      r.1.Computed? && !r.1.stopped &&
      r.0.startTime == (if st.startTime.Some? then st.startTime else Some(now)) &&
      (r.0.completed <==> st.completed || CurrentTarget(st.points, r.0.startTime, now, cfg.lookahead).None?) &&
      (CurrentTarget(st.points, r.0.startTime, now, cfg.lookahead).None? ==> r.1.command == ZeroCommand) &&
      (CurrentTarget(st.points, r.0.startTime, now, cfg.lookahead).Some? ==>
        r.1.command == Feedforward(cfg, s, CurrentTarget(st.points, r.0.startTime, now, cfg.lookahead).value))
  {
    if !SafetyCheck(s) then (st, Computed(ZeroCommand, true))
    else
      var st1 := if st.startTime.None? then st.(startTime := Some(now)) else st;
      match CurrentTarget(st1.points, st1.startTime, now, cfg.lookahead)
      case None => (st1.(completed := true), Computed(ZeroCommand, false))
      case Some(p) =>
        var c := Feedforward(cfg, s, p);
        (TrackDistance(tr, st1, s), Computed(MakeCommand(c.roll, c.pitch, c.throttle, c.yaw), false))
  }

  /** `_on_reset`: table and waypoints cleared and tracking forgotten; the
      answer is the inner position controller's `reset()`, a hook outcome. */
  function OnReset(st: State): (r: State)
    ensures r.points == [] && r.waypoints == [] && r.kind == st.kind
    ensures r.startTime.None? && !r.completed && r.travelled == 0.0 && r.lastPosition.None?
    ensures TargetIndex(r.points, r.startTime, 0.0, 0.0).None?
  {
    ResetTracking(st.(points := [], waypoints := []))
  }
}

=== FILE: velocity_controller.dfy ===
/** The velocity controller: low-pass filtered velocity estimates (with a
    yaw rate from successive yaw samples), four PID axes on velocity error,
    target limits, and the altitude/speed/battery safety limits. */
module VelocityController {
  import opened Outcomes
  import opened Numerics
  import opened BaseController
  import Pid

  type Target = map<string, real>

  /** A full velocity setpoint or estimate: vertical, forward, lateral (cm/s) and yaw rate (deg/s). */
  datatype Velocities = Velocities(vz: real, vx: real, vy: real, vyaw: real)

  const Still := Velocities(0.0, 0.0, 0.0, 0.0)

  datatype Config = Config(
    vzGains: Pid.Gains, vxGains: Pid.Gains, vyGains: Pid.Gains, vyawGains: Pid.Gains,
    maxVertical: real, maxHorizontal: real, maxYawRate: real,
    alpha: real, minAltitude: real, maxAltitude: real)

  const DefaultConfig := Config(
    Pid.MakeGains(1.0, 0.2, 0.1, 80.0), Pid.MakeGains(0.8, 0.1, 0.15, 60.0),
    Pid.MakeGains(0.8, 0.1, 0.15, 60.0), Pid.MakeGains(1.2, 0.15, 0.1, 70.0),
    50.0, 80.0, 90.0, 0.7, 20.0, 300.0)

  datatype State = State(
    vz: Pid.State, vx: Pid.State, vy: Pid.State, vyaw: Pid.State,
    filtered: Velocities,
    lastYaw: Option<real>, lastYawTime: Option<real>)

  const Initial := State(Pid.Initial, Pid.Initial, Pid.Initial, Pid.Initial, Still, None, None)

  /** `_validate_target`: each component present must be within its limit. */
  function ValidTarget(cfg: Config, t: Target): (ok: bool)
    ensures ok <==>
      ("vz_cm_s" in t ==> Abs(t["vz_cm_s"]) <= cfg.maxVertical) &&
      ("vx_cm_s" in t ==> Abs(t["vx_cm_s"]) <= cfg.maxHorizontal) &&
      ("vy_cm_s" in t ==> Abs(t["vy_cm_s"]) <= cfg.maxHorizontal) &&
      ("vyaw_deg_s" in t ==> Abs(t["vyaw_deg_s"]) <= cfg.maxYawRate)
  {
    !("vz_cm_s" in t && Abs(t["vz_cm_s"]) > cfg.maxVertical) &&
    !("vx_cm_s" in t && Abs(t["vx_cm_s"]) > cfg.maxHorizontal) &&
    !("vy_cm_s" in t && Abs(t["vy_cm_s"]) > cfg.maxHorizontal) &&
    !("vyaw_deg_s" in t && Abs(t["vyaw_deg_s"]) > cfg.maxYawRate)
  }

  function Get(t: Target, key: string): real {
    if key in t then t[key] else 0.0
  }

  /** `set_target`: the new setpoint, or None when rejected; missing
      components default to 0. */
  function SetTarget(cfg: Config, t: Target): (r: Option<Velocities>)
    ensures r.None? <==>
      ("vz_cm_s" in t && Abs(t["vz_cm_s"]) > cfg.maxVertical) ||
      ("vx_cm_s" in t && Abs(t["vx_cm_s"]) > cfg.maxHorizontal) ||
      ("vy_cm_s" in t && Abs(t["vy_cm_s"]) > cfg.maxHorizontal) ||
      ("vyaw_deg_s" in t && Abs(t["vyaw_deg_s"]) > cfg.maxYawRate)
    ensures r.Some? ==>
      r.value.vz == (if "vz_cm_s" in t then t["vz_cm_s"] else 0.0) &&
      r.value.vx == (if "vx_cm_s" in t then t["vx_cm_s"] else 0.0) &&
      r.value.vy == (if "vy_cm_s" in t then t["vy_cm_s"] else 0.0) &&
      r.value.vyaw == (if "vyaw_deg_s" in t then t["vyaw_deg_s"] else 0.0)
    ensures r.Some? && cfg.maxVertical >= 0.0 && cfg.maxHorizontal >= 0.0 && cfg.maxYawRate >= 0.0 ==>
      Abs(r.value.vz) <= cfg.maxVertical && Abs(r.value.vx) <= cfg.maxHorizontal &&
      Abs(r.value.vy) <= cfg.maxHorizontal && Abs(r.value.vyaw) <= cfg.maxYawRate
  {
    if ValidTarget(cfg, t) then
      Some(Velocities(Get(t, "vz_cm_s"), Get(t, "vx_cm_s"), Get(t, "vy_cm_s"), Get(t, "vyaw_deg_s")))
    else None
  }

  /** The first-order low-pass filter step. */
  function Filter(alpha: real, previous: real, raw: real): real {
    alpha * previous + (1.0 - alpha) * raw
  }

  /** With alpha in [0, 1] the filtered value lies between the previous
      estimate and the raw sample. */
  lemma FilterBetween(alpha: real, previous: real, raw: real)
    requires 0.0 <= alpha <= 1.0
    ensures Min(previous, raw) <= Filter(alpha, previous, raw) <= Max(previous, raw)
  {
    var d := previous - raw;
    assert Filter(alpha, previous, raw) == raw + alpha * d;
    if d >= 0.0 {
      ProductNonNegative(alpha, d);
      ProductNonNegative(1.0 - alpha, d);
    } else {
      ProductNonNegative(alpha, -d);
      ProductNonNegative(1.0 - alpha, -d);
    }
  }

  lemma ProductNonNegative(a: real, b: real)
    requires a >= 0.0 && b >= 0.0
    ensures a * b >= 0.0
  {
  }

  /** `_update_velocity_estimates`, with `now` the clock reading. */
  function UpdateEstimates(cfg: Config, st: State, s: SensorData, now: real): (r: State)
    ensures r.filtered.vx == Filter(cfg.alpha, st.filtered.vx, s.vgx)
    ensures r.filtered.vy == Filter(cfg.alpha, st.filtered.vy, s.vgy)
    ensures r.filtered.vz == Filter(cfg.alpha, st.filtered.vz, s.vgz)
    ensures r.lastYaw == Some(s.yaw) && r.lastYawTime == Some(now)
    ensures st.lastYaw.None? || st.lastYawTime.None? || now - st.lastYawTime.value <= 0.0 ==>
      r.filtered.vyaw == st.filtered.vyaw
    ensures st.lastYaw.Some? && st.lastYawTime.Some? && now - st.lastYawTime.value > 0.0 ==>
      r.filtered.vyaw == Filter(cfg.alpha, st.filtered.vyaw, YawDifference(s.yaw, st.lastYaw.value) / (now - st.lastYawTime.value))
    ensures r.vz == st.vz && r.vx == st.vx && r.vy == st.vy && r.vyaw == st.vyaw
  {
    var a := cfg.alpha;
    var vyaw :=
      if st.lastYaw.Some? && st.lastYawTime.Some? && now - st.lastYawTime.value > 0.0 then
        Filter(a, st.filtered.vyaw, YawDifference(s.yaw, st.lastYaw.value) / (now - st.lastYawTime.value))
      else st.filtered.vyaw;
    st.(filtered := Velocities(Filter(a, st.filtered.vz, s.vgz), Filter(a, st.filtered.vx, s.vgx),
                               Filter(a, st.filtered.vy, s.vgy), vyaw),
        lastYaw := Some(s.yaw), lastYawTime := Some(now))
  }

  /** The yaw change between two samples, wrapped by at most one turn. */
  function YawDifference(current: real, last: real): (r: real)
    ensures r == current - last || r == current - last - 360.0 || r == current - last + 360.0
    ensures -180.0 <= current <= 180.0 && -180.0 <= last <= 180.0 ==> -180.0 <= r <= 180.0
  {
    WrapHalfTurn(current - last)
  }

  function Height(s: SensorData): real {
    if s.tof > 0.0 then s.tof else s.height
  }

  /** `_apply_safety_limits` given the filtered velocities. */
  function ApplySafetyLimits(cfg: Config, f: Velocities, c: Channels, s: SensorData): (r: Channels)
    ensures s.battery < 15.0 ==> r == Channels(0.0, 0.0, -30.0, 0.0)
    ensures !(s.battery < 15.0) && Height(s) > cfg.maxAltitude ==> r.throttle <= 0.0
    ensures !(s.battery < 15.0) && !(Height(s) > cfg.maxAltitude) && Height(s) < cfg.minAltitude ==> r.throttle >= 0.0
    ensures !(s.battery < 15.0) ==>
      r.pitch == (if Abs(f.vx) > cfg.maxHorizontal then c.pitch * 0.5 else c.pitch) &&
      r.roll == (if Abs(f.vy) > cfg.maxHorizontal then c.roll * 0.5 else c.roll) &&
      r.yaw == (if Abs(f.vyaw) > cfg.maxYawRate then c.yaw * 0.5 else c.yaw)
    ensures !(s.battery < 15.0) && cfg.minAltitude <= Height(s) <= cfg.maxAltitude ==>
      r.throttle == (if Abs(f.vz) > cfg.maxVertical then c.throttle * 0.5 else c.throttle)
  {
    var h := Height(s);
    var t1 := if h > cfg.maxAltitude then Min(c.throttle, 0.0)
              else if h < cfg.minAltitude then Max(c.throttle, 0.0)
              else c.throttle;
    var t2 := if Abs(f.vz) > cfg.maxVertical then t1 * 0.5 else t1;
    var p := if Abs(f.vx) > cfg.maxHorizontal then c.pitch * 0.5 else c.pitch;
    var ro := if Abs(f.vy) > cfg.maxHorizontal then c.roll * 0.5 else c.roll;
    var y := if Abs(f.vyaw) > cfg.maxYawRate then c.yaw * 0.5 else c.yaw;
    if s.battery < 15.0 then Channels(0.0, 0.0, -30.0, 0.0) else Channels(ro, p, t2, y)
  }

  /** `compute_control` for a full setpoint. */
  function ComputeControl(cfg: Config, st: State, s: SensorData, sp: Velocities, lastUpdate: real, now: real): (r: (State, ComputeOutcome))
    ensures !SafetyCheck(s) ==> r == (st, Computed(ZeroCommand, true))
    ensures SafetyCheck(s) ==> r.1.Computed? && !r.1.stopped && r.0.filtered == UpdateEstimates(cfg, st, s, now).filtered
  {
    var dt := if lastUpdate > 0.0 then now - lastUpdate else 0.02;
    if !SafetyCheck(s) then (st, Computed(ZeroCommand, true))
    else
      var st1 := UpdateEstimates(cfg, st, s, now);
      var z := Pid.Compute(cfg.vzGains, st1.vz, st1.filtered.vz, sp.vz, dt);
      var x := Pid.Compute(cfg.vxGains, st1.vx, st1.filtered.vx, sp.vx, dt);
      var y := Pid.Compute(cfg.vyGains, st1.vy, st1.filtered.vy, sp.vy, dt);
      var w := Pid.Compute(cfg.vyawGains, st1.vyaw, st1.filtered.vyaw, sp.vyaw, dt);
      var limited := ApplySafetyLimits(cfg, st1.filtered, Channels(y.output, -x.output, z.output, w.output), s);
      (st1.(vz := z.next, vx := x.next, vy := y.next, vyaw := w.next),
       Computed(MakeCommand(limited.roll, limited.pitch, limited.throttle, limited.yaw), false))
  }

  /** The battery < 15 emergency-descent rule never shapes a computed
      command, because the base-class check stops the controller first. */
  lemma EmergencyDescentUnreachable(cfg: Config, st: State, s: SensorData, sp: Velocities, lastUpdate: real, now: real)
    requires s.battery < 15.0
    ensures ComputeControl(cfg, st, s, sp, lastUpdate, now) == (st, Computed(ZeroCommand, true))
  {
  }

  /** `_on_reset`: the constructor's state again — PIDs reset, filtered
      values zero, no previous yaw sample. */
  function OnReset(st: State): (r: State)
    ensures r == Initial
    ensures r.filtered == Still && r.lastYaw.None? && r.lastYawTime.None?
  {
    State(Pid.Reset(st.vz), Pid.Reset(st.vx), Pid.Reset(st.vy), Pid.Reset(st.vyaw), Still, None, None)
  }

  /** `is_velocity_stable(m)`: no setpoint means not stable; otherwise every
      velocity error is within 5, 8, 8 and 10 times the multiplier. */
  function IsStable(sp: Option<Velocities>, f: Velocities, m: real): (r: bool)
    ensures sp.None? ==> !r
    ensures r ==> Abs(sp.value.vz - f.vz) <= 5.0 * m && Abs(sp.value.vx - f.vx) <= 8.0 * m &&
                  Abs(sp.value.vy - f.vy) <= 8.0 * m && Abs(sp.value.vyaw - f.vyaw) <= 10.0 * m
    ensures sp.Some? && Abs(sp.value.vz - f.vz) <= 5.0 * m && Abs(sp.value.vx - f.vx) <= 8.0 * m &&
              Abs(sp.value.vy - f.vy) <= 8.0 * m && Abs(sp.value.vyaw - f.vyaw) <= 10.0 * m
            ==> r
    ensures sp.Some? && sp.value == f && m >= 0.0 ==> r
  {
    sp.Some? &&
    Abs(sp.value.vz - f.vz) <= 5.0 * m && Abs(sp.value.vx - f.vx) <= 8.0 * m &&
    Abs(sp.value.vy - f.vy) <= 8.0 * m && Abs(sp.value.vyaw - f.vyaw) <= 10.0 * m
  }

  /** `emergency_brake`: requests an all-zero setpoint (kept only if the
      limits accept it) and returns the all-zero command. */
  function EmergencyBrake(cfg: Config, sp: Option<Velocities>): (r: (Option<Velocities>, ControlCommand))
    ensures cfg.maxVertical >= 0.0 && cfg.maxHorizontal >= 0.0 && cfg.maxYawRate >= 0.0 ==> r.0 == Some(Still)
    ensures r.1 == ZeroCommand
  {
    var t := map["vx_cm_s" := 0.0, "vy_cm_s" := 0.0, "vz_cm_s" := 0.0, "vyaw_deg_s" := 0.0];
    var sp' := match SetTarget(cfg, t) case Some(v) => Some(v) case None => sp;
    (sp', MakeCommand(0.0, 0.0, 0.0, 0.0))
  }
}
